=== FILE: README.md ===
# SpeedDate master server, modelled in Dafny

SpeedDate is a master server for multiplayer games. Game clients log in and
chat in channels. They gather in lobbies made of teams. A lobby asks a
spawner to start a game server process, which registers a room. Players
then obtain and validate access to that room. This project models that
core as pure functions over immutable state, one module per source class:

- the spawn task life cycle and the spawner registry (`SpawnTasks`, `Spawners`);
- lobby teams, lobbies and the lobby registry (`LobbyTeams`, `Lobbies`, `LobbyRegistry`);
- the client-side view of a joined lobby (`ClientLobby`);
- registered rooms and the rooms registry (`Rooms`, `RoomRegistry`);
- chat channels (`Chat`);
- the acknowledgement bookkeeping of a network peer (`Peers`);
- login, registration and permissions (`Auth`);
- configuration: command-line arguments, the XML reader, object merging
  and rule-based validation (`CommandLine`, `Xml`, `Merging`, `Validation`);
- two pieces of the Go services: JWT scope authorization (`JwtAuth`) and
  the `GameServer` resource with its pod (`GameServers`).

Handlers are functions from the plugin's state and the request to the new
state and the reply (`Messaging.Reply`). A reply of `None` means that the
C# handler throws before answering. The listeners a handler would notify
are returned as values where the order or the recipients matter (chat
notices, spawn-task callbacks, acknowledgement invocations).

Shared helpers are `Wrappers` (`Option`, `Result`), `Messaging` (response
statuses and replies) and `Strings`. `Strings` models the .NET string
functions used: `ToLower`, `Trim`, `Convert.ToInt32` on 32-bit values,
`Replace` and integer formatting. The source calls the culture-sensitive
`String.ToLower`; the model's `ToLower` folds the ASCII letters A-Z only
(see "## Left out").

Two enums are not part of the source. Their members are taken from how the
code uses them:

- `SpawnStatus`, ordered Killed < Aborted < Aborting < None < InQueue <
  StartingProcess < WaitingForProcess < ProcessRegistered < Finalized;
- `LobbyState`, with FailedToStart, Preparations, StartingGameServer,
  GameInProgress and GameOver. A new lobby is in Preparations.

## Model

| member | source | states |
|---|---|---|
| SpawnTasks.NewSpawnTask | SpeedDate.ServerPlugins/Spawner/SpawnTask.cs:31-42 | a new task has status None, no registered peer, requester or finalization, and no done listeners |
| SpawnTasks.AbortedStatuses | SpeedDate.ServerPlugins/Spawner/SpawnTask.cs:44 | a task counts as aborted exactly when its status is Killed, Aborted or Aborting |
| SpawnTasks.DoneStartingStatuses | SpeedDate.ServerPlugins/Spawner/SpawnTask.cs:46-48 | a task is done starting its process exactly when it is aborted or has reached WaitingForProcess or a later status |
| SpawnTasks.SetStatus | SpeedDate.ServerPlugins/Spawner/SpawnTask.cs:50-63 | the new status is announced once; entering a done status fires every queued done listener, in order, and clears the queue; any other status fires none |
| SpawnTasks.OnProcessStarted | SpeedDate.ServerPlugins/Spawner/SpawnTask.cs:78-84 | an aborted task is left alone; otherwise the task counts as started; the status never moves backwards |
| SpawnTasks.OnProcessKilled | SpeedDate.ServerPlugins/Spawner/SpawnTask.cs:86-89 | a killed process always leaves the task Killed, which counts as aborted |
| SpawnTasks.OnRegistered | SpeedDate.ServerPlugins/Spawner/SpawnTask.cs:91-99 | the registered peer is always recorded; an aborted task keeps its status and announces nothing; otherwise the status reaches at least ProcessRegistered |
| SpawnTasks.OnFinalized | SpeedDate.ServerPlugins/Spawner/SpawnTask.cs:101-108 | the finalization data is always kept; an aborted task keeps its status; otherwise the task becomes Finalized |
| SpawnTasks.WhenDone | SpeedDate.ServerPlugins/Spawner/SpawnTask.cs:130-134 | the listener joins the end of the done queue and the status is unchanged |
| SpawnTasks.Abort | SpeedDate.ServerPlugins/Spawner/SpawnTask.cs:136-144 | a finalized or later task is unchanged; an earlier one becomes Aborting, requests a kill of its process and has fired its done listeners |
| SpawnTasks.OnKillAnswered | SpeedDate.ServerPlugins/Spawner/SpawnTask.cs:146-155 | whatever the spawner answers to the kill request, the task ends Aborted |
| SpawnTasks.ApplyConservesCallbacks | SpeedDate.ServerPlugins/Spawner/SpawnTask.cs:115-134 | one event never loses or invents a done listener: the fired ones followed by the queued ones are the old queue plus the one registered |
| SpawnTasks.RunConservesCallbacks | SpeedDate.ServerPlugins/Spawner/SpawnTask.cs:115-134 | over any sequence of events, every listener registered is either fired once, in registration order, or still queued |
| SpawnTasks.FinalizedIsKept | SpeedDate.ServerPlugins/Spawner/SpawnTask.cs:91-144 | only a kill of the process or the answer to a kill request moves a finalized task out of Finalized |
| Spawners.EmptyIsValid | SpeedDate.ServerPlugins/Spawner/SpawnerPlugin.cs:110-118 | the empty registry satisfies the registry invariant: ids below their counters, and peer lists matching the spawners |
| Spawners.GetSpawners | SpeedDate.ServerPlugins/Spawner/SpawnerPlugin.cs:177-188 | an empty region lists every spawner; any other region lists exactly the spawners in that region |
| Spawners.PickSpawner | SpeedDate.ServerPlugins/Spawner/SpawnerPlugin.cs:147-159 | no spawner is chosen exactly when none in the region can take a task; a chosen one can, and it comes first in the order of most free slots |
| Spawners.CreateSpawner | SpeedDate.ServerPlugins/Spawner/SpawnerPlugin.cs:54-80 | the spawner is stored under a fresh id larger than every existing one and is listed under its peer; the invariant is kept |
| Spawners.DestroySpawner | SpeedDate.ServerPlugins/Spawner/SpawnerPlugin.cs:94-108 | the spawner leaves the registry and its peer's list; tasks are untouched; the invariant is kept |
| Spawners.OnRegisteredPeerDisconnect | SpeedDate.ServerPlugins/Spawner/SpawnerPlugin.cs:82-92 | every spawner of the disconnecting peer is destroyed; the other peers' spawners are kept unchanged |
| Spawners.Spawn | SpeedDate.ServerPlugins/Spawner/SpawnerPlugin.cs:120-138 | with no eligible spawner nothing changes; otherwise a new task with the request's properties and arguments is queued on an eligible spawner with the most free slots, under a fresh task id |
| Spawners.HandleRegisterSpawner | SpeedDate.ServerPlugins/Spawner/SpawnerPlugin.cs:328-344 | an insufficient permission level is refused and changes nothing; otherwise the reply carries the new spawner's id |
| Spawners.HandleClientsSpawnRequest | SpeedDate.ServerPlugins/Spawner/SpawnerPlugin.cs:228-275 | disabled client requests and a still-starting earlier request are refused; an enabled request with no such earlier request succeeds exactly when some spawner in the region is eligible and is otherwise answered "servers busy"; a success reply names the new task, now recorded as the client's request; every request is answered |
| Spawners.HandleAbortSpawnRequest | SpeedDate.ServerPlugins/Spawner/SpawnerPlugin.cs:277-298 | no request, a completed one and an already aborting one each get their own reply; a request still in progress becomes Aborting |
| Spawners.HandleGetCompletionData | SpeedDate.ServerPlugins/Spawner/SpawnerPlugin.cs:300-326 | the registry is unchanged; the data is returned exactly to the requester of a finalized task, and unknown tasks and strangers are refused |
| Spawners.HandleRegisterSpawnedProcess | SpeedDate.ServerPlugins/Spawner/SpawnerPlugin.cs:351-376 | an unknown task or a wrong unique code is refused; otherwise the process is registered with the task and receives the task's properties |
| Spawners.HandleCompleteSpawnProcess | SpeedDate.ServerPlugins/Spawner/SpawnerPlugin.cs:378-402 | only the peer registered for the task can finalize it, and then the task keeps the finalization data |
| Spawners.HandleProcessKilled | SpeedDate.ServerPlugins/Spawner/SpawnerPlugin.cs:404-415 | a known task becomes Killed and no other task changes; an unknown one changes nothing |
| Spawners.HandleProcessStarted | SpeedDate.ServerPlugins/Spawner/SpawnerPlugin.cs:417-428 | a known task that is not aborted counts as started; the set of tasks is unchanged |
| Spawners.OnKillRequestAnswered | SpeedDate.ServerPlugins/Spawner/SpawnTask.cs:146-155 | the task whose kill was requested ends Aborted and the invariant is kept |
| LobbyTeams.NewTeam | SpeedDate.ServerPlugins/Lobbies/LobbyTeam.cs:28-36 | a new team has the given name, between 1 and 5 players, no members and no properties |
| LobbyTeams.AddMember | SpeedDate.ServerPlugins/Lobbies/LobbyTeam.cs:53-64 | adding fails exactly for a username already in the team; on success the team gains that member, the count grows by one and the member records the team |
| LobbyTeams.RemoveMember | SpeedDate.ServerPlugins/Lobbies/LobbyTeam.cs:70-76 | the username leaves the team; the member's team is cleared only if it was this team |
| LobbyTeams.SetProperty | SpeedDate.ServerPlugins/Lobbies/LobbyTeam.cs:83-86 | the key takes the value and the other properties and the members are kept |
| LobbyTeams.AddThenRemove | SpeedDate.ServerPlugins/Lobbies/LobbyTeam.cs:53-76 | removing a member right after adding it restores the team and leaves the member without a team |
| CommandLine.ExtractValue | SpeedDate/CommandLineArgs.cs:118-125 | an absent argument yields the default; a present one yields the word after its first occurrence, or an index error when it is the last word |
| CommandLine.ExtractValueInt | SpeedDate/CommandLineArgs.cs:127-131 | an absent name gives the default; a name given last is an index error; otherwise the word after the first occurrence is parsed as a 32-bit integer, and a parse failure is the parse's exception |
| CommandLine.AbsentIntIsDefault | SpeedDate/CommandLineArgs.cs:127-136 | an absent integer argument yields the caller's default |
| CommandLine.MasterPortValue | SpeedDate/CommandLineArgs.cs:12-37 | without the master-port argument the port is 60125; appending the argument with a 32-bit number yields that number |
| CommandLine.AbsentIntIsMinusOne | SpeedDate/CommandLineArgs.cs:127-131 | an absent integer argument read with the default default yields -1 |
| Strings.ParseInt32 | SpeedDate/CommandLineArgs.cs:127-131 | after trimming white space, text that is not an optional '+' or '-' followed by digits is a format error; a well-formed number outside the 32-bit range overflows; otherwise the result is the number written, negative only with a minus sign |
| Strings.ParseIntToString | SpeedDate/CommandLineArgs.cs:127-131 | parsing the decimal text of a 32-bit number gives that number back |
| Lobbies.TeamMap | SpeedDate.ServerPlugins/Lobbies/Implementations/BaseLobby.cs:42-61 | the team dictionary holds exactly the teams' names, each mapped to its own team when names are distinct |
| Lobbies.NewLobby | SpeedDate.ServerPlugins/Lobbies/Implementations/BaseLobby.cs:42-61 | construction fails exactly when two teams share a name; a new lobby is in Preparations with no members, no game server and every team stored under its name; its maximum and minimum player counts are the sums over its teams |
| Lobbies.DefaultTeamsCapacity | SpeedDate.ServerPlugins/Lobbies/LobbyTeam.cs:28-36 | teams built from names alone hold 5 players each and need one each |
| Lobbies.NewLobbyIsValid | SpeedDate.ServerPlugins/Lobbies/Implementations/BaseLobby.cs:42-61 | a lobby built from distinctly named empty teams satisfies the lobby invariant |
| Lobbies.PickNewGameMaster | SpeedDate.ServerPlugins/Lobbies/Implementations/BaseLobby.cs:384-390 | with game masters enabled the earliest member still present becomes master, or none; nothing else changes |
| Lobbies.GetMember | SpeedDate.ServerPlugins/Lobbies/Implementations/BaseLobby.cs:271-276 | a peer is found exactly when it is a member's peer, and the member found is the one on that peer |
| Lobbies.PickTeamIn | SpeedDate.ServerPlugins/Lobbies/Implementations/BaseLobby.cs:392-397 | no team is picked exactly when none can take a player; otherwise the picked one has the fewest players and is the first such in team order |
| Lobbies.PickTeamForPlayer | SpeedDate.ServerPlugins/Lobbies/Implementations/BaseLobby.cs:392-397 | a picked team can take a player and no open team has fewer players |
| Lobbies.AdmissionError | SpeedDate.ServerPlugins/Lobbies/Implementations/BaseLobby.cs:117-163 | each refusal message is given exactly when its guard is the first to fail, in the source's order |
| Lobbies.Enter | SpeedDate.ServerPlugins/Lobbies/Implementations/BaseLobby.cs:165-202 | joining a team fails only for a member already in it; otherwise the member, peer, team, subscription and join order are all recorded, and the first member becomes game master |
| Lobbies.AddPlayer | SpeedDate.ServerPlugins/Lobbies/Implementations/BaseLobby.cs:117-202 | a failed admission guard is reported; "Invalid lobby team" exactly when no team is open; success adds exactly this member, unready, in the picked team, and the user is now in this lobby |
| Lobbies.AddPlayerTeamStepSucceeds | SpeedDate.ServerPlugins/Lobbies/Implementations/BaseLobby.cs:165-181 | in a consistent lobby the team step never fails, so "Not allowed to join a team" is never the answer |
| Lobbies.AddPlayerAdmits | SpeedDate.ServerPlugins/Lobbies/Implementations/BaseLobby.cs:117-202 | a player is admitted if and only if every admission guard passes and some team is open |
| Lobbies.EnterKeepsRoster | SpeedDate.ServerPlugins/Lobbies/Implementations/BaseLobby.cs:165-202 | joining keeps members, peers and join order in agreement |
| Lobbies.EnterKeepsTeams | SpeedDate.ServerPlugins/Lobbies/Implementations/BaseLobby.cs:165-202 | joining keeps every member in exactly the team it records |
| Lobbies.AddPlayerKeepsValid | SpeedDate.ServerPlugins/Lobbies/Implementations/BaseLobby.cs:117-202 | a successful join keeps the whole lobby invariant |
| Lobbies.MarkDestroyed | SpeedDate.ServerPlugins/Lobbies/Implementations/BaseLobby.cs:464-484 | destroying marks the lobby, and names its game's spawn task, whose process is to be killed, only the first time |
| Lobbies.Leave | SpeedDate.ServerPlugins/Lobbies/Implementations/BaseLobby.cs:204-238 | the member leaves the roster, its team, the join order and the subscribers, and a leaving master is replaced by the earliest remaining member |
| Lobbies.RemoveNamed | SpeedDate.ServerPlugins/Lobbies/Implementations/BaseLobby.cs:204-238 | a stranger changes nothing; a member is removed everywhere; the lobby is destroyed exactly when its last member leaves and it is not kept alive |
| Lobbies.RemovePlayer | SpeedDate.ServerPlugins/Lobbies/Implementations/BaseLobby.cs:204-238 | fails exactly for a peer without a username; otherwise only that user's entry and peer are gone |
| Lobbies.LeaveKeepsRoster | SpeedDate.ServerPlugins/Lobbies/Implementations/BaseLobby.cs:204-238 | leaving keeps members, peers and join order in agreement |
| Lobbies.LeaveKeepsTeams | SpeedDate.ServerPlugins/Lobbies/Implementations/BaseLobby.cs:204-238 | leaving keeps every member in exactly its team, and no team still lists the leaver |
| Lobbies.LeaveKeepsMaster | SpeedDate.ServerPlugins/Lobbies/Implementations/BaseLobby.cs:204-238 | after a member leaves a lobby that is not destroyed, the game master is still a member |
| Lobbies.LeaveEmpties | SpeedDate.ServerPlugins/Lobbies/Implementations/BaseLobby.cs:801-812 | the lobby becomes empty exactly when its only member leaves |
| Lobbies.RemoveNamedKeepsValid | SpeedDate.ServerPlugins/Lobbies/Implementations/BaseLobby.cs:204-238 | removing a player keeps the lobby invariant and takes the player out of every team |
| Lobbies.RemoveAllRemoves | SpeedDate.ServerPlugins/Lobbies/Implementations/BaseLobby.cs:464-484 | removing a list of players removes exactly those names, and a destroyed lobby stays destroyed |
| Lobbies.DestroyRemovesAll | SpeedDate.ServerPlugins/Lobbies/Implementations/BaseLobby.cs:464-484 | destroying empties and marks the lobby, names the game task whose process is to be killed only once, and destroying again changes nothing |
| Lobbies.TryJoinTeam | SpeedDate.ServerPlugins/Lobbies/Implementations/BaseLobby.cs:349-377 | with switching off nothing happens; an unknown team is an error; a switch happens only into an open team the member is not already in |
| Lobbies.SwitchShape | SpeedDate.ServerPlugins/Lobbies/Implementations/BaseLobby.cs:349-377 | a switch moves the member from its old team into the new one and updates only the member's team record |
| Lobbies.SwitchKeepsTeams | SpeedDate.ServerPlugins/Lobbies/Implementations/BaseLobby.cs:349-377 | after a switch every member is still in exactly one team, the one it records |
| Lobbies.TryJoinTeamMoves | SpeedDate.ServerPlugins/Lobbies/Implementations/BaseLobby.cs:349-377 | a successful switch keeps the invariant and leaves the member in the chosen team and no other |
| Lobbies.SetProperty | SpeedDate.ServerPlugins/Lobbies/Implementations/BaseLobby.cs:240-269 | a property is set exactly when players may change properties and, with game masters, the setter is the master; then only that key changes |
| Lobbies.SetLobbyProperties | SpeedDate.ServerPlugins/Lobbies/Implementations/BaseLobby.cs:309-315 | every given property is stored over the old value and the others are kept |
| Lobbies.ControlDefault | SpeedDate.ServerPlugins/Lobbies/Implementations/BaseLobby.cs:330-347 | a control's default value is its first option, or empty without options |
| Lobbies.AddControl | SpeedDate.ServerPlugins/Lobbies/Implementations/BaseLobby.cs:330-347 | the control is appended and its property takes the explicit default, or else the control's default |
| Lobbies.SetStatusTextAsWritten | SpeedDate.ServerPlugins/Lobbies/Implementations/BaseLobby.cs:93-103 | the status text setter as written leaves the stored text unchanged |
| Lobbies.SetStatusText | SpeedDate.ServerPlugins/Lobbies/Implementations/BaseLobby.cs:93-103 | the corrected setter stores the text and changes nothing else |
| Lobbies.StatusTextIsNeverStored | SpeedDate.ServerPlugins/Lobbies/Implementations/BaseLobby.cs:93-103 | with the setter as written, a state change's status text never reaches the lobby |
| Lobbies.Unready | SpeedDate.ServerPlugins/Lobbies/Implementations/BaseLobby.cs:814-844 | the same members, all of them unready |
| Lobbies.SetState | SpeedDate.ServerPlugins/Lobbies/Implementations/BaseLobby.cs:814-844 | setting the current state changes nothing; a new state resets every member to unready and stores the state's name as status text through the corrected setter |
| Lobbies.SetStateKeepsValid | SpeedDate.ServerPlugins/Lobbies/Implementations/BaseLobby.cs:80-91 | a state change keeps the lobby invariant |
| Lobbies.OnSpawnServerStatusChanged | SpeedDate.ServerPlugins/Lobbies/Implementations/BaseLobby.cs:511-543 | a starting status moves the lobby to StartingGameServer; Finalized starts the game at the room's address; an abort goes back to Preparations or ends in FailedToStart or GameOver, depending on play-again |
| Lobbies.OnRoomDestroyed | SpeedDate.ServerPlugins/Lobbies/Implementations/BaseLobby.cs:573-584 | the game address and spawn task are forgotten and the lobby goes back to Preparations or to GameOver |
| Lobbies.FirstLackingTeam | SpeedDate.ServerPlugins/Lobbies/Implementations/BaseLobby.cs:720-727 | the first team in order that has fewer than its minimum of players, or none if every team is full enough |
| Lobbies.ManualStartCheck | SpeedDate.ServerPlugins/Lobbies/Implementations/BaseLobby.cs:676-730 | the guards in order, before anything is sent: each of the seven refusals is given exactly when its guard is the first to fail, a lacking team being the first in team order; no refusal exactly when every condition of a manual start holds |
| Lobbies.SetGameSpawnTask | SpeedDate.ServerPlugins/Lobbies/Implementations/BaseLobby.cs:491-509 | the lobby records the new task and a different previous task is aborted; no other task changes |
| Lobbies.StartGame | SpeedDate.ServerPlugins/Lobbies/Implementations/BaseLobby.cs:436-462 | a destroyed lobby refuses; the lobby becomes private; with no eligible spawner it refuses as busy; otherwise a task for this lobby's id is spawned and the lobby is starting |
| Lobbies.StartGameManually | SpeedDate.ServerPlugins/Lobbies/Implementations/BaseLobby.cs:676-730 | a failed check is the refusal and changes nothing, and it throws exactly when the asking peer is not a member, since the chat message to it dereferences `null`; once the checks pass, the servers are busy exactly when no spawner can take the lobby's region; a start goes to an eligible spawner and leaves every member unready and the lobby starting |
| LobbyRegistry.NewRegistry | SpeedDate.ServerPlugins/Lobbies/LobbiesPlugin.cs:61-109 | a new registry has no factories or lobbies and is well-formed |
| LobbyRegistry.AddFactory | SpeedDate.ServerPlugins/Lobbies/LobbiesPlugin.cs:61-67 | the factory is stored under its id and the others are kept |
| LobbyRegistry.AddFactoryOverwrites | SpeedDate.ServerPlugins/Lobbies/LobbiesPlugin.cs:61-67 | a later factory with the same id replaces the earlier one |
| LobbyRegistry.AddLobby | SpeedDate.ServerPlugins/Lobbies/LobbiesPlugin.cs:69-81 | an id already taken is refused and changes nothing; otherwise the lobby is stored under its id |
| LobbyRegistry.OnLobbyDestroyed | SpeedDate.ServerPlugins/Lobbies/LobbiesPlugin.cs:87-91 | the lobby leaves the registry and the others are kept |
| LobbyRegistry.GenerateLobbyId | SpeedDate.ServerPlugins/Lobbies/LobbiesPlugin.cs:106-109 | each id is the counter's value and the counter moves past it |
| LobbyRegistry.GenerateLobbyIdIncreases | SpeedDate.ServerPlugins/Lobbies/LobbiesPlugin.cs:106-109 | ids increase strictly and a new id names no registered lobby |
| LobbyRegistry.CreateLobby | SpeedDate.ServerPlugins/Lobbies/LobbyFactoryAnonymous.cs:25-35 | the lobby gets a fresh id, the request's properties over its own, and the factory's id as its type when it has none |
| LobbyRegistry.CreateRefusal | SpeedDate.ServerPlugins/Lobbies/LobbiesPlugin.cs:113-140 | each refusal of a create request is given exactly when its guard is the first to fail |
| LobbyRegistry.HandleCreateLobby | SpeedDate.ServerPlugins/Lobbies/LobbiesPlugin.cs:113-160 | a refused request changes nothing; otherwise the new lobby is registered and its id is returned; the creator does not join |
| LobbyRegistry.CreateKeepsWellFormed | SpeedDate.ServerPlugins/Lobbies/LobbiesPlugin.cs:113-160 | in a well-formed registry registration never collides and creation keeps it well-formed |
| LobbyRegistry.HandleJoinLobby | SpeedDate.ServerPlugins/Lobbies/LobbiesPlugin.cs:166-194 | a user already in a lobby and an unknown lobby are refused; the lobby's own refusal is passed on; success updates the lobby and the user |
| LobbyRegistry.JoinKeepsWellFormed | SpeedDate.ServerPlugins/Lobbies/LobbiesPlugin.cs:166-194 | a successful join puts the user in that lobby, keeps the registry well-formed and leaves the other lobbies alone |
| LobbyRegistry.HandleLeaveLobby | SpeedDate.ServerPlugins/Lobbies/LobbiesPlugin.cs:200-211 | an unknown lobby is answered with success; a destroyed-by-leaving lobby leaves the registry and its spawn task is named so that its process is killed |
| LobbyRegistry.LastLeaverUnregisters | SpeedDate.ServerPlugins/Lobbies/LobbiesPlugin.cs:200-211 | the last member out of a lobby that is not kept alive takes the lobby out of the registry |
| LobbyRegistry.SetEach | SpeedDate.ServerPlugins/Lobbies/LobbiesPlugin.cs:213-238 | properties are set in order; the first refusal stops the loop and names its key |
| LobbyRegistry.HandleSetLobbyProperties | SpeedDate.ServerPlugins/Lobbies/LobbiesPlugin.cs:213-238 | an unknown lobby is refused; otherwise either every property is stored or none is |
| LobbyRegistry.SetPropertiesAllOrNothing | SpeedDate.ServerPlugins/Lobbies/LobbiesPlugin.cs:213-238 | a refusal names the first key and happens exactly when the caller may not set properties |
| LobbyRegistry.GameInfoOf | SpeedDate.ServerPlugins/Lobbies/LobbiesPlugin.cs:409-422 | a lobby's listing shows its id, name, type, player counts and properties |
| LobbyRegistry.GetPublicGames | SpeedDate.ServerPlugins/Lobbies/LobbiesPlugin.cs:409-422 | one listing entry per registered lobby, under its id |
| LobbyRegistry.JoinShowsInListing | SpeedDate.ServerPlugins/Lobbies/LobbiesPlugin.cs:166-194 | after a join that lobby lists one more online player and no other entry changes |
| ClientLobby.Join | SpeedDate.ClientPlugins.Peer/Lobby/JoinedLobby.cs:40-60 | the client's view starts from the server's lobby data, with members and teams keyed by name |
| ClientLobby.OnPropertyOfMember | SpeedDate.ClientPlugins.Peer/Lobby/JoinedLobby.cs:221-236 | a known member's property is set and the listener told; an unknown member changes nothing |
| ClientLobby.OnLeft | SpeedDate.ClientPlugins.Peer/Lobby/JoinedLobby.cs:238-250 | a leave message for another lobby is ignored; for this lobby the view is marked as left |
| ClientLobby.OnMemberLeftMsg | SpeedDate.ClientPlugins.Peer/Lobby/JoinedLobby.cs:259-269 | the member list is not changed and the listener is told about a known member only |
| ClientLobby.OnMemberJoinedMsg | SpeedDate.ClientPlugins.Peer/Lobby/JoinedLobby.cs:271-277 | the new member replaces any member with the same name |
| ClientLobby.ParseBool | SpeedDate.ClientPlugins.Peer/Lobby/JoinedLobby.cs:297 | "true" and "false" in any letter case, around white space, are read; anything else fails |
| ClientLobby.ParseBoolText | SpeedDate.ClientPlugins.Peer/Lobby/JoinedLobby.cs:297 | the text the server sends for a flag reads back as that flag |
| ClientLobby.ParseBoolRejects | SpeedDate.ClientPlugins.Peer/Lobby/JoinedLobby.cs:297 | any text whose trimmed length is neither 4 nor 5 is rejected |
| ClientLobby.ParseBoolPadded | SpeedDate.ClientPlugins.Peer/Lobby/JoinedLobby.cs:297 | either word in any letter casing, with white space on either side, reads as its flag |
| ClientLobby.OnReadyStatus | SpeedDate.ClientPlugins.Peer/Lobby/JoinedLobby.cs:288-300 | a known member's ready flag follows the message; an unparsable flag raises and changes nothing |
| ClientLobby.OnTeamChange | SpeedDate.ClientPlugins.Peer/Lobby/JoinedLobby.cs:302-319 | a known member of a known team moves into it; anything else changes nothing |
| ClientLobby.OnLobbyProperty | SpeedDate.ClientPlugins.Peer/Lobby/JoinedLobby.cs:339-345 | the property is stored and the others are kept |
| ClientLobby.Handle | SpeedDate.ClientPlugins.Peer/Lobby/JoinedLobby.cs:221-345 | every message kind reaches its handler; master, status text, state and chat messages update the view as sent |
| ClientLobby.HandleKeepsKeyed | SpeedDate.ClientPlugins.Peer/Lobby/JoinedLobby.cs:221-345 | every handler keeps members and teams stored under their own names |
| ClientLobby.HandleNeverRemovesMembers | SpeedDate.ClientPlugins.Peer/Lobby/JoinedLobby.cs:221-345 | no message removes a member from the view |
| ClientLobby.MemberLeftKeepsMember | SpeedDate.ClientPlugins.Peer/Lobby/JoinedLobby.cs:259-269 | after a "member left" message the member is still in the view |
| ClientLobby.LeftStaysLeft | SpeedDate.ClientPlugins.Peer/Lobby/JoinedLobby.cs:238-250 | once the view is marked as left, no sequence of messages clears the mark |
| ClientLobby.ReadyStatusFollowsServer | SpeedDate.ClientPlugins.Peer/Lobby/JoinedLobby.cs:288-300 | the ready flag the server sends is the flag the client stores |
| Rooms.ParseBool | SpeedDate.ServerPlugins/Rooms/RegisteredRoom.cs:51-58 | a text whose trimmed form is not four characters long reads as false |
| Rooms.ParseBoolReadsTrue | SpeedDate.ServerPlugins/Rooms/RegisteredRoom.cs:51-58 | "true" in any letter casing, with white space on either side, reads as true |
| Rooms.OverrideOptionsWithProperties | SpeedDate.ServerPlugins/Rooms/RegisteredRoom.cs:51-58 | the public flag follows the room's public-key property when it is present, and the other options are kept |
| Rooms.NewRoom | SpeedDate.ServerPlugins/Rooms/RegisteredRoom.cs:31-43 | a new room has no pending request, no unconfirmed access and nobody in it |
| Rooms.IndexOfPeer | SpeedDate.ServerPlugins/Rooms/RegisteredRoom.cs:97-98 | the position of the first access held by the peer, found exactly when it holds one |
| Rooms.IndexOfToken | SpeedDate.ServerPlugins/Rooms/RegisteredRoom.cs:172 | the position of the access with the token, found exactly when there is one |
| Rooms.Put | SpeedDate.ServerPlugins/Rooms/RegisteredRoom.cs:158 | storing under a token replaces the access with that token or adds it |
| Rooms.Unexpired | SpeedDate.ServerPlugins/Rooms/RegisteredRoom.cs:201-209 | keeps exactly the accesses whose deadline has not passed, in order |
| Rooms.NewRoomIsConsistent | SpeedDate.ServerPlugins/Rooms/RegisteredRoom.cs:31-43 | a new room satisfies the room invariant |
| Rooms.GetAccessAsWritten | SpeedDate.ServerPlugins/Rooms/RegisteredRoom.cs:79-162 | the access request as written never sees a player already in the room |
| Rooms.GetAccess | SpeedDate.ServerPlugins/Rooms/RegisteredRoom.cs:79-162 | a pending or present player is refused; a held access is answered again with a new deadline; a full room is refused; otherwise the request becomes pending |
| Rooms.OnAccessAnswer | SpeedDate.ServerPlugins/Rooms/RegisteredRoom.cs:137-161 | the request stops pending; a refusal is passed on; a token is stored as unconfirmed with a fresh deadline |
| Rooms.ValidateAccess | SpeedDate.ServerPlugins/Rooms/RegisteredRoom.cs:170-196 | an unknown token is refused; a known one is used up; a disconnected holder is refused; otherwise the holder is now in the room |
| Rooms.ClearTimedOutAccesses | SpeedDate.ServerPlugins/Rooms/RegisteredRoom.cs:201-209 | exactly the unconfirmed accesses past their deadline are dropped |
| Rooms.OnPlayerLeft | SpeedDate.ServerPlugins/Rooms/RegisteredRoom.cs:218-228 | the player's access is no longer in use |
| Rooms.DestroyRoom | SpeedDate.ServerPlugins/Rooms/RegisteredRoom.cs:230-240 | destroying drops the unconfirmed accesses |
| Rooms.GetAccessKeepsConsistent | SpeedDate.ServerPlugins/Rooms/RegisteredRoom.cs:79-162 | an access request keeps the room invariant |
| Rooms.PutKeepsDistinct | SpeedDate.ServerPlugins/Rooms/RegisteredRoom.cs:158 | storing an access keeps tokens distinct |
| Rooms.OnAccessAnswerKeepsConsistent | SpeedDate.ServerPlugins/Rooms/RegisteredRoom.cs:137-161 | the owner's answer keeps the room invariant |
| Rooms.ValidateAccessKeepsConsistent | SpeedDate.ServerPlugins/Rooms/RegisteredRoom.cs:170-196 | validation keeps the room invariant |
| Rooms.UnexpiredKeepsDistinct | SpeedDate.ServerPlugins/Rooms/RegisteredRoom.cs:201-209 | dropping expired accesses keeps tokens and peers distinct |
| Rooms.ClearTimedOutKeepsConsistent | SpeedDate.ServerPlugins/Rooms/RegisteredRoom.cs:201-209 | clearing timed-out accesses keeps the room invariant |
| Rooms.ValidateNeverThrows | SpeedDate.ServerPlugins/Rooms/RegisteredRoom.cs:170-196 | in a consistent room validation never meets a holder already in the room |
| Rooms.SecondAccessThrowsAsWritten | SpeedDate.ServerPlugins/Rooms/RegisteredRoom.cs:79-196 | as written, a player in the room can get and validate a second access, and that validation raises |
| Rooms.SecondAccessRefused | SpeedDate.ServerPlugins/Rooms/RegisteredRoom.cs:79-162 | with the corrected guard, a player in the room is refused a second access |
| RoomRegistry.InitialIsValid | SpeedDate.ServerPlugins/Rooms/RoomsPlugin.cs:57-60 | the empty plugin satisfies the registry invariant |
| RoomRegistry.RegisterRoom | SpeedDate.ServerPlugins/Rooms/RoomsPlugin.cs:68-97 | the room is stored under a fresh id, in all rooms and in its owner's rooms |
| RoomRegistry.DestroyRoom | SpeedDate.ServerPlugins/Rooms/RoomsPlugin.cs:103-122 | the room leaves all rooms and its owner's rooms |
| RoomRegistry.OnRegisteredPeerDisconnect | SpeedDate.ServerPlugins/Rooms/RoomsPlugin.cs:124-138 | every room the peer registered is destroyed; the others stay unchanged |
| RoomRegistry.OwnerRefusal | SpeedDate.ServerPlugins/Rooms/RoomsPlugin.cs:208-231 | an owner-only request is refused exactly when the room is unknown or the caller does not own it |
| RoomRegistry.HandleRegisterRoom | SpeedDate.ServerPlugins/Rooms/RoomsPlugin.cs:192-206 | an insufficient permission level is refused; otherwise the reply is the new room's id |
| RoomRegistry.HandleDestroyRoom | SpeedDate.ServerPlugins/Rooms/RoomsPlugin.cs:208-231 | only the owner destroys a room, and then it is gone |
| RoomRegistry.HandleValidateRoomAccess | SpeedDate.ServerPlugins/Rooms/RoomsPlugin.cs:233-272 | only the owner validates; a good token admits its holder, who is named in the reply |
| RoomRegistry.HandleSaveRoomOptions | SpeedDate.ServerPlugins/Rooms/RoomsPlugin.cs:274-296 | only the owner replaces a room's options, and then exactly as given |
| RoomRegistry.HandlePlayerLeftRoom | SpeedDate.ServerPlugins/Rooms/RoomsPlugin.cs:327-349 | only the owner reports a player gone, whose access is then released |
| RoomRegistry.HandleGetRoomAccess | SpeedDate.ServerPlugins/Rooms/RoomsPlugin.cs:298-325 | an unknown room and a wrong password are refused; otherwise the room decides with the corrected `GetAccess`, and a forwarded request is answered later |
| RoomRegistry.HandleAccessAnswer | SpeedDate.ServerPlugins/Rooms/RoomsPlugin.cs:318-324 | the owner's answer always reaches the requester, "Unknown Error" standing for a refusal without a message; a registered room records it, and a room destroyed meanwhile leaves the registry unchanged |
| RoomRegistry.GameInfoOf | SpeedDate.ServerPlugins/Rooms/RoomsPlugin.cs:158-171 | a room's listing shows its id, name, player counts, properties and whether it has a password |
| RoomRegistry.GetPublicGames | SpeedDate.ServerPlugins/Rooms/RoomsPlugin.cs:158-171 | exactly the public rooms are listed, each under its id |
| RoomRegistry.PublicPropertyDecidesListing | SpeedDate.ServerPlugins/Rooms/RegisteredRoom.cs:51-58 | a room registered with the public-key property is listed exactly when the property reads as true, and any padded letter casing of "true" lists it |
| RoomRegistry.ListingMatchesPasswordCheck | SpeedDate.ServerPlugins/Rooms/RoomsPlugin.cs:298-325 | a room listed without a password never answers "Invalid password", and a listed password refuses every other one |
| RoomRegistry.DisconnectClearsListing | SpeedDate.ServerPlugins/Rooms/RoomsPlugin.cs:124-171 | after its owner disconnects no room of that owner is listed and the others are listed as before |
| Chat.NewChannel | SpeedDate.ServerPlugins/Chat/ChatChannel.cs:19-23 | a new channel has its name and no users |
| Chat.Notify | SpeedDate.ServerPlugins/Chat/ChatChannel.cs:48-74 | the notice goes to exactly the users other than the one excluded |
| Chat.AddUser | SpeedDate.ServerPlugins/Chat/ChatChannel.cs:30-60 | a name already present is refused; otherwise the two are linked and exactly the others are told |
| Chat.RemoveUser | SpeedDate.ServerPlugins/Chat/ChatChannel.cs:96-111 | the links are undone, a default channel equal to this one is cleared, and the remaining users are told |
| Chat.BroadcastMessage | SpeedDate.ServerPlugins/Chat/ChatChannel.cs:116-127 | the message, addressed to the channel's name, goes to every user and no one else |
| Chat.AddRemoveKeepLinked | SpeedDate.ServerPlugins/Chat/ChatChannel.cs:30-111 | joining and leaving keep the channel and the user listing each other |
| Chat.AddThenRemove | SpeedDate.ServerPlugins/Chat/ChatChannel.cs:30-111 | leaving right after joining restores both sides and notifies only the others |
| Peers.NewPeer | SpeedDate/Network/BasePeer.cs:21-28 | a new peer has no pending acknowledgements, an empty timeout queue and next id 1 |
| Peers.NewPeerIsValid | SpeedDate/Network/BasePeer.cs:21-28 | a new peer satisfies the acknowledgement invariant |
| Peers.RegisterAck | SpeedDate/Network/BasePeer.cs:294-309 | the callback is stored under a fresh id and its deadline is queued one tick after the timeout |
| Peers.SendWithAck | SpeedDate/Network/BasePeer.cs:249-263 | a disconnected peer answers NotConnected at once and registers nothing; a connected one registers the callback |
| Peers.SendWithDefaultTimeout | SpeedDate/Network/BasePeer.cs:223-226 | without a timeout the deadline is 60 seconds ahead plus one tick |
| Peers.AckIdsIncrease | SpeedDate/Network/BasePeer.cs:294-309 | acknowledgement ids increase with every send and start at 1 |
| Peers.TriggerAck | SpeedDate/Network/BasePeer.cs:311-323 | a known id fires its callback once and is removed; an unknown one does nothing |
| Peers.TriggerAckOnce | SpeedDate/Network/BasePeer.cs:311-323 | a second answer to the same id fires nothing |
| Peers.OnDataReceived | SpeedDate/Network/BasePeer.cs:336-359 | a response answers its acknowledgement; any other message is passed on unchanged; undecodable data is dropped |
| Peers.CancelAck | SpeedDate/Network/BasePeer.cs:386-398 | the id is removed and its callback, if any, fires with the status |
| Peers.CancelAll | SpeedDate/Network/BasePeer.cs:366-384 | exactly the acknowledgements with a due deadline are cancelled; the callback of each pending one among them runs with Timeout, and no other callback runs |
| Peers.OnTick | SpeedDate/Network/BasePeer.cs:366-384 | a tick keeps exactly the deadlines still ahead and cancels the acknowledgements due; every pending acknowledgement with a due deadline has its callback run with Timeout, and only those; a disposed peer ignores ticks |
| Peers.Dispose | SpeedDate/Network/BasePeer.cs:366-384 | after disposal no tick changes the peer |
| Peers.TickClearsExpired | SpeedDate/Network/BasePeer.cs:366-384 | once every deadline has passed, a tick leaves no acknowledgement pending |
| Peers.SetProperty | SpeedDate/Network/BasePeer.cs:160-166 | the property is stored and the others are kept |
| Peers.GetProperty | SpeedDate/Network/BasePeer.cs:173-190 | a stored value is returned, otherwise the default |
| Peers.SetThenGet | SpeedDate/Network/BasePeer.cs:160-190 | reading after setting gives the value set, and other keys read as before |
| Peers.AddExtension | SpeedDate/Network/BasePeer.cs:192-210 | the extension is found under its type afterwards and the others are kept |
| Peers.GetExtension | SpeedDate/Network/BasePeer.cs:192-210 | an extension is returned exactly when one of that type was added |
| Auth.NewAuthState | SpeedDate.ServerPlugins/Authentication/AuthPlugin.cs:86-89 | nobody is logged in and guest numbering starts at 0 |
| Auth.UsernameValidity | SpeedDate.ServerPlugins/Authentication/AuthPlugin.cs:127-131 | a username is valid exactly when it is non-empty and has no space |
| Auth.EmailValidity | SpeedDate.ServerPlugins/Authentication/AuthPlugin.cs:133-138 | an e-mail is accepted exactly when it contains '@' and '.' |
| Auth.LowerKeepsValidity | SpeedDate.ServerPlugins/Authentication/AuthPlugin.cs:127-131 | lowercasing does not change whether a username is valid |
| Auth.GenerateGuestUsername | SpeedDate.ServerPlugins/Authentication/AuthPlugin.cs:86-89 | a guest name is the prefix followed by the counter, which then moves on |
| Auth.GuestNamesDistinct | SpeedDate.ServerPlugins/Authentication/AuthPlugin.cs:86-89 | two guest names in a row differ |
| Auth.ClaimPermission | SpeedDate.ServerPlugins/Authentication/AuthPlugin.cs:570-598 | the level is that of the last entry with the key, or unchanged; an unknown non-empty key is refused |
| Auth.HandleRegister | SpeedDate.ServerPlugins/Authentication/AuthPlugin.cs:317-411 | each refusal (insecure, invalid request, username, length, e-mail, already registered) is given exactly when its check is the first to fail; an account is created, with a lowercased e-mail, exactly when every check passes and the database accepts it |
| Auth.GetLoggedInUser | SpeedDate.ServerPlugins/Authentication/AuthPlugin.cs:121-125 | a user is found exactly when its lowercased name is logged in |
| Auth.CheckNoOtherSession | SpeedDate.ServerPlugins/Authentication/AuthPlugin.cs:508-515 | a login is blocked exactly when the account already has a session, and that session's peer is disconnected |
| Auth.LoginAccount | SpeedDate.ServerPlugins/Authentication/AuthPlugin.cs:508-515 | a found account with a session is refused and that session disconnected; otherwise the account is logged in under its lowercased name |
| Auth.HandleLogIn | SpeedDate.ServerPlugins/Authentication/AuthPlugin.cs:456-556 | a logged-in peer, an insecure request and an unusable request are refused; an enabled guest login takes the next guest name and uses up its number even when the login then throws; otherwise a token decides whatever the username and password say; otherwise the username and password decide; a success logs in an account that had no session, under its lowercased name |
| Auth.FinalizeLogin | SpeedDate.ServerPlugins/Authentication/AuthPlugin.cs:97-105 | a login completes exactly when the account has no session, and it then records the peer; otherwise it throws, sending nothing and keeping the sessions |
| Auth.OnUserDisconnect | SpeedDate.ServerPlugins/Authentication/AuthPlugin.cs:108-119 | the user's session ends and the other sessions are kept |
| Auth.HandleLogOut | SpeedDate.ServerPlugins/Authentication/AuthPlugin.cs:76-85 | a logout succeeds exactly for a logged-in peer |
| Auth.LoggedInCount | SpeedDate.ServerPlugins/Authentication/AuthPlugin.cs:194 | the count is zero exactly when nobody is logged in |
| Auth.LoginCountsOne | SpeedDate.ServerPlugins/Authentication/AuthPlugin.cs:97-105 | a successful login adds one to the count of logged-in users; a refused or throwing login leaves it |
| Auth.DisconnectCountsOne | SpeedDate.ServerPlugins/Authentication/AuthPlugin.cs:108-119 | a logged-in user's disconnect takes one from the count; anyone else's leaves it |
| Auth.LoginThenLookup | SpeedDate.ServerPlugins/Authentication/AuthPlugin.cs:97-125 | after a login the user is found under any case of its name, and disconnecting restores the sessions before the login |
| Auth.MixedCaseLoginNotSeenAsWritten | SpeedDate.ServerPlugins/Authentication/AuthPlugin.cs:146-149 | as written, a user logged in as "Alice" is not seen as logged in |
| Auth.IsUserLoggedInAgrees | SpeedDate.ServerPlugins/Authentication/AuthPlugin.cs:121-149 | the corrected check agrees with the user lookup for every name |
| Merging.MergeProp | SpeedDate/Configuration/SmartConf/MergeObjectExtensions.cs:70-87 | a simple value replaces the primary's unless it equals the default; a nested property whose default is `null` and whose type cannot be constructed throws, even for a `null` secondary; otherwise a missing nested value keeps the primary's and a nested value needs a primary object |
| Merging.MergeObj | SpeedDate/Configuration/SmartConf/MergeObjectExtensions.cs:63-89 | merging fails exactly when some property's merge fails, with that property's exception; otherwise every property is merged by the rule and the property names are kept |
| Merging.MergeWith | SpeedDate/Configuration/SmartConf/MergeObjectExtensions.cs:31-68 | a missing secondary keeps the primary; a missing primary raises; otherwise the merge keeps the primary's properties |
| Merging.SimplePropertyRule | SpeedDate/Configuration/SmartConf/MergeObjectExtensions.cs:74-80 | a secondary value that differs from the default wins, and one equal to the default does not |
| Merging.MergePropIdempotent | SpeedDate/Configuration/SmartConf/MergeObjectExtensions.cs:70-87 | merging the same secondary value twice is the same as once |
| Merging.MergeObjIdempotent | SpeedDate/Configuration/SmartConf/MergeObjectExtensions.cs:63-89 | merging the same secondary object twice is the same as once |
| Merging.MergeWithIdempotent | SpeedDate/Configuration/SmartConf/MergeObjectExtensions.cs:31-68 | merging the same secondary twice is the same as once |
| Merging.Merge | SpeedDate/Configuration/SmartConf/MergeObjectExtensions.cs:117-124 | merging no objects returns the seed |
| Merging.MergeAll | SpeedDate/Configuration/SmartConf/MergeObjectExtensions.cs:104-107 | merging no objects returns a default object |
| Merging.MergeSnoc | SpeedDate/Configuration/SmartConf/MergeObjectExtensions.cs:117-124 | merging a list and then one more object is merging that object into the list's result |
| Merging.LaterObjectWins | SpeedDate/Configuration/SmartConf/MergeObjectExtensions.cs:117-124 | a non-default simple value of the last object is the merged value |
| Validation.NewValidator | SpeedDate/Configuration/Validation/RuleBasedValidator.cs:43-46 | a new validator has no rules |
| Validation.AddBooleanRule | SpeedDate/Configuration/Validation/RuleBasedValidator.cs:53-56 | an unnamed rule is appended with the message "Validation failed." |
| Validation.AddNamedRule | SpeedDate/Configuration/Validation/RuleBasedValidator.cs:64-71 | the rule is appended with its message and the earlier rules are kept |
| Validation.AddComplexRule | SpeedDate/Configuration/Validation/RuleBasedValidator.cs:79-85 | the complex rule is appended and the earlier rules are kept |
| Validation.Check | SpeedDate/Configuration/Validation/RuleBasedValidator.cs:87-96 | validation passes exactly when every rule passes; otherwise it reports the first failing rule |
| Validation.Validate | SpeedDate/Configuration/Validation/RuleBasedValidator.cs:87-96 | a validator without rules accepts everything |
| Validation.CheckAppend | SpeedDate/Configuration/Validation/RuleBasedValidator.cs:87-96 | checking two lists of rules is checking the first and, if it passes, the second |
| Validation.UnnamedRuleMessage | SpeedDate/Configuration/Validation/RuleBasedValidator.cs:53-56 | a failing unnamed rule added to a passing validator reports "Validation failed." |
| Validation.ComplexRulePasses | SpeedDate/Configuration/Validation/RuleBasedValidator.cs:79-96 | a complex rule that does not raise never changes the verdict |
| Xml.FromEntityUnescapes | SpeedDate/Configuration/XmlParser.cs:208-216 | decoding the entities of an escaped text gives the text back |
| Xml.EscapedAmpersandDecodesOnce | SpeedDate/Configuration/XmlParser.cs:208-216 | "&amp;" is decoded after the other entities, so "&amp;lt;" becomes "&lt;" and not "<" |
| Xml.ReadChar | SpeedDate/Configuration/XmlParser.cs:93-99 | a character is read exactly while the stream is open and not exhausted; the end of input closes the stream |
| Xml.ReadText | SpeedDate/Configuration/XmlParser.cs:101-112 | text read up to a tag contains no '<', and the end of input closes the stream |
| Xml.ReadAttribute | SpeedDate/Configuration/XmlParser.cs:162-181 | reading attributes that stops at the end of input always finishes and never moves backwards |
| Xml.ReadTag | SpeedDate/Configuration/XmlParser.cs:114-143 | reading a tag that stops at the end of input always finishes |
| Xml.Open | SpeedDate/Configuration/XmlParser.cs:14-15 | a new parser is open with no reserved tag |
| Xml.Dispose | SpeedDate/Configuration/XmlParser.cs:17-21 | a disposed parser reads nothing more |
| Xml.Attribute | SpeedDate/Configuration/XmlParser.cs:25 | an attribute is found exactly when the current tag has it, with its value |
| Xml.ReadWith | SpeedDate/Configuration/XmlParser.cs:29-43 | a read succeeds exactly while the stream is open; a reserved closing tag is delivered first |
| Xml.ReadAsWritten | SpeedDate/Configuration/XmlParser.cs:29-43 | when the reader as written finishes, it succeeds exactly while the stream is open |
| Xml.Read | SpeedDate/Configuration/XmlParser.cs:29-43 | the corrected reader always finishes, succeeds exactly while the stream is open and makes progress |
| Xml.UnterminatedTagHangsAsWritten | SpeedDate/Configuration/XmlParser.cs:162-177 | as written, reading "<a" never finishes; the corrected reader yields tag "a" and then stops |
| Xml.TagLoopReadsName | SpeedDate/Configuration/XmlParser.cs:118-129 | a tag name is read up to its first space, '/' or '>' |
| Xml.ValueLoopReadsKey | SpeedDate/Configuration/XmlParser.cs:183-206 | an attribute key is read up to its '=' |
| Xml.QuotedReadsValue | SpeedDate/Configuration/XmlParser.cs:183-206 | a quoted value is read up to its closing quote |
| Xml.CommentLoopReadsBody | SpeedDate/Configuration/XmlParser.cs:145-160 | a comment body is read up to its "-->" |
| Xml.ReadTextUpToTag | SpeedDate/Configuration/XmlParser.cs:101-112 | text before a tag is read and the '<' is consumed |
| Xml.ReadTrailingText | SpeedDate/Configuration/XmlParser.cs:29-43 | text with no tag after it is delivered decoded and then the parser stops |
| Xml.ReadTextThenTag | SpeedDate/Configuration/XmlParser.cs:29-43 | a read delivers the decoded text before a tag together with that tag |
| Xml.OneAttribute | SpeedDate/Configuration/XmlParser.cs:162-206 | one key="value" pair is read as that attribute |
| Xml.TagClose | SpeedDate/Configuration/XmlParser.cs:162-181 | a '>' ends the tag, and "/>" also reserves the matching closing tag |
| Xml.ReadTagWithAttribute | SpeedDate/Configuration/XmlParser.cs:114-206 | reading "text<n k="v">" yields the text, tag n and exactly attribute k; a self-closing tag is followed by "/n" |
| Xml.ReadSelfClosingTag | SpeedDate/Configuration/XmlParser.cs:114-143 | a self-closing tag is read with no attributes and then followed by its closing tag |
| Xml.ReadCommentTag | SpeedDate/Configuration/XmlParser.cs:145-160 | a comment is read as tag "!--" with its body under the key "comment" |
| Xml.SearchWhere | SpeedDate/Configuration/XmlParser.cs:56-66 | a found token has the tag and meets the condition; otherwise the input is exhausted |
| Xml.Search | SpeedDate/Configuration/XmlParser.cs:44-54 | a found token has the tag searched for |
| Xml.SearchFindsFirst | SpeedDate/Configuration/XmlParser.cs:44-66 | the token found is the first matching one in the stream, and none matches when nothing is found |
| Xml.SearchEach | SpeedDate/Configuration/XmlParser.cs:67-89 | every token visited matches, and the search stops at the current element's closing tag or the end |
| Xml.SearchEachLoop | SpeedDate/Configuration/XmlParser.cs:79-89 | every token visited matches and the loop ends at the closing tag or the end of input |
| Xml.Until | SpeedDate/Configuration/XmlParser.cs:79-89 | the tokens before the first closing tag, and nothing else |
| Xml.SearchEachMatchesTokens | SpeedDate/Configuration/XmlParser.cs:79-89 | the tokens visited are exactly the matching tokens before the closing tag, in order |
| JwtAuth.Split | src/storagesvc/auth.go:67-71 | the pieces contain no space, there is at least one, and joined with spaces they give the text back |
| JwtAuth.JoinInjective | src/storagesvc/auth.go:67-71 | two lists of space-free pieces with the same joined text are equal |
| JwtAuth.SplitJoin | src/storagesvc/auth.go:67-71 | splitting the joined text of space-free pieces gives the pieces back |
| JwtAuth.EmptyScopeString | src/storagesvc/auth.go:67-71 | an empty scope string grants the single empty scope |
| JwtAuth.Sort | src/storagesvc/auth.go:85 | the list comes out sorted and is a permutation of the input |
| JwtAuth.StringItems | src/storagesvc/auth.go:72-78 | exactly the string items of a list are kept |
| JwtAuth.ScopesOf | src/storagesvc/auth.go:66-81 | a string or a list is read as scopes; any other type is an error naming it |
| JwtAuth.ScopeKey | src/storagesvc/auth.go:56-65 | "scope" is used when present and not null, else "scopes", else neither |
| JwtAuth.ParseClaimScopes | src/storagesvc/auth.go:55-87 | claims of another shape and a bad scope type are errors; otherwise the granted set holds exactly the listed scopes and the list is sorted |
| JwtAuth.CheckRequired | src/storagesvc/auth.go:38-42 | the check passes exactly when every required scope is granted |
| JwtAuth.JwtAuthorize | src/storagesvc/auth.go:16-45 | a token is authorized exactly when it parses, is valid, has readable scopes and grants every required scope; each failure has its own reason, and an unreadable scope claim is reported with the reason the scope parser gives |
| JwtAuth.StringClaimGrants | src/storagesvc/auth.go:64-71 | a space-separated scope string grants exactly its words |
| JwtAuth.ScopeKeyWins | src/storagesvc/auth.go:64-83 | when both keys are present, "scope" decides and "scopes" is ignored |
| JwtAuth.NullScopeIgnored | src/storagesvc/auth.go:65 | a null "scope" falls through to "scopes" |
| GameServers.NewGameserver | src/spawnsvc/pkg/apis/dev/v1alpha1/gameserver.go:39-55 | a new game server is Requested, named by generation in the default namespace, with the group's finalizer and the example container |
| GameServers.ControllerRef | src/spawnsvc/pkg/apis/dev/v1alpha1/gameserver.go:57-70 | the owner reference names the game server and marks it as controller |
| GameServers.MakePod | src/spawnsvc/pkg/apis/dev/v1alpha1/gameserver.go:57-70 | the pod takes the template's spec and metadata, the server's name, a single label naming the server and the server as an added owner |
| GameServers.ControllerOf | src/spawnsvc/pkg/apis/dev/v1alpha1/gameserver.go:57-70 | a controller is found exactly when some reference is one, and it is the first controller reference in the list |
| GameServers.ControllerOfAppend | src/spawnsvc/pkg/apis/dev/v1alpha1/gameserver.go:57-70 | appending a reference changes the controller only when there was none |
| GameServers.PodControlledByServer | src/spawnsvc/pkg/apis/dev/v1alpha1/gameserver.go:57-70 | a pod from a template without a controller is controlled by its game server |
| GameServers.TemplateControllerKept | src/spawnsvc/pkg/apis/dev/v1alpha1/gameserver.go:57-70 | a controller already in the template stays the pod's controller |
| GameServers.PodLabelIdentifiesServer | src/spawnsvc/pkg/apis/dev/v1alpha1/gameserver.go:57-70 | two pods carry the same labels exactly when their servers have the same name |
| GameServers.NewServerPod | src/spawnsvc/pkg/apis/dev/v1alpha1/gameserver.go:39-70 | the pod of a new game server runs the example container and is controlled by the server alone |

## Left out

- Sending messages, listener notifications and log output are modelled as returned values or omitted; sockets, serialization and the message dispatcher are not modelled.
- Timers and clocks (the access timeout period, the acknowledgement tick, `DateTime.Now`) are parameters; fractional timeout periods are not modelled.
- Random values (spawn-task unique codes) are parameters.
- Dictionary enumeration order: lobby members keep their join order, teams their constructor order; the spawner picked among equal free slots is the one with the smallest id.
- Ids and counters (acknowledgement, lobby, room, spawner, spawn task, guest) are unbounded; 32-bit wrap-around after 2^31 ids is not modelled.
- LobbyRegistry.HandleJoinLobby: the lobby data sent back on a join is not modelled; the reply is empty.
- The other lobby plugin handlers (chat, ready status, team join, start game, room access) forward to the lobby methods modelled in `Lobbies` and are not modelled themselves.
- The lobby factory delegate is modelled as a blueprint: the teams and configuration of the new lobby and the type the delegate sets, if any; the lobby's properties come from the request.
- The rooms plugin's access call passes a properties argument that the room's `GetAccess` does not take; the model ignores it.
- Chat channel membership changes driven by disconnect listeners are not modelled.
- RoomRegistry.HandleGetRoomAccess: the room's access check uses the corrected `GetAccess` (see Findings), so a player whose access is in use is refused with "You are already in this room"; the source's guard never fires, and such a player's request is forwarded to the owner, or refused with "Room is already full" when the room is at capacity.
- Lobbies.SetState: the status text is stored through the corrected `SetStatusText` (see Findings), so every state change, including those of `OnSpawnServerStatusChanged`, `OnRoomDestroyed` and `StartGame`, stores the state's name; the source broadcasts the text but never stores it.
- Spawners: a spawner's free slots and its ability to spawn another are fixed when it registers; the spawner-side process counts updated by `OnProcessStarted` and `OnProcessKilled` are not modelled, so the spawner picked ranks spawners on those registration-time counts.
- Auth.HandleLogIn: the user extension added to the peer and the disconnect listener registered before a throwing `FinalizeLogin` are peer state, which is not modelled.
- Xml.SearchEach: the callback actions of `Search` and `SearchEach` are not modelled; the searches return the matching tokens instead.
- Merging: a merge that raises part way leaves the C# object partly updated; the model returns only the error.
- Merging: `SetValue` on a get-only property and `GetValue` on an indexer property throw in C# (MergeObjectExtensions.cs:72-78); the model keeps an object's properties in a map, where every property can be read and written, so those exceptions are not modelled.
- Merging: properties whose primary and secondary values are of different kinds are not modelled.
- Merging.MergeObj: when several properties of one object throw, the source throws for the first in declaration order; properties are a map here, without that order, so the model reports `MissingMethodException` when any of them throws it and `ArgumentNullException` otherwise.
- Xml.CommentLoop: only comment bodies without '>' are described by a lemma.
- The database, password hashing, AES encryption and e-mail are not modelled; the database outcome is a parameter.
- The other authentication handlers (password reset, e-mail confirmation, account info) are not modelled.
- The authentication configuration and permission entries, and the Kubernetes group name and scheme version, are declared outside this part of the source; they are parameters.
- The JWT signature check is done by the JWT library; its outcome is a parameter.
- JSON numbers are modelled as integers.
- Auth.HandleRegister: the username and e-mail are lowered with the model's `ToLower`, which folds A-Z only, where the source's culture-sensitive `String.ToLower` (AuthPlugin.cs:342-344) folds every letter and, under a Turkish culture, maps 'I' to dotless 'ı'; names that differ only in non-ASCII case are different accounts here.
- Auth.GetLoggedInUser: the session key is the ASCII-only lowering, so "Émile" does not find a session stored for "émile", which the source's `ToLower` (AuthPlugin.cs:123) would find.
- Auth.CheckNoOtherSession: the session key is the ASCII-only lowering, so a session of "Émile" does not block a login of "émile", which the source refuses with "This account is already logged in".
- Auth.LoginAccount: inherits the ASCII-only session key of `CheckNoOtherSession` and `FinalizeLogin`; two accounts whose names differ only in non-ASCII case can both be logged in, which the source prevents.
- Auth.HandleLogIn: inherits the ASCII-only session key of `LoginAccount`.
- Auth.FinalizeLogin: stores the session under the ASCII-only lowering, where the source's `ToLower` (AuthPlugin.cs:101) folds every letter, culture-sensitively.
- Auth.OnUserDisconnect: removes the session under the ASCII-only lowering, where the source's `ToLower` (AuthPlugin.cs:114) folds every letter, culture-sensitively.
- ClientLobby.ParseBool: trimming of '\0' and of non-ASCII white space, and non-ASCII case folding, are not modelled.
- Rooms.ParseBool: as for `ClientLobby.ParseBool`, `bool.TryParse` trimming '\0' and non-ASCII white space and folding non-ASCII letters is not modelled.
- Lobbies.OnSpawnServerStatusChanged: `int.Parse` of the room id in the finalization data (BaseLobby.cs:559) throws on a non-numeric id after the state has already become GameInProgress; the room is a parameter here, so that exception is not modelled.
- The client lobby's request methods (leave, set property, set ready, join team, start game, room access) only forward to the lobby plugin and are not modelled, nor is `SetListener`.
- The client-side member data class is not part of the source; its fields are taken from their use.
- Kubernetes metadata is reduced to the fields the code reads or writes; `DeepCopy` is value semantics.

## Findings

| source | as written | input that shows it | evidently intended | confidence | as-written member | corrected member |
|---|---|---|---|---|---|---|
| SpeedDate.ServerPlugins/Lobbies/Implementations/BaseLobby.cs:93-103 | the `StatusText` setter compares and notifies but never assigns the backing field | any state change, e.g. to GameInProgress from an empty status text | the setter stores the new text | not executed | Lobbies.StatusTextIsNeverStored | Lobbies.SetStatusText |
| SpeedDate.ServerPlugins/Rooms/RegisteredRoom.cs:79-196 | "already in this room" consults `_players`, which nothing fills; validation adds to `_accessesInUse` keyed by peer | a player validates an access, asks again, and validates the second token | a player in the room is refused a second access | not executed | Rooms.SecondAccessThrowsAsWritten | Rooms.SecondAccessRefused |
| SpeedDate/Configuration/XmlParser.cs:162-177 | the attribute loop does not stop at the end of input | the text "<a" | the end of input ends the tag | not executed | Xml.UnterminatedTagHangsAsWritten | Xml.Read |
| SpeedDate.ServerPlugins/Authentication/AuthPlugin.cs:146-149 | `IsUserLoggedIn` looks up the name as given, while sessions are stored under the lowercased name | a user logged in as "Alice" | the lookup lowercases the name, as `GetLoggedInUser` does | not executed | Auth.MixedCaseLoginNotSeenAsWritten | Auth.IsUserLoggedInAgrees |

=== FILE: auth_plugin.dfy ===
/**
 * `AuthPlugin`: account registration, login and permission levels. The
 * encrypted request body is given already decrypted (a string table);
 * the database, password hashing and the AES handshake are parameters:
 * whether the peer has an AES key, the accounts by token and by name, and
 * a password check.
 */
module Auth {
  import opened Wrappers
  import opened Messaging
  import opened Strings

  /** The settings the plugin reads (its config class is not part of this model). */
  datatype AuthConfig = AuthConfig(
    guestPrefix: string,
    enableGuestLogin: bool,
    usernameMinChars: int,
    usernameMaxChars: int)

  /** An account as the database returns it. */
  datatype Account = Account(username: string, passwordHash: string, isGuest: bool)

  /** The plugin's state: logged-in users keyed by lower-cased username, and the next guest number. */
  datatype AuthState = AuthState(loggedIn: map<string, PeerId>, nextGuestId: nat)

  function NewAuthState(): (s: AuthState)
    ensures s.loggedIn == map[] && s.nextGuestId == 0
  {
    AuthState(map[], 0)
  }

  // ----- validators -----

  /** `IsUsernameValid`: non-empty, and removing spaces changes nothing. */
  predicate IsUsernameValid(username: string)
  {
    |username| > 0 && username == Replace(username, " ", "")
  }

  lemma UsernameValidity(username: string)
    ensures IsUsernameValid(username) <==> |username| > 0 && ' ' !in username
  {
    DeleteCharUnchanged(username, ' ');
  }

  /** `ValidateEmail`: non-empty, with an `@` and a `.` somewhere. */
  predicate ValidateEmail(email: string)
  {
    |email| > 0 && Contains(email, "@") && Contains(email, ".")
  }

  lemma EmailValidity(email: string)
    ensures ValidateEmail(email) <==> '@' in email && '.' in email
  {
    ContainsChar(email, '@');
    ContainsChar(email, '.');
  }

  /** Lower-casing keeps a username's length and its spaces where they are. */
  lemma LowerKeepsValidity(username: string)
    ensures IsUsernameValid(ToLower(username)) <==> IsUsernameValid(username)
  {
    UsernameValidity(username);
    UsernameValidity(ToLower(username));
    if ' ' in username {
      var i :| 0 <= i < |username| && username[i] == ' ';
      assert ToLower(username)[i] == ' ';
    }
    if ' ' in ToLower(username) {
      var i :| 0 <= i < |username| && ToLower(username)[i] == ' ';
      assert LowerChar(username[i]) == ' ';
    }
  }

  // ----- guests -----

  /** `GenerateGuestUsername`: the prefix and the next number. */
  function GenerateGuestUsername(s: AuthState, config: AuthConfig): (r: (string, AuthState))
    ensures r.0 == config.guestPrefix + NatToString(s.nextGuestId)
    ensures r.1 == s.(nextGuestId := s.nextGuestId + 1)
  {
    (config.guestPrefix + NatToString(s.nextGuestId), s.(nextGuestId := s.nextGuestId + 1))
  }

  /** Two guest names generated one after the other differ. */
  lemma GuestNamesDistinct(s: AuthState, config: AuthConfig)
    ensures var (a, s1) := GenerateGuestUsername(s, config);
            var (b, _) := GenerateGuestUsername(s1, config);
            a != b
  {
    var p := config.guestPrefix;
    var x := NatToString(s.nextGuestId);
    var y := NatToString(s.nextGuestId + 1);
    NatToStringInjective(s.nextGuestId, s.nextGuestId + 1);
    assert (p + x)[|p|..] == x && (p + y)[|p|..] == y;
  }

  // ----- permission levels -----

  datatype PermissionEntry = PermissionEntry(key: string, level: int)

  /**
   * `HandlePermissionLevelRequest`: every entry with the key sets the level,
   * so the last one wins; a non-empty key that no entry has is refused and
   * the level stays. The answer carries the level set.
   */
  method ClaimPermission(permissions: seq<PermissionEntry>, key: string, current: int) returns (level: int, reply: Reply)
    ensures (exists i :: 0 <= i < |permissions| && permissions[i].key == key) ==>
      exists i :: 0 <= i < |permissions| && permissions[i].key == key && level == permissions[i].level
        && forall j :: i < j < |permissions| ==> permissions[j].key != key
    ensures (forall i :: 0 <= i < |permissions| ==> permissions[i].key != key) ==> level == current
    ensures reply == if (forall i :: 0 <= i < |permissions| ==> permissions[i].key != key) && key != ""
                     then Refuse(Unauthorized, "Invalid permission key")
                     else Reply(Success, Number(level))
  {
    level := current;
    var claimed := false;
    var last := -1;
    for n := 0 to |permissions|
      invariant claimed <==> exists i :: 0 <= i < n && permissions[i].key == key
      invariant claimed ==> (0 <= last < n && permissions[last].key == key && level == permissions[last].level
        && forall j :: last < j < n ==> permissions[j].key != key)
      invariant !claimed ==> level == current
    {
      if permissions[n].key == key {
        level := permissions[n].level;
        claimed := true;
        last := n;
      }
    }
    if !claimed && key != "" {
      reply := Refuse(Unauthorized, "Invalid permission key");
    } else {
      reply := Reply(Success, Number(level));
    }
  }

  // ----- registration -----

  /** The decrypted body of a registration request. */
  datatype RegisterRequest = RegisterRequest(
    hasAesKey: bool,
    data: map<string, string>,
    /** The peer's user extension: `None` when not logged in, else whether it is a guest. */
    loggedInAsGuest: Option<bool>)

  /** The request carries a username, a password and an email. */
  predicate CompleteRegistration(req: RegisterRequest)
  {
    "username" in req.data && "password" in req.data && "email" in req.data
  }

  /** The checks before the username's: a secure channel, complete data, and no real account logged in. */
  predicate RegistrationAccepted(req: RegisterRequest)
  {
    req.hasAesKey && CompleteRegistration(req) && req.loggedInAsGuest != Some(false)
  }

  /** The username is valid and its length within the bounds. */
  predicate UsernameAcceptable(username: string, config: AuthConfig)
  {
    IsUsernameValid(username) && config.usernameMinChars <= |username| <= config.usernameMaxChars
  }

  /**
   * `HandleRegister`: the checks in order (secure channel, complete data,
   * not logged in with a real account, valid username, length bounds,
   * valid email), then the insert, which the database may refuse
   * (`insertSucceeds`). On success the new account's name and lower-cased
   * email are returned. Each refusal is given exactly when its check is
   * the first to fail.
   */
  function HandleRegister(req: RegisterRequest, config: AuthConfig, insertSucceeds: bool): (r: (Reply, Option<(string, string)>))
    ensures r.0 == Refuse(Unauthorized, "Insecure request") <==> !req.hasAesKey
    ensures r.0 == Refuse(Error, "Invalid registration request") <==> req.hasAesKey && !RegistrationAccepted(req)
    ensures r.0 == Refuse(Error, "Invalid Username") <==>
      RegistrationAccepted(req) && !IsUsernameValid(req.data["username"])
    ensures r.0 == Refuse(Error, "Invalid usernanme length") <==>
      && RegistrationAccepted(req) && IsUsernameValid(req.data["username"])
      && !(config.usernameMinChars <= |req.data["username"]| <= config.usernameMaxChars)
    ensures r.0 == Refuse(Error, "Invalid Email") <==>
      RegistrationAccepted(req) && UsernameAcceptable(req.data["username"], config) && !ValidateEmail(ToLower(req.data["email"]))
    ensures r.0 == Refuse(Error, "Username or E-mail is already registered") <==>
      && RegistrationAccepted(req) && UsernameAcceptable(req.data["username"], config) && ValidateEmail(ToLower(req.data["email"]))
      && !insertSucceeds
    ensures r.1.Some? <==> r.0.status == Success
    ensures r.1.Some? <==>
      && RegistrationAccepted(req) && UsernameAcceptable(req.data["username"], config) && ValidateEmail(ToLower(req.data["email"]))
      && insertSucceeds
    ensures r.1.Some? ==> r.1.value == (req.data["username"], ToLower(req.data["email"]))
  {
    if !req.hasAesKey then (Refuse(Unauthorized, "Insecure request"), Option.None)
    else if !("username" in req.data && "password" in req.data && "email" in req.data) then
      (Refuse(Error, "Invalid registration request"), Option.None)
    else
      var username := req.data["username"];
      var email := ToLower(req.data["email"]);
      LowerKeepsValidity(username);
      if req.loggedInAsGuest == Some(false) then (Refuse(Error, "Invalid registration request"), Option.None)
      else if !IsUsernameValid(ToLower(username)) then (Refuse(Error, "Invalid Username"), Option.None)
      else if |username| < config.usernameMinChars || |username| > config.usernameMaxChars then
        (Refuse(Error, "Invalid usernanme length"), Option.None)
      else if !ValidateEmail(email) then (Refuse(Error, "Invalid Email"), Option.None)
      else if !insertSucceeds then (Refuse(Error, "Username or E-mail is already registered"), Option.None)
      else (Reply(Success, Empty), Some((username, email)))
  }

  // ----- login -----

  /** A login request: the peer, whether it is already logged in or has an AES key, and the decrypted table. */
  datatype LoginRequest = LoginRequest(peer: PeerId, hasUserExtension: bool, hasAesKey: bool, data: map<string, string>)

  /** The database and the password check, as the login handler sees them. */
  datatype Accounts = Accounts(
    byToken: map<string, Account>,
    byName: map<string, Account>,
    passwordMatches: (string, string) -> bool)

  /**
   * What a login produced: the reply (`None` when the handler threw and
   * sent nothing), the new state, the account logged in, and a peer told
   * to disconnect.
   */
  datatype LoginOutcome = LoginOutcome(reply: Option<Reply>, state: AuthState, account: Option<Account>, disconnect: Option<PeerId>)

  /** A refusal that changes nothing. */
  function Refused(s: AuthState, message: string): LoginOutcome
  {
    LoginOutcome(Some(Refuse(Unauthorized, message)), s, Option.None, Option.None)
  }

  /** `GetLoggedInUser`: looked up by lower-cased name. */
  function GetLoggedInUser(s: AuthState, username: string): (r: Option<PeerId>)
    ensures r.Some? <==> ToLower(username) in s.loggedIn
    ensures r.Some? ==> r.value == s.loggedIn[ToLower(username)]
  {
    Lookup(s.loggedIn, ToLower(username))
  }

  /** A found account, unless another session holds it: then that session is disconnected and the login refused. */
  function CheckNoOtherSession(s: AuthState, account: Account): (r: Option<LoginOutcome>)
    ensures r.Some? <==> ToLower(account.username) in s.loggedIn
    ensures r.Some? ==> r.value == Refused(s, "This account is already logged in")
                                     .(disconnect := Some(s.loggedIn[ToLower(account.username)]))
  {
    match GetLoggedInUser(s, account.username)
    case Some(other) => Some(LoginOutcome(Some(Refuse(Unauthorized, "This account is already logged in")), s, Option.None, Some(other)))
    case None => Option.None
  }

  /**
   * The end of a token or password login, once the account is found: the
   * other session check, then `FinalizeLogin`, which cannot throw here.
   */
  function LoginAccount(s: AuthState, peer: PeerId, account: Account): (r: LoginOutcome)
    ensures ToLower(account.username) in s.loggedIn ==>
      r == Refused(s, "This account is already logged in").(disconnect := Some(s.loggedIn[ToLower(account.username)]))
    ensures ToLower(account.username) !in s.loggedIn ==>
      r == LoginOutcome(Some(Reply(Success, Empty)), s.(loggedIn := s.loggedIn[ToLower(account.username) := peer]), Some(account), Option.None)
  {
    match CheckNoOtherSession(s, account)
    case Some(refused) => refused
    case None => FinalizeLogin(s, peer, account)
  }

  /** The checks before any account is looked for: not logged in, and a secure channel. */
  predicate LoginAdmitted(req: LoginRequest)
  {
    !req.hasUserExtension && req.hasAesKey
  }

  /** The request takes the guest path. */
  predicate GuestLogin(req: LoginRequest, config: AuthConfig)
  {
    LoginAdmitted(req) && "guest" in req.data && config.enableGuestLogin
  }

  /** The request takes the token path: a token, and no guest login. */
  predicate TokenLogin(req: LoginRequest, config: AuthConfig)
  {
    LoginAdmitted(req) && !("guest" in req.data && config.enableGuestLogin) && "token" in req.data
  }

  /** The request takes the username and password path: no guest login and no token. */
  predicate PasswordLogin(req: LoginRequest, config: AuthConfig)
  {
    && LoginAdmitted(req) && !("guest" in req.data && config.enableGuestLogin) && "token" !in req.data
    && "username" in req.data && "password" in req.data
  }

  /**
   * `HandleLogIn`: refused when already logged in or without an AES key;
   * then guest login (if enabled), token login, and name/password login
   * are tried in that order, each only when no account was found yet.
   * `FinalizeLogin` adds the lower-cased name to the logged-in users; a
   * name already there makes `Dictionary.Add` throw, and no reply is sent.
   * The guest number is used up before that, so it stays advanced.
   */
  function HandleLogIn(s: AuthState, req: LoginRequest, config: AuthConfig, db: Accounts): (r: LoginOutcome)
    ensures req.hasUserExtension ==> r == Refused(s, "Already logged in")
    ensures !req.hasUserExtension && !req.hasAesKey ==> r == Refused(s, "Insecure request")
    ensures r.account.Some? ==>
      && r.reply == Some(Reply(Success, Empty))
      && ToLower(r.account.value.username) !in s.loggedIn
      && r.state.loggedIn == s.loggedIn[ToLower(r.account.value.username) := req.peer]
    ensures r.reply.Some? && r.reply.value.status == Success ==> r.account.Some?
    ensures r.account.None? ==> r.state.loggedIn == s.loggedIn
    ensures r.state.nextGuestId == if GuestLogin(req, config) then s.nextGuestId + 1 else s.nextGuestId
    // the guest path: the next guest name, logged in unless a session already has it
    ensures GuestLogin(req, config) ==>
      var name := config.guestPrefix + NatToString(s.nextGuestId);
      && (r.reply.None? <==> ToLower(name) in s.loggedIn)
      && (r.reply.Some? ==> r.account == Some(Account(name, "", true)))
    ensures r.reply.None? ==> GuestLogin(req, config)
    // the token path, whatever the username and password say
    ensures TokenLogin(req, config) ==>
      if req.data["token"] in db.byToken then r == LoginAccount(s, req.peer, db.byToken[req.data["token"]])
      else r == Refused(s, "Invalid Credentials")
    // the username and password path
    ensures PasswordLogin(req, config) ==>
      var name := req.data["username"];
      if name in db.byName && db.passwordMatches(req.data["password"], db.byName[name].passwordHash)
      then r == LoginAccount(s, req.peer, db.byName[name])
      else r == Refused(s, "Invalid Credentials")
    ensures LoginAdmitted(req) && !GuestLogin(req, config) && !TokenLogin(req, config) && !PasswordLogin(req, config) ==>
      r == Refused(s, "Invalid request")
  {
    if req.hasUserExtension then Refused(s, "Already logged in")
    else if !req.hasAesKey then Refused(s, "Insecure request")
    else if "guest" in req.data && config.enableGuestLogin then
      var (name, s1) := GenerateGuestUsername(s, config);
      FinalizeLogin(s1, req.peer, Account(name, "", true))
    else if "token" in req.data then
      if req.data["token"] !in db.byToken then Refused(s, "Invalid Credentials")
      else LoginAccount(s, req.peer, db.byToken[req.data["token"]])
    else if "username" in req.data && "password" in req.data then
      if req.data["username"] !in db.byName then Refused(s, "Invalid Credentials")
      else
        var account := db.byName[req.data["username"]];
        if !db.passwordMatches(req.data["password"], account.passwordHash) then Refused(s, "Invalid Credentials")
        else LoginAccount(s, req.peer, account)
    else Refused(s, "Invalid request")
  }

  /**
   * `FinalizeLogin`: `Dictionary.Add` under the lower-cased name; a
   * duplicate throws, so no reply is sent and the sessions stay as they were.
   */
  function FinalizeLogin(s: AuthState, peer: PeerId, account: Account): (r: LoginOutcome)
    ensures r.reply.Some? <==> ToLower(account.username) !in s.loggedIn
    ensures r.reply.Some? ==> r == LoginOutcome(Some(Reply(Success, Empty)),
      s.(loggedIn := s.loggedIn[ToLower(account.username) := peer]), Some(account), Option.None)
    ensures r.reply.None? ==> r == LoginOutcome(Option.None, s, Option.None, Option.None)
  {
    var key := ToLower(account.username);
    if key in s.loggedIn then LoginOutcome(Option.None, s, Option.None, Option.None)
    else LoginOutcome(Some(Reply(Success, Empty)), s.(loggedIn := s.loggedIn[key := peer]), Some(account), Option.None)
  }

  /** `OnUserDisconnect`: the user's lower-cased name leaves the logged-in users. */
  function OnUserDisconnect(s: AuthState, username: string): (r: AuthState)
    ensures ToLower(username) !in r.loggedIn
    ensures forall k :: k in r.loggedIn <==> k in s.loggedIn && k != ToLower(username)
    ensures r.nextGuestId == s.nextGuestId
  {
    s.(loggedIn := s.loggedIn - {ToLower(username)})
  }

  /** `HandleLogOut`: only checks that the peer is logged in; it removes nothing. */
  function HandleLogOut(hasUserExtension: bool): (r: Reply)
    ensures r.status == Success <==> hasUserExtension
  {
    if hasUserExtension then Reply(Success, Empty) else Refuse(Failed, "Not logged in")
  }

  /** `HandleGetLoggedInCount`. */
  function LoggedInCount(s: AuthState): (r: int)
    ensures r == |s.loggedIn.Keys|
    ensures r == 0 <==> s.loggedIn == map[]
  {
    |s.loggedIn|
  }

  /** A login that succeeds adds one to the count; any other outcome leaves it. */
  lemma LoginCountsOne(s: AuthState, req: LoginRequest, config: AuthConfig, db: Accounts)
    ensures var o := HandleLogIn(s, req, config, db);
            LoggedInCount(o.state) == LoggedInCount(s) + (if o.account.Some? then 1 else 0)
  {
    var o := HandleLogIn(s, req, config, db);
    if o.account.Some? {
      var key := ToLower(o.account.value.username);
      assert o.state.loggedIn.Keys == s.loggedIn.Keys + {key};
    }
  }

  /** A logged-in user's disconnect takes one from the count; anyone else's leaves it. */
  lemma DisconnectCountsOne(s: AuthState, username: string)
    ensures LoggedInCount(OnUserDisconnect(s, username)) ==
            LoggedInCount(s) - (if ToLower(username) in s.loggedIn then 1 else 0)
  {
    var r := OnUserDisconnect(s, username);
    if ToLower(username) in s.loggedIn {
      assert r.loggedIn.Keys == s.loggedIn.Keys - {ToLower(username)};
    } else {
      assert r.loggedIn.Keys == s.loggedIn.Keys;
    }
  }

  /** A successful login is found again by any spelling of the name, and a disconnect forgets it. */
  lemma LoginThenLookup(s: AuthState, req: LoginRequest, config: AuthConfig, db: Accounts)
    ensures var o := HandleLogIn(s, req, config, db);
            o.account.Some? ==>
              && GetLoggedInUser(o.state, o.account.value.username) == Some(req.peer)
              && GetLoggedInUser(o.state, ToLower(o.account.value.username)) == Some(req.peer)
              && OnUserDisconnect(o.state, o.account.value.username).loggedIn == s.loggedIn
  {
    var o := HandleLogIn(s, req, config, db);
    if o.account.Some? {
      ToLowerIdempotent(o.account.value.username);
      assert o.state.loggedIn - {ToLower(o.account.value.username)} == s.loggedIn;
    }
  }

  /** `IsUserLoggedIn` as written: the name as given, though the keys are lower-cased. */
  predicate IsUserLoggedInAsWritten(s: AuthState, username: string)
  {
    username in s.loggedIn
  }

  /** `IsUserLoggedIn` lower-casing the name, as the other lookups do. */
  predicate IsUserLoggedIn(s: AuthState, username: string)
  {
    ToLower(username) in s.loggedIn
  }

  /** After `Alice` logs in, the source's `IsUserLoggedIn("Alice")` is false; the corrected check agrees with `GetLoggedInUser`. */
  lemma MixedCaseLoginNotSeenAsWritten(peer: PeerId)
    ensures var s := FinalizeLogin(NewAuthState(), peer, Account("Alice", "", false)).state;
            && !IsUserLoggedInAsWritten(s, "Alice")
            && IsUserLoggedIn(s, "Alice")
  {
    assert LowerChar('A') == 'a';
    assert ToLower("Alice") == "alice";
  }

  /** The corrected check holds exactly when `GetLoggedInUser` finds the user. */
  lemma IsUserLoggedInAgrees(s: AuthState, username: string)
    ensures IsUserLoggedIn(s, username) <==> GetLoggedInUser(s, username).Some?
  {
  }
}

=== FILE: base_lobby.dfy ===
/**
 * `BaseLobby`: a lobby with teams, a join/leave/team-switch protocol, an
 * optional game master, and a state machine that follows the spawn task of
 * its game server.
 *
 * Members are kept by username; `joinOrder` records the order in which they
 * joined, which stands for the enumeration order of the members dictionary,
 * and `teamOrder` the order in which the teams were given to the constructor.
 */
module Lobbies {
  import opened Wrappers
  import opened Messaging
  import opened Strings
  import opened SpawnTasks
  import opened LobbyTeams
  import Spawners
  import CommandLine

  /** The option keys the lobby reads and writes. */
  const IsPublicKey := "sd.isPrivate"
  const RegionKey := "sd.region"

  /**
   * The lobby states; a new lobby is in `Preparations`, the value the state
   * field starts with.
   */
  datatype LobbyState = FailedToStart | Preparations | StartingGameServer | GameInProgress | GameOver

  /** The switches of a lobby's configuration. */
  datatype LobbyConfig = LobbyConfig(
    enableTeamSwitching: bool,
    enableReadySystem: bool,
    enableManualStart: bool,
    enableGameMasters: bool,
    allowJoiningWhenGameIsLive: bool,
    allowPlayersChangeLobbyProperties: bool,
    keepAliveWithZeroPlayers: bool,
    playAgainEnabled: bool,
    startGameWhenAllReady: bool)

  /** A control shown to players: the property it edits and its options (`[]` also stands for none). */
  datatype LobbyPropertyData = LobbyPropertyData(caption: string, propertyKey: string, options: seq<string>)

  /** The lobby side of a peer: its username, if logged in, and the lobby it is in. */
  datatype LobbyUser = LobbyUser(peer: PeerId, username: Option<string>, currentLobby: Option<int>)

  datatype Lobby = Lobby(
    id: int,
    name: string,
    lobbyType: Option<string>,
    config: LobbyConfig,
    members: map<string, LobbyMember>,
    joinOrder: seq<string>,
    membersByPeer: map<PeerId, string>,
    properties: map<string, string>,
    teams: map<string, LobbyTeam>,
    teamOrder: seq<string>,
    subscribers: set<PeerId>,
    controls: seq<LobbyPropertyData>,
    state: LobbyState,
    statusText: string,
    gameMaster: Option<string>,
    isDestroyed: bool,
    maxPlayers: int,
    minPlayers: int,
    gameSpawnTask: Option<int>,
    gameIp: string,
    gamePort: int)

  predicate NoDup<T(==)>(s: seq<T>)
  {
    forall i, j :: 0 <= i < j < |s| ==> s[i] != s[j]
  }

  /** The sequence without the element `x`. */
  function Without(s: seq<string>, x: string): (r: seq<string>)
    ensures forall y :: y in r <==> y in s && y != x
    ensures NoDup(s) ==> NoDup(r)
    ensures |r| <= |s|
  {
    if |s| == 0 then []
    else if s[0] == x then Without(s[1..], x)
    else
      var rest := Without(s[1..], x);
      assert NoDup(s) ==> forall j :: 0 <= j < |rest| ==> rest[j] in s[1..] && rest[j] != s[0];
      [s[0]] + rest
  }

  // ----- construction -----

  function SumMaxPlayers(ts: seq<LobbyTeam>): int
  {
    if |ts| == 0 then 0 else SumMaxPlayers(ts[..|ts| - 1]) + ts[|ts| - 1].maxPlayers
  }

  function SumMinPlayers(ts: seq<LobbyTeam>): int
  {
    if |ts| == 0 then 0 else SumMinPlayers(ts[..|ts| - 1]) + ts[|ts| - 1].minPlayers
  }

  predicate DistinctNames(ts: seq<LobbyTeam>)
  {
    forall i, j :: 0 <= i < j < |ts| ==> ts[i].name != ts[j].name
  }

  function TeamNames(ts: seq<LobbyTeam>): (r: seq<string>)
    ensures |r| == |ts| && forall i :: 0 <= i < |ts| ==> r[i] == ts[i].name
  {
    seq(|ts|, i requires 0 <= i < |ts| => ts[i].name)
  }

  function TeamMap(ts: seq<LobbyTeam>): (m: map<string, LobbyTeam>)
    ensures forall n :: n in m <==> exists i :: 0 <= i < |ts| && ts[i].name == n
    ensures DistinctNames(ts) ==> forall i :: 0 <= i < |ts| ==> m[ts[i].name] == ts[i]
  {
    if |ts| == 0 then map[]
    else
      var init, last := ts[..|ts| - 1], ts[|ts| - 1];
      var prev := TeamMap(init);
      var m := prev[last.name := last];
      assert forall n :: n in m <==> exists i :: 0 <= i < |ts| && ts[i].name == n by {
        forall n ensures n in m <==> exists i :: 0 <= i < |ts| && ts[i].name == n {
          if n in prev {
            var i :| 0 <= i < |init| && init[i].name == n;
            assert ts[i].name == n;
          }
          if exists i :: 0 <= i < |ts| && ts[i].name == n {
            var i :| 0 <= i < |ts| && ts[i].name == n;
            if i < |init| {
              assert init[i].name == n;
            }
          }
        }
      }
      assert DistinctNames(ts) ==> forall i :: 0 <= i < |ts| ==> m[ts[i].name] == ts[i] by {
        if DistinctNames(ts) {
          assert DistinctNames(init) by {
            forall i, j | 0 <= i < j < |init| ensures init[i].name != init[j].name {
              assert init[i] == ts[i] && init[j] == ts[j];
            }
          }
          forall i | 0 <= i < |ts| ensures m[ts[i].name] == ts[i] {
            if i < |init| {
              assert init[i] == ts[i] && ts[i].name != last.name;
              assert prev[init[i].name] == init[i];
            }
          }
        }
      }
      m
  }

  /**
   * The constructor. The teams dictionary is built with `ToDictionary`, which
   * throws on two teams with the same name.
   */
  function NewLobby(id: int, ts: seq<LobbyTeam>, config: LobbyConfig): (r: Result<Lobby, string>)
    ensures r.Err? <==> !DistinctNames(ts)
    ensures r.Ok? ==> && r.value.id == id && r.value.state == Preparations && r.value.members == map[]
                      && r.value.gameIp == "" && r.value.gamePort == -1 && r.value.gameSpawnTask.None?
                      && r.value.gameMaster.None? && !r.value.isDestroyed
                      && (forall i :: 0 <= i < |ts| ==> ts[i].name in r.value.teams && r.value.teams[ts[i].name] == ts[i])
                      && |r.value.teams| == |ts|
    ensures r.Ok? ==> r.value.maxPlayers == SumMaxPlayers(ts) && r.value.minPlayers == SumMinPlayers(ts)
  {
    if !DistinctNames(ts) then Err("ArgumentException")
    else
      var names := TeamNames(ts);
      assert |TeamMap(ts).Keys| == |ts| by { DistinctKeys(ts); }
      Ok(Lobby(id, "", Option.None, config, map[], [], map[], map[], TeamMap(ts), names, {}, [], Preparations, "",
               Option.None, false, SumMaxPlayers(ts), SumMinPlayers(ts), Option.None, "", -1))
  }

  lemma {:induction false} DistinctKeys(ts: seq<LobbyTeam>)
    requires DistinctNames(ts)
    ensures |TeamMap(ts).Keys| == |ts|
  {
    if |ts| > 0 {
      var init := ts[..|ts| - 1];
      DistinctKeys(init);
      assert forall i :: 0 <= i < |init| ==> init[i].name != ts[|ts| - 1].name by {
        forall i | 0 <= i < |init| ensures init[i].name != ts[|ts| - 1].name {
          assert init[i] == ts[i];
        }
      }
      assert TeamMap(ts).Keys == TeamMap(init).Keys + {ts[|ts| - 1].name};
    }
  }

  /** The default teams of the given names. */
  function DefaultTeams(names: seq<string>): (ts: seq<LobbyTeam>)
    ensures |ts| == |names| && forall i :: 0 <= i < |names| ==> ts[i] == NewTeam(names[i])
  {
    seq(|names|, i requires 0 <= i < |names| => NewTeam(names[i]))
  }

  /** A lobby of `n` default teams holds at most `5 n` players and needs at least `n`. */
  lemma {:induction false} DefaultTeamsCapacity(names: seq<string>)
    ensures SumMaxPlayers(DefaultTeams(names)) == 5 * |names|
    ensures SumMinPlayers(DefaultTeams(names)) == |names|
  {
    if |names| > 0 {
      var init := names[..|names| - 1];
      DefaultTeamsCapacity(init);
      assert DefaultTeams(names)[..|names| - 1] == DefaultTeams(init);
    }
  }

  // ----- the consistency of the member bookkeeping -----

  /** Every member is in the join order once, and in the peer index under its own peer. */
  ghost predicate ValidRoster(l: Lobby)
  {
    && NoDup(l.joinOrder)
    && (forall u :: u in l.members <==> u in l.joinOrder)
    && (forall u :: u in l.members ==> l.members[u].username == u)
    && (forall pr :: pr in l.membersByPeer ==>
          l.membersByPeer[pr] in l.members && l.members[l.membersByPeer[pr]].peer == pr)
    && (forall u :: u in l.members ==>
          l.members[u].peer in l.membersByPeer && l.membersByPeer[l.members[u].peer] == u)
  }

  /** Every member is in exactly the team it points at, and the teams are those of the team order. */
  ghost predicate ValidTeams(l: Lobby)
  {
    && NoDup(l.teamOrder)
    && (forall n :: n in l.teams <==> n in l.teamOrder)
    && (forall n :: n in l.teams ==> l.teams[n].name == n)
    && (forall u :: u in l.members ==>
          l.members[u].team.Some? && l.members[u].team.value in l.teams
          && u in l.teams[l.members[u].team.value].members)
    && (forall n, u :: n in l.teams && u in l.teams[n].members ==>
          u in l.members && l.members[u].team == Some(n))
  }

  /**
   * The game master is a member, and exists exactly when game masters are
   * enabled and someone is in; a destroyed lobby is empty.
   */
  ghost predicate ValidMaster(l: Lobby)
  {
    && (l.gameMaster.Some? ==> l.gameMaster.value in l.members)
    && (l.config.enableGameMasters ==> (l.gameMaster.None? <==> l.joinOrder == []))
    && (!l.config.enableGameMasters ==> l.gameMaster.None?)
    && (l.isDestroyed ==> l.joinOrder == [])
  }

  ghost predicate Valid(l: Lobby)
  {
    ValidRoster(l) && ValidTeams(l) && ValidMaster(l)
  }

  /** A lobby built from empty teams starts consistent. */
  lemma NewLobbyIsValid(id: int, ts: seq<LobbyTeam>, config: LobbyConfig)
    requires DistinctNames(ts)
    requires forall i :: 0 <= i < |ts| ==> ts[i].members == {}
    ensures NewLobby(id, ts, config).Ok? && Valid(NewLobby(id, ts, config).value)
  {
    var l := NewLobby(id, ts, config).value;
    assert NoDup(l.teamOrder);
    forall n | n in l.teams
      ensures n in l.teamOrder && l.teams[n].name == n && l.teams[n].members == {}
    {
      var i :| 0 <= i < |ts| && ts[i].name == n;
      assert l.teamOrder[i] == n;
    }
  }

  // ----- small operations -----

  /** `PickNewGameMaster`: the first member, when game masters are enabled. */
  function PickNewGameMaster(l: Lobby): (r: Lobby)
    ensures !l.config.enableGameMasters ==> r == l
    ensures l.config.enableGameMasters ==> r.gameMaster == (if l.joinOrder == [] then Option.None else Some(l.joinOrder[0]))
    ensures r == l.(gameMaster := r.gameMaster)
  {
    if !l.config.enableGameMasters then l
    else l.(gameMaster := if l.joinOrder == [] then Option.None else Some(l.joinOrder[0]))
  }

  /** The member a peer is, if any (`GetMember(playerExt)`). */
  function GetMember(l: Lobby, peer: PeerId): (r: Option<string>)
    ensures r.Some? <==> peer in l.membersByPeer
    ensures Valid(l) && r.Some? ==> r.value in l.members && l.members[r.value].peer == peer
  {
    Lookup(l.membersByPeer, peer)
  }

  /** A team that can take one more player. */
  predicate Addable(teams: map<string, LobbyTeam>, n: string)
  {
    n in teams && CanAddPlayer(teams[n])
  }

  function Count(teams: map<string, LobbyTeam>, n: string): int
  {
    if n in teams then PlayerCount(teams[n]) else 0
  }

  /**
   * `PickTeamForPlayer`: among the teams that can add the player, the first
   * one (in team order) with the fewest players, as a stable `OrderBy` gives;
   * the answer is its position in `order`.
   */
  function PickTeamIn(teams: map<string, LobbyTeam>, order: seq<string>): (r: Option<nat>)
    ensures r.None? <==> forall j :: 0 <= j < |order| ==> !Addable(teams, order[j])
    ensures r.Some? ==> r.value < |order| && Addable(teams, order[r.value])
    ensures r.Some? ==> forall j :: 0 <= j < |order| && Addable(teams, order[j]) ==>
      Count(teams, order[r.value]) <= Count(teams, order[j])
    ensures r.Some? ==> forall j :: 0 <= j < r.value && Addable(teams, order[j]) ==>
      Count(teams, order[r.value]) < Count(teams, order[j])
    decreases |order|
  {
    if |order| == 0 then Option.None
    else
      var rest := PickTeamIn(teams, order[1..]);
      if Addable(teams, order[0]) && (rest.None? || Count(teams, order[0]) <= Count(teams, order[1 + rest.value]))
      then Some(0)
      else if rest.None? then Option.None
      else Some(1 + rest.value)
  }

  function PickTeamForPlayer(l: Lobby): (r: Option<string>)
    ensures r.Some? ==> Addable(l.teams, r.value) && r.value in l.teamOrder
    ensures r.Some? ==> forall n :: n in l.teamOrder && Addable(l.teams, n) ==> Count(l.teams, r.value) <= Count(l.teams, n)
    ensures r.None? <==> forall n :: n in l.teamOrder ==> !Addable(l.teams, n)
  {
    match PickTeamIn(l.teams, l.teamOrder)
    case None => Option.None
    case Some(i) => Some(l.teamOrder[i])
  }

  // ----- joining and leaving -----

  /**
   * The guards of `AddPlayer`, in order, before a team is picked: the error
   * text of the first that fails. `IsPlayerAllowed` lets everyone in, so its
   * "You're not allowed" never arises.
   */
  function AdmissionError(l: Lobby, user: LobbyUser): (e: Option<string>)
    ensures e == Some("You're already in a lobby") <==> user.currentLobby.Some?
    ensures e == Some("Invalid username") <==> user.currentLobby.None? && user.username.None?
    ensures e == Some("Already in the lobby") <==>
      user.currentLobby.None? && user.username.Some? && user.username.value in l.members
    ensures e == Some("Lobby is destroyed") <==>
      user.currentLobby.None? && user.username.Some? && user.username.value !in l.members && l.isDestroyed
    ensures e == Some("Lobby is full") <==>
      && user.currentLobby.None? && user.username.Some? && user.username.value !in l.members && !l.isDestroyed
      && |l.members| >= l.maxPlayers
    ensures e == Some("Game is already in progress") <==>
      && user.currentLobby.None? && user.username.Some? && user.username.value !in l.members && !l.isDestroyed
      && |l.members| < l.maxPlayers && !l.config.allowJoiningWhenGameIsLive && l.state != Preparations
    ensures e.None? <==>
      && user.currentLobby.None? && user.username.Some? && user.username.value !in l.members && !l.isDestroyed
      && |l.members| < l.maxPlayers && (l.config.allowJoiningWhenGameIsLive || l.state == Preparations)
  {
    if user.currentLobby.Some? then Some("You're already in a lobby")
    else if user.username.None? then Some("Invalid username")
    else if user.username.value in l.members then Some("Already in the lobby")
    else if l.isDestroyed then Some("Lobby is destroyed")
    else if |l.members| >= l.maxPlayers then Some("Lobby is full")
    else if !l.config.allowJoiningWhenGameIsLive && l.state != Preparations then Some("Game is already in progress")
    else Option.None
  }

  /**
   * The joining step of `AddPlayer` once team `n` is picked: the new, unready
   * member goes into the team, both member maps and the subscribers, and a
   * lobby without a game master gets one. `None` when the team refuses.
   */
  function Enter(l: Lobby, u: string, peer: PeerId, n: string): (r: Option<Lobby>)
    requires n in l.teams
    ensures r.None? <==> u in l.teams[n].members
    ensures r.Some? ==>
      var gm := if l.gameMaster.None? && l.config.enableGameMasters then Some((l.joinOrder + [u])[0]) else l.gameMaster;
      r.value == l.(members := l.members[u := LobbyMember(u, peer, Some(l.teams[n].name), false, map[])],
                    joinOrder := l.joinOrder + [u],
                    membersByPeer := l.membersByPeer[peer := u],
                    teams := l.teams[n := l.teams[n].(members := l.teams[n].members + {u})],
                    subscribers := l.subscribers + {peer},
                    gameMaster := gm)
  {
    var (ok, team', member) := AddMember(l.teams[n], LobbyMember(u, peer, Option.None, false, map[]));
    if !ok then Option.None
    else
      var l1 := l.(members := l.members[u := member],
                   joinOrder := l.joinOrder + [u],
                   membersByPeer := l.membersByPeer[peer := u],
                   teams := l.teams[n := team'],
                   subscribers := l.subscribers + {peer});
      Some(if l.gameMaster.None? then PickNewGameMaster(l1) else l1)
  }

  /**
   * `AddPlayer`: the guards in order, then the join; the user's current
   * lobby becomes this one. The `Err` carries the error text handed back to
   * the caller, and a refused join changes nothing.
   */
  function AddPlayer(l: Lobby, user: LobbyUser): (r: Result<(Lobby, LobbyUser), string>)
    ensures AdmissionError(l, user).Some? ==> r == Err(AdmissionError(l, user).value)
    ensures r == Err("Invalid lobby team") <==> AdmissionError(l, user).None? && PickTeamForPlayer(l).None?
    ensures r.Ok? ==>
      var (l', user') := r.value;
      var u := user.username.value;
      && AdmissionError(l, user).None? && PickTeamForPlayer(l).Some?
      && l'.members.Keys == l.members.Keys + {u} && l'.joinOrder == l.joinOrder + [u]
      && l'.membersByPeer == l.membersByPeer[user.peer := u]
      && l'.members[u].peer == user.peer && !l'.members[u].isReady
      && l'.members[u].team == Some(l.teams[PickTeamForPlayer(l).value].name)
      && user' == user.(currentLobby := Some(l.id))
      && |l'.members| == |l.members| + 1 <= l.maxPlayers
      && user.peer in l'.subscribers
      && l'.state == l.state && l'.properties == l.properties && !l'.isDestroyed
  {
    match AdmissionError(l, user)
    case Some(e) => Err(e)
    case None =>
      match PickTeamForPlayer(l)
      case None => Err("Invalid lobby team")
      case Some(n) =>
        var u := user.username.value;
        match Enter(l, u, user.peer, n)
        case None => Err("Not allowed to join a team")
        case Some(l') => Ok((l', user.(currentLobby := Some(l.id))))
  }

  /** In a consistent lobby the team step of `AddPlayer` cannot fail: a newcomer is in no team. */
  lemma AddPlayerTeamStepSucceeds(l: Lobby, user: LobbyUser)
    requires ValidTeams(l)
    ensures AddPlayer(l, user) != Err("Not allowed to join a team")
  {
  }

  /** Who `AddPlayer` admits: exactly the users that pass every guard while some team has room. */
  lemma AddPlayerAdmits(l: Lobby, user: LobbyUser)
    requires ValidTeams(l)
    ensures AddPlayer(l, user).Ok? <==>
      && user.currentLobby.None? && user.username.Some? && user.username.value !in l.members
      && !l.isDestroyed && |l.members| < l.maxPlayers
      && (l.config.allowJoiningWhenGameIsLive || l.state == Preparations)
      && exists n :: n in l.teamOrder && Addable(l.teams, n)
  {
    AddPlayerTeamStepSucceeds(l, user);
  }

  lemma EnterKeepsRoster(l: Lobby, u: string, peer: PeerId, n: string)
    requires ValidRoster(l) && u !in l.members && peer !in l.membersByPeer
    requires n in l.teams && Enter(l, u, peer, n).Some?
    ensures ValidRoster(Enter(l, u, peer, n).value)
  {
    assert forall i :: 0 <= i < |l.joinOrder| ==> l.joinOrder[i] in l.members;
  }

  lemma EnterKeepsTeams(l: Lobby, u: string, peer: PeerId, n: string)
    requires ValidTeams(l) && u !in l.members
    requires n in l.teams && Enter(l, u, peer, n).Some?
    ensures ValidTeams(Enter(l, u, peer, n).value)
  {
    var l' := Enter(l, u, peer, n).value;
    forall m, v | m in l'.teams && v in l'.teams[m].members
      ensures v in l'.members && l'.members[v].team == Some(m)
    {
      if v != u {
        assert v in l.teams[m].members;
      }
    }
  }

  /** A successful join keeps the lobby consistent, for a peer not already inside it. */
  lemma AddPlayerKeepsValid(l: Lobby, user: LobbyUser)
    requires Valid(l) && user.peer !in l.membersByPeer
    requires AddPlayer(l, user).Ok?
    ensures Valid(AddPlayer(l, user).value.0)
  {
    var u := user.username.value;
    var n := PickTeamForPlayer(l).value;
    EnterKeepsRoster(l, u, user.peer, n);
    EnterKeepsTeams(l, u, user.peer, n);
  }

  /** What leaving does to the lobby, the user, and the spawned game (a kill request when the lobby dies). */
  datatype Removal = Removal(lobby: Lobby, user: LobbyUser, killTask: Option<int>)

  /** The last member left: the lobby destroys itself unless it is kept alive with zero players. */
  function MarkDestroyed(l: Lobby): (r: (Lobby, Option<int>))
    ensures r.0 == l.(isDestroyed := true)
    ensures r.1 == (if l.isDestroyed then Option.None else l.gameSpawnTask)
  {
    if l.isDestroyed then (l, Option.None) else (l.(isDestroyed := true), l.gameSpawnTask)
  }

  /**
   * The removal step of `RemovePlayer` for member `u` arriving on `peer`:
   * out of both maps, its team and the subscribers; a departing game master
   * is replaced by the first remaining member.
   */
  function Leave(l: Lobby, u: string, peer: PeerId): (r: Lobby)
    requires u in l.members
    ensures var m := l.members[u];
      var teams' := if m.team.Some? && m.team.value in l.teams
                    then l.teams[m.team.value := l.teams[m.team.value].(members := l.teams[m.team.value].members - {m.username})]
                    else l.teams;
      var gm := if l.gameMaster != Some(u) || !l.config.enableGameMasters then l.gameMaster
                else if Without(l.joinOrder, u) == [] then Option.None else Some(Without(l.joinOrder, u)[0]);
      r == l.(members := l.members - {u}, joinOrder := Without(l.joinOrder, u),
              membersByPeer := l.membersByPeer - {peer}, teams := teams',
              subscribers := l.subscribers - {peer}, gameMaster := gm)
  {
    var m := l.members[u];
    var teams' := if m.team.Some? && m.team.value in l.teams
                  then l.teams[m.team.value := RemoveMember(l.teams[m.team.value], m).0]
                  else l.teams;
    var l1 := l.(members := l.members - {u},
                 joinOrder := Without(l.joinOrder, u),
                 membersByPeer := l.membersByPeer - {peer},
                 teams := teams',
                 subscribers := l.subscribers - {peer});
    if l.gameMaster == Some(u) then PickNewGameMaster(l1) else l1
  }

  /**
   * `RemovePlayer` for a user whose username is `u`: a non-member changes
   * nothing; otherwise the member leaves, the user's current lobby is
   * cleared if it was this one, and the last member out destroys the lobby
   * unless it is kept alive with zero players.
   */
  function RemoveNamed(l: Lobby, u: string, user: LobbyUser): (r: Removal)
    ensures u !in l.members ==> r == Removal(l, user, Option.None)
    ensures u in l.members ==> r.lobby == Leave(l, u, user.peer).(isDestroyed := r.lobby.isDestroyed)
    ensures u in l.members ==>
      && r.lobby.members == l.members - {u} && r.lobby.joinOrder == Without(l.joinOrder, u)
      && r.lobby.membersByPeer == l.membersByPeer - {user.peer}
      && user.peer !in r.lobby.subscribers
      && r.user == (if user.currentLobby == Some(l.id) then user.(currentLobby := Option.None) else user)
    ensures u in l.members && l.members[u].team.Some? && l.members[u].team.value in l.teams ==>
      var n := l.members[u].team.value;
      n in r.lobby.teams && r.lobby.teams[n].members == l.teams[n].members - {l.members[u].username}
    ensures r.lobby.teams.Keys == l.teams.Keys
    ensures r.lobby.id == l.id && r.lobby.gameSpawnTask == l.gameSpawnTask && r.lobby.config == l.config
    ensures r.lobby.isDestroyed <==> l.isDestroyed || (u in l.members && !l.config.keepAliveWithZeroPlayers && |l.members| == 1)
    ensures r.killTask.Some? ==> !l.isDestroyed && r.lobby.isDestroyed && r.killTask == l.gameSpawnTask
  {
    if u !in l.members then Removal(l, user, Option.None)
    else
      var l2 := Leave(l, u, user.peer);
      var user' := if user.currentLobby == Some(l.id) then user.(currentLobby := Option.None) else user;
      assert |l2.members| == 0 <==> |l.members| == 1 by {
        assert |l.members - {u}| == |l.members| - 1;
      }
      if !l.config.keepAliveWithZeroPlayers && |l2.members| == 0 then
        var (l3, kill) := MarkDestroyed(l2);
        Removal(l3, user', kill)
      else Removal(l2, user', Option.None)
  }

  /**
   * `RemovePlayer`. The members dictionary is looked up with the peer's
   * username, so a peer without one makes the lookup throw.
   */
  function RemovePlayer(l: Lobby, user: LobbyUser): (r: Result<Removal, string>)
    ensures r.Err? <==> user.username.None?
    ensures r.Ok? && user.username.value !in l.members ==> r.value == Removal(l, user, Option.None)
    ensures r.Ok? && user.username.value in l.members ==>
      && r.value.lobby.members.Keys == l.members.Keys - {user.username.value}
      && user.peer !in r.value.lobby.membersByPeer
  {
    if user.username.None? then Err("ArgumentNullException")
    else Ok(RemoveNamed(l, user.username.value, user))
  }

  lemma LeaveKeepsRoster(l: Lobby, u: string, peer: PeerId)
    requires ValidRoster(l) && u in l.members && peer == l.members[u].peer
    ensures ValidRoster(Leave(l, u, peer))
  {
    var l' := Leave(l, u, peer);
    forall v | v in l'.members
      ensures l'.members[v].peer in l'.membersByPeer && l'.membersByPeer[l'.members[v].peer] == v
    {
      assert l.membersByPeer[l.members[v].peer] == v;
    }
  }

  lemma LeaveKeepsTeams(l: Lobby, u: string, peer: PeerId)
    requires ValidTeams(l) && u in l.members && l.members[u].username == u
    ensures ValidTeams(Leave(l, u, peer))
    ensures forall n :: n in Leave(l, u, peer).teams ==> u !in Leave(l, u, peer).teams[n].members
  {
    var l' := Leave(l, u, peer);
    var n := l.members[u].team.value;
    var teams' := l.teams[n := l.teams[n].(members := l.teams[n].members - {u})];
    assert l'.teams == teams' && l'.members == l.members - {u} && l'.teamOrder == l.teamOrder;
    forall v | v in l'.members
      ensures l'.members[v].team.Some? && l'.members[v].team.value in teams' && v in teams'[l'.members[v].team.value].members
    {
      assert l'.members[v] == l.members[v];
    }
    forall m, v | m in teams' && v in teams'[m].members
      ensures v in l'.members && l'.members[v].team == Some(m)
    {
      assert v in l.teams[m].members;
    }
    forall m | m in teams'
      ensures u !in teams'[m].members
    {
      assert u in l.teams[m].members ==> l.members[u].team == Some(m);
    }
  }

  lemma LeaveKeepsMaster(l: Lobby, u: string, peer: PeerId)
    requires ValidMaster(l) && ValidRoster(l) && u in l.members
    ensures ValidMaster(Leave(l, u, peer)) || Leave(l, u, peer).isDestroyed
    ensures !l.isDestroyed ==> ValidMaster(Leave(l, u, peer))
  {
    var l' := Leave(l, u, peer);
    assert l.gameMaster.Some? && l.gameMaster.value != u ==> l.gameMaster.value in l'.joinOrder;
  }

  /** Marking a lobby destroyed keeps it consistent once nobody is in it. */
  lemma MarkEmptyDestroyed(l: Lobby, destroyed: bool)
    requires Valid(l)
    requires destroyed ==> l.joinOrder == []
    ensures Valid(l.(isDestroyed := destroyed))
  {
  }

  /** After a member leaves, the lobby is empty exactly when that member was the only one. */
  lemma LeaveEmpties(l: Lobby, u: string, peer: PeerId)
    requires ValidRoster(l) && u in l.members
    ensures Leave(l, u, peer).joinOrder == [] <==> |l.members| == 1
  {
    var l2 := Leave(l, u, peer);
    assert |l2.members| == |l.members| - 1;
    if l2.joinOrder != [] {
      assert l2.joinOrder[0] in l2.members;
    }
    if l2.members != map[] {
      var v :| v in l2.members;
      assert v in l2.joinOrder;
    }
  }

  /** Leaving keeps the lobby consistent, for the user the member was created for. */
  lemma RemoveNamedKeepsValid(l: Lobby, u: string, user: LobbyUser)
    requires Valid(l)
    requires u in l.members ==> user.peer == l.members[u].peer
    ensures Valid(RemoveNamed(l, u, user).lobby)
    ensures u in l.members ==> forall n :: n in RemoveNamed(l, u, user).lobby.teams ==>
      u !in RemoveNamed(l, u, user).lobby.teams[n].members
  {
    if u in l.members {
      var l2 := Leave(l, u, user.peer);
      LeaveKeepsRoster(l, u, user.peer);
      LeaveKeepsTeams(l, u, user.peer);
      LeaveKeepsMaster(l, u, user.peer);
      LeaveEmpties(l, u, user.peer);
      var r := RemoveNamed(l, u, user).lobby;
      MarkEmptyDestroyed(l2, r.isDestroyed);
    }
  }

  /** Removes the named members one after the other, as `Destroy` does; also answers the peers that left. */
  function RemoveAll(l: Lobby, names: seq<string>): (r: (Lobby, set<PeerId>))
    decreases |names|
  {
    if |names| == 0 then (l, {})
    else if names[0] !in l.members then RemoveAll(l, names[1..])
    else
      var m := l.members[names[0]];
      var rm := RemoveNamed(l, names[0], LobbyUser(m.peer, Some(names[0]), Some(l.id)));
      var (l', left) := RemoveAll(rm.lobby, names[1..]);
      (l', left + {m.peer})
  }

  lemma {:induction false} RemoveAllRemoves(l: Lobby, names: seq<string>)
    ensures RemoveAll(l, names).0.members.Keys == l.members.Keys - set x | x in names
    ensures RemoveAll(l, names).0.isDestroyed == l.isDestroyed || RemoveAll(l, names).0.isDestroyed
    ensures l.isDestroyed ==> RemoveAll(l, names).0.isDestroyed
    ensures RemoveAll(l, names).0.id == l.id && RemoveAll(l, names).0.gameSpawnTask == l.gameSpawnTask
    decreases |names|
  {
    if |names| > 0 {
      if names[0] !in l.members {
        RemoveAllRemoves(l, names[1..]);
      } else {
        var m := l.members[names[0]];
        var rm := RemoveNamed(l, names[0], LobbyUser(m.peer, Some(names[0]), Some(l.id)));
        RemoveAllRemoves(rm.lobby, names[1..]);
      }
    }
  }

  /**
   * `Destroy`: mark the lobby destroyed, remove every member, and ask the
   * spawner to kill the game server. A destroyed lobby ignores it.
   */
  function Destroy(l: Lobby): (r: Removal)
  {
    if l.isDestroyed then Removal(l, LobbyUser(0, Option.None, Option.None), Option.None)
    else
      var (l', _) := RemoveAll(l.(isDestroyed := true), l.joinOrder);
      Removal(l', LobbyUser(0, Option.None, Option.None), l.gameSpawnTask)
  }

  /** The peers a destroy releases from the lobby (their current lobby is cleared). */
  function Released(l: Lobby): set<PeerId>
  {
    if l.isDestroyed then {} else RemoveAll(l.(isDestroyed := true), l.joinOrder).1
  }

  /** Destroying removes every member, and destroying again changes nothing and kills nothing. */
  lemma DestroyRemovesAll(l: Lobby)
    requires Valid(l)
    ensures Destroy(l).lobby.isDestroyed && Destroy(l).lobby.members == map[]
    ensures Destroy(l).killTask == (if l.isDestroyed then Option.None else l.gameSpawnTask)
    ensures Destroy(Destroy(l).lobby) == Removal(Destroy(l).lobby, LobbyUser(0, Option.None, Option.None), Option.None)
  {
    if !l.isDestroyed {
      RemoveAllRemoves(l.(isDestroyed := true), l.joinOrder);
    } else {
      assert forall u :: u !in l.members;
    }
  }

  // ----- team switching -----

  /** The move itself: the member joins the target team and leaves the one it pointed at. */
  function Switch(l: Lobby, u: string, teamName: string): (r: Lobby)
    requires u in l.members && teamName in l.teams && l.members[u].team.Some?
  {
    var m := l.members[u];
    var (_, target', m') := AddMember(l.teams[teamName], m);
    var teams1 := l.teams[teamName := target'];
    var current := m.team.value;
    var teams2 := if current in teams1 then teams1[current := RemoveMember(teams1[current], m').0] else teams1;
    l.(teams := teams2, members := l.members[u := m'])
  }

  /**
   * `TryJoinTeam` for a member. Looking the team up throws on an unknown
   * name; a member in no team, a full team or a failed add leaves
   * everything as it was.
   */
  function TryJoinTeam(l: Lobby, teamName: string, u: string): (r: Result<(Lobby, bool), string>)
    requires u in l.members
    ensures !l.config.enableTeamSwitching ==> r == Ok((l, false))
    ensures l.config.enableTeamSwitching && teamName !in l.teams ==> r.Err?
    ensures r.Ok? && !r.value.1 ==> r.value.0 == l
    ensures teamName in l.teams && !CanAddPlayer(l.teams[teamName]) ==> r == Ok((l, false)) || r.Err?
    ensures r.Ok? && r.value.1 ==>
      && l.config.enableTeamSwitching && teamName in l.teams && CanAddPlayer(l.teams[teamName])
      && l.members[u].team.Some? && l.members[u].username !in l.teams[teamName].members
      && r.value.0 == Switch(l, u, teamName)
  {
    if !l.config.enableTeamSwitching then Ok((l, false))
    else if teamName !in l.teams then Err("KeyNotFoundException")
    else
      var m := l.members[u];
      if m.team.None? then Ok((l, false))
      else
        var target := l.teams[teamName];
        if PlayerCount(target) >= target.maxPlayers then Ok((l, false))
        else if m.username in target.members then Ok((l, false))
        else Ok((Switch(l, u, teamName), true))
  }

  /** In a consistent lobby, a switch adds the member to the target team and takes it out of its old one. */
  lemma SwitchShape(l: Lobby, u: string, teamName: string)
    requires ValidRoster(l) && ValidTeams(l) && u in l.members && teamName in l.teams
    requires u !in l.teams[teamName].members
    ensures var n0 := l.members[u].team.value;
      && n0 != teamName
      && Switch(l, u, teamName) == l.(
           teams := l.teams[teamName := l.teams[teamName].(members := l.teams[teamName].members + {u})]
                           [n0 := l.teams[n0].(members := l.teams[n0].members - {u})],
           members := l.members[u := l.members[u].(team := Some(teamName))])
  {
  }

  lemma SwitchKeepsTeams(l: Lobby, u: string, teamName: string)
    requires ValidRoster(l) && ValidTeams(l) && u in l.members && teamName in l.teams
    requires u !in l.teams[teamName].members
    ensures ValidTeams(Switch(l, u, teamName))
    ensures forall n :: n in l.teams && n != teamName ==> u !in Switch(l, u, teamName).teams[n].members
  {
    SwitchShape(l, u, teamName);
    var l' := Switch(l, u, teamName);
    var n0 := l.members[u].team.value;
    forall m, v | m in l'.teams && v in l'.teams[m].members
      ensures v in l'.members && l'.members[v].team == Some(m)
    {
      if v != u {
        assert v in l.teams[m].members;
      }
    }
    forall n | n in l'.teams && n != teamName
      ensures u !in l'.teams[n].members
    {
      assert u in l.teams[n].members ==> n == n0;
    }
  }

  /** After a switch in a consistent lobby the member is in the new team only, and the lobby stays consistent. */
  lemma TryJoinTeamMoves(l: Lobby, teamName: string, u: string)
    requires Valid(l) && u in l.members
    requires TryJoinTeam(l, teamName, u).Ok? && TryJoinTeam(l, teamName, u).value.1
    ensures var l' := TryJoinTeam(l, teamName, u).value.0;
      && Valid(l')
      && l'.members[u].team == Some(teamName)
      && u in l'.teams[teamName].members
      && forall n :: n in l'.teams && n != teamName ==> u !in l'.teams[n].members
  {
    SwitchShape(l, u, teamName);
    SwitchKeepsTeams(l, u, teamName);
  }

  // ----- properties and controls -----

  /**
   * `SetProperty(setter, key, value)`: refused unless players may change
   * lobby properties and, with game masters enabled, the setter is the master.
   */
  function SetProperty(l: Lobby, setter: PeerId, key: string, value: string): (r: (Lobby, bool))
    ensures r.1 <==> l.config.allowPlayersChangeLobbyProperties
                     && (l.config.enableGameMasters ==> l.gameMaster == GetMember(l, setter))
    ensures !r.1 ==> r.0 == l
    ensures r.1 ==> r.0 == l.(properties := r.0.properties) && key in r.0.properties && r.0.properties[key] == value
    ensures r.1 ==> forall k :: k in l.properties && k != key ==> k in r.0.properties && r.0.properties[k] == l.properties[k]
  {
    if !l.config.allowPlayersChangeLobbyProperties then (l, false)
    else if l.config.enableGameMasters && l.gameMaster != GetMember(l, setter) then (l, false)
    else (l.(properties := l.properties[key := value]), true)
  }

  /** `SetLobbyProperties`: every given property overwrites the lobby's. */
  function SetLobbyProperties(l: Lobby, props: map<string, string>): (r: Lobby)
    ensures r == l.(properties := r.properties)
    ensures forall k :: k in props ==> k in r.properties && r.properties[k] == props[k]
    ensures forall k :: k in l.properties && k !in props ==> k in r.properties && r.properties[k] == l.properties[k]
    ensures r.properties.Keys == l.properties.Keys + props.Keys
  {
    l.(properties := l.properties + props)
  }

  /** The value `AddControl` stores when the caller gives none: the first option, or "". */
  function ControlDefault(data: LobbyPropertyData): (v: string)
    ensures |data.options| > 0 ==> v == data.options[0]
    ensures |data.options| == 0 ==> v == ""
  {
    if |data.options| > 0 then data.options[0] else ""
  }

  /** `AddControl`, with or without a default value. */
  function AddControl(l: Lobby, data: LobbyPropertyData, default: Option<string>): (r: Lobby)
    ensures r.controls == l.controls + [data]
    ensures data.propertyKey in r.properties
    ensures r.properties[data.propertyKey] == default.GetOr(ControlDefault(data))
    ensures r == l.(properties := r.properties, controls := r.controls)
  {
    l.(properties := l.properties[data.propertyKey := default.GetOr(ControlDefault(data))], controls := l.controls + [data])
  }

  // ----- state -----

  /** The status text each state announces (`Preparations` reuses the failure text in the source). */
  function StateText(s: LobbyState): string
  {
    match s
    case FailedToStart => "Failed to start server"
    case Preparations => "Failed to start server"
    case StartingGameServer => "Starting game server"
    case GameInProgress => "Game in progress"
    case GameOver => "Game is over"
  }

  /** The `StatusText` setter as written: it announces the text but never stores it. */
  function SetStatusTextAsWritten(l: Lobby, text: string): (r: Lobby)
    ensures r.statusText == l.statusText
  {
    l
  }

  /** The `StatusText` setter as evidently intended: the text is stored. */
  function SetStatusText(l: Lobby, text: string): (r: Lobby)
    ensures r.statusText == text
    ensures r == l.(statusText := text)
  {
    l.(statusText := text)
  }

  /** A lobby's status text can never change through the setter as written. */
  lemma StatusTextIsNeverStored(l: Lobby)
    requires l.statusText == ""
    ensures SetStatusTextAsWritten(l, StateText(GameInProgress)).statusText != StateText(GameInProgress)
  {
  }

  function Unready(ms: map<string, LobbyMember>): (r: map<string, LobbyMember>)
    ensures r.Keys == ms.Keys
    ensures forall u :: u in r ==> r[u] == ms[u].(isReady := false)
  {
    map u | u in ms :: ms[u].(isReady := false)
  }

  /**
   * The `State` setter: a change of state announces the new status text and
   * makes every member unready; setting the current state does nothing.
   */
  function SetState(l: Lobby, s: LobbyState): (r: Lobby)
    ensures r.state == s
    ensures l.state == s ==> r == l
    ensures l.state != s ==> r.statusText == StateText(s)
    ensures l.state != s ==> r.members.Keys == l.members.Keys && forall u :: u in r.members ==> !r.members[u].isReady
    ensures r == l.(state := s, statusText := r.statusText, members := r.members)
  {
    if l.state == s then l
    else SetStatusText(l.(state := s, members := Unready(l.members)), StateText(s))
  }

  /** Changing the state only touches the members' ready flags, so consistency survives it. */
  lemma SetStateKeepsValid(l: Lobby, s: LobbyState)
    requires Valid(l)
    ensures Valid(SetState(l, s))
  {
  }

  /** Where the game server runs, as its room reports it. */
  datatype RoomAddress = RoomAddress(ip: string, port: int)

  /**
   * `OnSpawnServerStatusChanged`. On `Finalized` the game address comes from
   * the room named in the finalization data; `room` is that room, or `Option.None`
   * when the data names none or the room is unknown.
   */
  function OnSpawnServerStatusChanged(l: Lobby, s: SpawnStatus, room: Option<RoomAddress>): (r: Lobby)
    ensures Rank(SpawnStatus.None) < Rank(s) < Rank(Finalized) ==> r == SetState(l, StartingGameServer)
    ensures s == Finalized ==> r.state == GameInProgress
    ensures s == Finalized && room.Some? ==> r.gameIp == room.value.ip && r.gamePort == room.value.port
    ensures s == Finalized && room.None? ==> r.gameIp == l.gameIp && r.gamePort == l.gamePort
    ensures IsDoneStatus(s) && s != Finalized && l.state == StartingGameServer ==>
      r.state == (if l.config.playAgainEnabled then Preparations else FailedToStart)
    ensures IsDoneStatus(s) && s != Finalized && l.state != StartingGameServer ==>
      r.state == (if l.config.playAgainEnabled then Preparations else GameOver)
    ensures s == SpawnStatus.None ==> r == l
    ensures r.members.Keys == l.members.Keys && r.teams == l.teams && r.joinOrder == l.joinOrder
  {
    var starting := Rank(SpawnStatus.None) < Rank(s) < Rank(Finalized);
    if starting && l.state != StartingGameServer then SetState(l, StartingGameServer)
    else if s == Finalized then
      var l1 := SetState(l, GameInProgress);
      match room
      case None => l1
      case Some(a) => l1.(gameIp := a.ip, gamePort := a.port)
    else if Rank(s) < Rank(SpawnStatus.None) then
      if l.state == StartingGameServer
      then SetState(l, if l.config.playAgainEnabled then Preparations else FailedToStart)
      else SetState(l, if l.config.playAgainEnabled then Preparations else GameOver)
    else l
  }

  /** `OnRoomDestroyed`: the game is gone; the lobby forgets its address and task. */
  function OnRoomDestroyed(l: Lobby): (r: Lobby)
    ensures r.gameIp == "" && r.gamePort == -1 && r.gameSpawnTask.None?
    ensures r.state == (if l.config.playAgainEnabled then Preparations else GameOver)
  {
    SetState(l.(gameIp := "", gamePort := -1, gameSpawnTask := Option.None),
             if l.config.playAgainEnabled then Preparations else GameOver)
  }

  // ----- starting the game -----

  /** Why a start was refused; each comes with the chat message the member receives. */
  datatype StartRefusal =
    | ManualStartDisabled
    | NotGameMaster
    | InvalidState
    | LobbyDestroyed
    | NotAllReady
    | NotEnoughPlayers(missing: int)
    | TeamLacking(team: string)
    | ServersBusy

  function RefusalText(f: StartRefusal): string
  {
    match f
    case ManualStartDisabled => "You cannot start the game manually"
    case NotGameMaster => "You're not the master of this game"
    case InvalidState => "Invalid lobby state"
    case LobbyDestroyed => "Lobby is destroyed"
    case NotAllReady => "Not all players are ready"
    case NotEnoughPlayers(n) => "Not enough players. Need " + IntToString(n) + " more "
    case TeamLacking(name) => "Team " + name + " does not have enough players"
    case ServersBusy => "Servers are busy"
  }

  /** The position of the first team, in team order, with fewer players than its minimum. */
  function FirstLackingTeam(teams: map<string, LobbyTeam>, order: seq<string>): (r: Option<nat>)
    ensures r.None? <==> forall j :: 0 <= j < |order| && order[j] in teams ==> teams[order[j]].minPlayers <= PlayerCount(teams[order[j]])
    ensures r.Some? ==>
      && r.value < |order| && order[r.value] in teams
      && teams[order[r.value]].minPlayers > PlayerCount(teams[order[r.value]])
      && forall j :: 0 <= j < r.value && order[j] in teams ==> teams[order[j]].minPlayers <= PlayerCount(teams[order[j]])
    decreases |order|
  {
    if |order| == 0 then Option.None
    else if order[0] in teams && teams[order[0]].minPlayers > PlayerCount(teams[order[0]]) then Some(0)
    else match FirstLackingTeam(teams, order[1..])
      case None => Option.None
      case Some(i) => Some(i + 1)
  }

  /** A member other than the game master who is not ready. */
  predicate SomeoneUnready(l: Lobby)
  {
    exists u :: u in l.members && !l.members[u].isReady && l.gameMaster != Some(u)
  }

  /** Some team, in team order, has fewer players than its minimum. */
  predicate LacksTeam(l: Lobby)
  {
    exists n :: n in l.teamOrder && n in l.teams && l.teams[n].minPlayers > PlayerCount(l.teams[n])
  }

  /** The first two checks of a manual start: it is enabled, and the peer is the game master. */
  predicate AsksAsMaster(l: Lobby, peer: PeerId)
  {
    l.config.enableManualStart && l.gameMaster == GetMember(l, peer)
  }

  /**
   * The checks of `StartGameManually`, in order, for the peer asking; `Option.None`
   * when all pass and the game is to be started. Each refusal is given
   * exactly when its check is the first to fail.
   */
  function ManualStartCheck(l: Lobby, peer: PeerId): (r: Option<StartRefusal>)
    ensures r == Some(ManualStartDisabled) <==> !l.config.enableManualStart
    ensures r == Some(NotGameMaster) <==> l.config.enableManualStart && l.gameMaster != GetMember(l, peer)
    ensures r == Some(InvalidState) <==> AsksAsMaster(l, peer) && l.state != Preparations
    ensures r == Some(LobbyDestroyed) <==> AsksAsMaster(l, peer) && l.state == Preparations && l.isDestroyed
    ensures r == Some(NotAllReady) <==>
      AsksAsMaster(l, peer) && l.state == Preparations && !l.isDestroyed && SomeoneUnready(l)
    ensures (r.Some? && r.value.NotEnoughPlayers?) <==>
      && AsksAsMaster(l, peer) && l.state == Preparations && !l.isDestroyed && !SomeoneUnready(l)
      && |l.members| < l.minPlayers
    ensures (r.Some? && r.value.TeamLacking?) <==>
      && AsksAsMaster(l, peer) && l.state == Preparations && !l.isDestroyed && !SomeoneUnready(l)
      && |l.members| >= l.minPlayers && LacksTeam(l)
    ensures r.None? <==>
      && AsksAsMaster(l, peer) && l.state == Preparations && !l.isDestroyed && !SomeoneUnready(l)
      && |l.members| >= l.minPlayers && !LacksTeam(l)
    ensures r.Some? && r.value.NotEnoughPlayers? ==> r.value.missing == l.minPlayers - |l.members| > 0
    ensures r.Some? && r.value.TeamLacking? ==>
      && r.value.team in l.teams && l.teams[r.value.team].minPlayers > PlayerCount(l.teams[r.value.team])
      && r.value.team == l.teamOrder[FirstLackingTeam(l.teams, l.teamOrder).value]
    ensures r != Some(ServersBusy)
  {
    if !l.config.enableManualStart then Some(ManualStartDisabled)
    else if l.gameMaster != GetMember(l, peer) then Some(NotGameMaster)
    else if l.state != Preparations then Some(InvalidState)
    else if l.isDestroyed then Some(LobbyDestroyed)
    else if SomeoneUnready(l) then Some(NotAllReady)
    else if |l.members| < l.minPlayers then Some(NotEnoughPlayers(l.minPlayers - |l.members|))
    else match FirstLackingTeam(l.teams, l.teamOrder)
      case Some(i) =>
        assert l.teamOrder[i] in l.teamOrder;
        Some(TeamLacking(l.teamOrder[i]))
      case None =>
        assert !LacksTeam(l) by {
          forall n | n in l.teamOrder && n in l.teams ensures l.teams[n].minPlayers <= PlayerCount(l.teams[n]) {
            var j :| 0 <= j < |l.teamOrder| && l.teamOrder[j] == n;
          }
        }
        Option.None
  }

  /** The region a game is requested in: the lobby's region property, or "" for any. */
  function Region(props: map<string, string>): string
  {
    Lookup(props, RegionKey).GetOr("")
  }

  /**
   * `SetGameSpawnTask`: a different previous task is aborted before the new
   * one is followed.
   */
  function SetGameSpawnTask(l: Lobby, sp: Spawners.SpawnerPlugin, task: int): (r: (Lobby, Spawners.SpawnerPlugin))
    ensures r.0 == l.(gameSpawnTask := Some(task))
    ensures r.1.tasks.Keys == sp.tasks.Keys
    ensures l.gameSpawnTask.Some? && l.gameSpawnTask.value != task && l.gameSpawnTask.value in sp.tasks ==>
      r.1.tasks[l.gameSpawnTask.value] == Abort(sp.tasks[l.gameSpawnTask.value]).task
    ensures forall k :: k in sp.tasks && Some(k) != l.gameSpawnTask ==> r.1.tasks[k] == sp.tasks[k]
    ensures Spawners.Valid(sp) ==> Spawners.Valid(r.1)
  {
    match l.gameSpawnTask
    case Some(prev) =>
      if prev == task || prev !in sp.tasks then (l.(gameSpawnTask := Some(task)), sp)
      else (l.(gameSpawnTask := Some(task)), sp.(tasks := sp.tasks[prev := Abort(sp.tasks[prev]).task]))
    case None => (l.(gameSpawnTask := Some(task)), sp)
  }

  /**
   * `StartGame`: mark the lobby private, ask the spawners for a game server
   * in the lobby's region with the lobby id on its command line, and follow
   * the new task. The unique code of the task is a parameter.
   */
  method StartGame(l: Lobby, sp: Spawners.SpawnerPlugin, code: string)
    returns (l': Lobby, sp': Spawners.SpawnerPlugin, refusal: Option<StartRefusal>)
    ensures l.isDestroyed ==> l' == l && sp' == sp
    ensures refusal == Some(LobbyDestroyed) <==> l.isDestroyed
    ensures !l.isDestroyed ==> IsPublicKey in l'.properties && l'.properties[IsPublicKey] == "false"
    ensures refusal == Some(ServersBusy) <==>
      !l.isDestroyed && forall k :: k in sp.spawners ==> !Spawners.Eligible(sp, k, Region(l.properties))
    ensures refusal == Some(ServersBusy) ==> sp' == sp && l'.state == l.state
    ensures refusal.None? ==>
      && l'.state == StartingGameServer && l'.gameSpawnTask == Some(sp.nextTaskId)
      && sp.nextTaskId in sp'.tasks && Spawners.Eligible(sp, sp'.tasks[sp.nextTaskId].spawnerId, Region(l.properties))
      && sp'.tasks[sp.nextTaskId].customArgs == CommandLine.LobbyIdArg + " " + IntToString(l.id)
    ensures refusal.None? && l.state != StartingGameServer ==> forall u :: u in l'.members ==> !l'.members[u].isReady
    ensures refusal.None? || refusal == Some(ServersBusy) || refusal == Some(LobbyDestroyed)
    ensures l'.members.Keys == l.members.Keys && l'.teams == l.teams
    ensures Spawners.Valid(sp) ==> Spawners.Valid(sp')
  {
    if l.isDestroyed {
      return l, sp, Some(LobbyDestroyed);
    }
    var props := l.properties[IsPublicKey := "false"];
    assert Region(props) == Region(l.properties);
    var sp1, task := Spawners.Spawn(sp, props, Region(props), CommandLine.LobbyIdArg + " " + IntToString(l.id), code);
    var l1 := l.(properties := props);
    if task.None? {
      return l1, sp, Some(ServersBusy);
    }
    var l2 := SetState(l1, StartingGameServer);
    var followed := SetGameSpawnTask(l2, sp1, task.value);
    l', sp' := followed.0, followed.1;
    refusal := Option.None;
  }

  /**
   * `StartGameManually`: the checks in order, then `StartGame`. A refusal of
   * the checks goes to the asking member in the chat; `ServersBusy` is
   * broadcast to every member of the lobby instead. The asking member is
   * looked up first and may be `null`: telling a peer that is not a member
   * about a failed check dereferences it, so the call throws (`thrown`)
   * after the check, and nothing is sent.
   */
  method StartGameManually(l: Lobby, sp: Spawners.SpawnerPlugin, peer: PeerId, code: string)
    returns (l': Lobby, sp': Spawners.SpawnerPlugin, refusal: Option<StartRefusal>, thrown: bool)
    ensures thrown <==> ManualStartCheck(l, peer).Some? && GetMember(l, peer).None?
    ensures ManualStartCheck(l, peer).Some? ==> l' == l && sp' == sp && refusal == ManualStartCheck(l, peer)
    ensures refusal.None? ==> ManualStartCheck(l, peer).None? && l'.state == StartingGameServer && l'.gameSpawnTask == Some(sp.nextTaskId)
    ensures refusal.None? ==> forall u :: u in l'.members ==> !l'.members[u].isReady
    ensures ManualStartCheck(l, peer).None? ==> refusal.None? || refusal == Some(ServersBusy)
    ensures refusal == Some(ServersBusy) <==>
      ManualStartCheck(l, peer).None? && forall k :: k in sp.spawners ==> !Spawners.Eligible(sp, k, Region(l.properties))
    ensures refusal.None? ==> sp.nextTaskId in sp'.tasks && Spawners.Eligible(sp, sp'.tasks[sp.nextTaskId].spawnerId, Region(l.properties))
    ensures Spawners.Valid(sp) ==> Spawners.Valid(sp')
  {
    var check := ManualStartCheck(l, peer);
    if check.Some? {
      return l, sp, check, GetMember(l, peer).None?;
    }
    l', sp', refusal := StartGame(l, sp, code);
    thrown := false;
  }
}

=== FILE: base_peer.dfy ===
/**
 * `BasePeer`: the acknowledgement bookkeeping of a connection. A message
 * sent with a response callback gets an ack id and a deadline; the
 * callback runs once, either when the response arrives or when a timer
 * tick passes the deadline. Callbacks are opaque ids, and running one is
 * returned as an `Invocation`; the timer's current tick is a parameter.
 * Ack ids are unbounded here (the source's counter is a 32-bit `int`).
 */
module Peers {
  import opened Wrappers
  import opened Messaging

  /** The timeout of a response, in timer ticks (seconds), when the sender names none. */
  const DefaultTimeoutSecs := 60

  /** A response callback, known by an id. */
  type CallbackId = nat

  /** A callback run with a status. */
  datatype Invocation = Invocation(callback: CallbackId, status: ResponseStatus)

  /** An entry of the timeout queue: the ack and the tick at which it times out. */
  datatype Deadline = Deadline(ackId: int, tick: int)

  datatype Peer = Peer(
    connected: bool,
    acks: map<int, CallbackId>,
    timeoutQueue: seq<Deadline>,
    nextAckId: int,
    subscribed: bool)

  /** A new peer: no acks, ids from 1, listening to the timer. */
  function NewPeer(connected: bool): (p: Peer)
    ensures p.acks == map[] && p.timeoutQueue == [] && p.nextAckId == 1 && p.subscribed
  {
    Peer(connected, map[], [], 1, true)
  }

  /** Ack ids are positive and below the counter, and every pending ack has a deadline in the queue. */
  ghost predicate Valid(p: Peer)
  {
    && 1 <= p.nextAckId
    && (forall k :: k in p.acks ==> 1 <= k < p.nextAckId)
    && (forall k :: k in p.acks ==> Queued(p.timeoutQueue, k))
  }

  /** Some entry of the queue is for ack `k`. */
  predicate Queued(q: seq<Deadline>, k: int)
  {
    exists i :: 0 <= i < |q| && q[i].ackId == k
  }

  /** Some entry of the queue for ack `k` is due at `tick`. */
  predicate QueuedDue(q: seq<Deadline>, k: int, tick: int)
  {
    exists i :: 0 <= i < |q| && q[i].ackId == k && q[i].tick <= tick
  }

  lemma NewPeerIsValid(connected: bool)
    ensures Valid(NewPeer(connected))
  {
  }

  /**
   * `RegisterAck` with `StartAckTimeout`: the next id, the callback stored
   * under it, and a deadline one tick beyond the timeout, in case the timer
   * is about to tick.
   */
  function RegisterAck(p: Peer, callback: CallbackId, timeoutSecs: int, currentTick: int): (r: (Peer, int))
    ensures r.1 == p.nextAckId && r.0.nextAckId == r.1 + 1
    ensures r.0.acks == p.acks[r.1 := callback]
    ensures r.0.timeoutQueue == p.timeoutQueue + [Deadline(r.1, currentTick + timeoutSecs + 1)]
    ensures r.0.connected == p.connected && r.0.subscribed == p.subscribed
    ensures Valid(p) ==> Valid(r.0) && r.1 !in p.acks
  {
    var id := p.nextAckId;
    var p' := p.(acks := p.acks[id := callback],
                 timeoutQueue := p.timeoutQueue + [Deadline(id, currentTick + timeoutSecs + 1)],
                 nextAckId := id + 1);
    assert p'.timeoutQueue[|p.timeoutQueue|].ackId == id;
    assert forall i :: 0 <= i < |p.timeoutQueue| ==> p'.timeoutQueue[i] == p.timeoutQueue[i];
    (p', id)
  }

  /**
   * `SendMessage` with a response callback: while disconnected the callback
   * runs at once with `NotConnected` and the answer is -1; otherwise the
   * ack is registered and its id returned.
   */
  function SendWithAck(p: Peer, callback: CallbackId, timeoutSecs: int, currentTick: int): (r: (Peer, int, seq<Invocation>))
    ensures !p.connected ==> r == (p, -1, [Invocation(callback, NotConnected)])
    ensures p.connected ==> (r.0, r.1) == RegisterAck(p, callback, timeoutSecs, currentTick) && r.2 == []
  {
    if !p.connected then (p, -1, [Invocation(callback, NotConnected)])
    else
      var (p', id) := RegisterAck(p, callback, timeoutSecs, currentTick);
      (p', id, [])
  }

  /** The default-timeout overload. */
  function SendWithDefaultTimeout(p: Peer, callback: CallbackId, currentTick: int): (r: (Peer, int, seq<Invocation>))
    ensures p.connected ==> r.0.timeoutQueue == p.timeoutQueue + [Deadline(r.1, currentTick + 61)]
  {
    SendWithAck(p, callback, DefaultTimeoutSecs, currentTick)
  }

  /** Two sends on a connected peer get increasing ids, starting at 1 on a new peer. */
  lemma AckIdsIncrease(p: Peer, c1: CallbackId, c2: CallbackId, t1: int, t2: int, tick: int)
    requires p.connected
    ensures var (p1, a, _) := SendWithAck(p, c1, t1, tick);
            var (_, b, _) := SendWithAck(p1, c2, t2, tick);
            a < b && (p == NewPeer(true) ==> a == 1)
  {
  }

  /**
   * `TriggerAck`: the response arrived. An unknown id (or one already used)
   * is ignored; a known one is removed and its callback runs with the
   * response's status.
   */
  function TriggerAck(p: Peer, ackId: int, status: ResponseStatus): (r: (Peer, seq<Invocation>))
    ensures ackId !in p.acks ==> r == (p, [])
    ensures ackId in p.acks ==> r == (p.(acks := p.acks - {ackId}), [Invocation(p.acks[ackId], status)])
  {
    if ackId !in p.acks then (p, [])
    else (p.(acks := p.acks - {ackId}), [Invocation(p.acks[ackId], status)])
  }

  /** A callback runs at most once: a second response to the same ack does nothing. */
  lemma TriggerAckOnce(p: Peer, ackId: int, s1: ResponseStatus, s2: ResponseStatus)
    ensures var (p1, _) := TriggerAck(p, ackId, s1);
            TriggerAck(p1, ackId, s2) == (p1, [])
  {
  }

  /** A decoded message: whether it answers one of ours, and its status. */
  datatype Incoming = Incoming(ackRequestId: Option<int>, status: ResponseStatus)

  /**
   * `HandleDataReceived`: bytes that do not decode (`None`) are dropped; a
   * response goes to its ack and no further; any other message is handed
   * up to the message handlers (the third component).
   */
  function OnDataReceived(p: Peer, decoded: Option<Incoming>): (r: (Peer, seq<Invocation>, Option<Incoming>))
    ensures decoded.None? ==> r == (p, [], Option.None)
    ensures decoded.Some? && decoded.value.ackRequestId.Some? ==>
      r.2.None? && (r.0, r.1) == TriggerAck(p, decoded.value.ackRequestId.value, decoded.value.status)
    ensures r.2.Some? <==> decoded.Some? && decoded.value.ackRequestId.None?
    ensures r.2.Some? ==> r.0 == p && r.1 == [] && r.2 == decoded
  {
    match decoded
    case None => (p, [], Option.None)
    case Some(m) =>
      if m.ackRequestId.Some? then
        var (p', fired) := TriggerAck(p, m.ackRequestId.value, m.status);
        (p', fired, Option.None)
      else (p, [], Some(m))
  }

  /** `CancelAck`: like a response, with the status given (a time-out, from the timer). */
  function CancelAck(acks: map<int, CallbackId>, ackId: int, status: ResponseStatus): (r: (map<int, CallbackId>, seq<Invocation>))
    ensures r.0 == acks - {ackId}
    ensures ackId in acks ==> r.1 == [Invocation(acks[ackId], status)]
    ensures ackId !in acks ==> r.1 == []
  {
    if ackId !in acks then (acks, []) else (acks - {ackId}, [Invocation(acks[ackId], status)])
  }

  /** The queue entries due at `tick`, in order, and those that stay. */
  function Due(q: seq<Deadline>, tick: int): (r: seq<Deadline>)
    ensures forall d :: d in r <==> d in q && d.tick <= tick
  {
    if |q| == 0 then [] else (if q[0].tick <= tick then [q[0]] else []) + Due(q[1..], tick)
  }

  function NotDue(q: seq<Deadline>, tick: int): (r: seq<Deadline>)
    ensures forall d :: d in r <==> d in q && d.tick > tick
  {
    if |q| == 0 then [] else (if q[0].tick > tick then [q[0]] else []) + NotDue(q[1..], tick)
  }

  lemma {:induction false} NothingNotDue(q: seq<Deadline>, tick: int)
    requires forall i :: 0 <= i < |q| ==> q[i].tick <= tick
    ensures NotDue(q, tick) == []
  {
    if |q| > 0 {
      NothingNotDue(q[1..], tick);
    }
  }

  /** Cancels each ack of `due` in turn with `Timeout`. */
  function CancelAll(acks: map<int, CallbackId>, due: seq<Deadline>): (r: (map<int, CallbackId>, seq<Invocation>))
    ensures forall k :: k in r.0 <==> k in acks && !Queued(due, k)
    ensures forall k :: k in r.0 ==> r.0[k] == acks[k]
    ensures forall v :: v in r.1 ==> v.status == Timeout
    ensures forall k :: k in acks && Queued(due, k) ==> Invocation(acks[k], Timeout) in r.1
    ensures forall v :: v in r.1 ==> exists k :: k in acks && Queued(due, k) && v == Invocation(acks[k], Timeout)
    ensures |r.1| <= |due|
    decreases |due|
  {
    if |due| == 0 then (acks, [])
    else
      var (acks1, first) := CancelAck(acks, due[0].ackId, Timeout);
      var (acks2, rest) := CancelAll(acks1, due[1..]);
      QueuedCons(due);
      assert forall k :: k in acks1 ==> k in acks && acks1[k] == acks[k];
      (acks2, first + rest)
  }

  lemma QueuedCons(q: seq<Deadline>)
    requires |q| > 0
    ensures forall k :: Queued(q, k) <==> q[0].ackId == k || Queued(q[1..], k)
  {
    forall k | Queued(q[1..], k) ensures Queued(q, k) {
      var i :| 0 <= i < |q[1..]| && q[1..][i].ackId == k;
      assert q[i + 1].ackId == k;
    }
    forall k | Queued(q, k) && q[0].ackId != k ensures Queued(q[1..], k) {
      var i :| 0 <= i < |q| && q[i].ackId == k;
      assert q[1..][i - 1].ackId == k;
    }
  }

  /** An ack has an entry among the due ones exactly when it has a due entry in the queue. */
  lemma QueuedInDue(q: seq<Deadline>, tick: int, k: int)
    ensures Queued(Due(q, tick), k) <==> QueuedDue(q, k, tick)
  {
    var due := Due(q, tick);
    if Queued(due, k) {
      var i :| 0 <= i < |due| && due[i].ackId == k;
      assert due[i] in q;
      var j :| 0 <= j < |q| && q[j] == due[i];
    }
    if QueuedDue(q, k, tick) {
      var j :| 0 <= j < |q| && q[j].ackId == k && q[j].tick <= tick;
      assert q[j] in due;
      var i :| 0 <= i < |due| && due[i] == q[j];
    }
  }

  /**
   * `HandleAckDisposalTick`: the queue loses exactly the entries whose
   * deadline is at or before `tick`, and their acks are cancelled with
   * `Timeout`. A disposed peer no longer listens to the timer.
   */
  function OnTick(p: Peer, tick: int): (r: (Peer, seq<Invocation>))
    ensures !p.subscribed ==> r == (p, [])
    ensures p.subscribed ==> forall d :: d in r.0.timeoutQueue <==> d in p.timeoutQueue && d.tick > tick
    ensures p.subscribed ==> forall k :: k in r.0.acks <==> k in p.acks && !QueuedDue(p.timeoutQueue, k, tick)
    ensures forall k :: k in r.0.acks ==> k in p.acks && r.0.acks[k] == p.acks[k]
    ensures forall v :: v in r.1 ==> v.status == Timeout
    ensures p.subscribed ==> forall k :: k in p.acks && QueuedDue(p.timeoutQueue, k, tick) ==> Invocation(p.acks[k], Timeout) in r.1
    ensures forall v :: v in r.1 ==> exists k :: k in p.acks && QueuedDue(p.timeoutQueue, k, tick) && v == Invocation(p.acks[k], Timeout)
    ensures r.0.nextAckId == p.nextAckId && r.0.connected == p.connected
  {
    if !p.subscribed then (p, [])
    else
      var due := Due(p.timeoutQueue, tick);
      var (acks', fired) := CancelAll(p.acks, due);
      assert forall k :: Queued(due, k) <==> QueuedDue(p.timeoutQueue, k, tick) by {
        forall k ensures Queued(due, k) <==> QueuedDue(p.timeoutQueue, k, tick) {
          QueuedInDue(p.timeoutQueue, tick, k);
        }
      }
      (p.(acks := acks', timeoutQueue := NotDue(p.timeoutQueue, tick)), fired)
  }

  /** `Dispose`: the peer stops listening to the timer. */
  function Dispose(p: Peer): (r: Peer)
    ensures !r.subscribed && r == p.(subscribed := false)
    ensures forall tick :: OnTick(r, tick) == (r, [])
  {
    p.(subscribed := false)
  }

  /** Once the timer has passed every deadline, no response is awaited any more. */
  lemma TickClearsExpired(p: Peer, tick: int)
    requires Valid(p) && p.subscribed
    requires forall i :: 0 <= i < |p.timeoutQueue| ==> p.timeoutQueue[i].tick <= tick
    ensures OnTick(p, tick).0.acks == map[] && OnTick(p, tick).0.timeoutQueue == []
  {
    var r := OnTick(p, tick).0;
    forall k | k in p.acks ensures QueuedDue(p.timeoutQueue, k, tick) {
      var i :| 0 <= i < |p.timeoutQueue| && p.timeoutQueue[i].ackId == k;
    }
    assert forall k :: k !in r.acks;
    NothingNotDue(p.timeoutQueue, tick);
  }

  // ----- peer properties and extensions -----

  /** A dictionary whose values may be `null` (`None`). */
  type Store<K, V> = map<K, Option<V>>

  /** `SetProperty`: an upsert. */
  function SetProperty<V>(data: Store<int, V>, id: int, value: Option<V>): (r: Store<int, V>)
    ensures id in r && r[id] == value
    ensures forall k :: k in data && k != id ==> k in r && r[k] == data[k]
    ensures r.Keys == data.Keys + {id}
  {
    data[id := value]
  }

  /** `GetProperty(id, default)`: the stored value, or the default when it is absent or `null`. */
  function GetProperty<V>(data: Store<int, V>, id: int, default: Option<V>): (r: Option<V>)
    ensures id in data && data[id].Some? ==> r == data[id]
    ensures id !in data || data[id].None? ==> r == default
  {
    if id in data && data[id].Some? then data[id] else default
  }

  /** What is set can be read back; other ids are not disturbed. */
  lemma SetThenGet<V>(data: Store<int, V>, id: int, other: int, value: V, default: Option<V>)
    requires other != id
    ensures GetProperty(SetProperty(data, id, Some(value)), id, default) == Some(value)
    ensures GetProperty(SetProperty(data, id, Some(value)), other, default) == GetProperty(data, other, default)
  {
  }

  /** `AddExtension`: replaces an extension of the same kind. */
  function AddExtension<V>(exts: Store<string, V>, kind: string, ext: V): (r: Store<string, V>)
    ensures HasExtension(r, kind) && GetExtension(r, kind) == Some(ext)
    ensures forall k :: k in exts && k != kind ==> k in r && r[k] == exts[k]
  {
    exts[kind := Some(ext)]
  }

  /** `GetExtension`: the extension of that kind, or `null`. */
  function GetExtension<V>(exts: Store<string, V>, kind: string): (r: Option<V>)
    ensures kind !in exts ==> r.None?
    ensures kind in exts ==> r == exts[kind]
  {
    if kind in exts then exts[kind] else Option.None
  }

  predicate HasExtension<V>(exts: Store<string, V>, kind: string)
  {
    kind in exts
  }
}

=== FILE: chat_channel.dfy ===
/**
 * `ChatChannel`: a named channel and the users in it, keyed by username.
 * A user's own record (`ChatUser`) lists the channels it is in and its
 * default channel; joining and leaving keep both sides in step. Messages a
 * channel sends are returned as the set of deliveries it makes.
 */
module Chat {
  import opened Wrappers
  import opened Messaging

  /** The chat side of a peer: its username, the channels it is in (by name) and its default channel. */
  datatype ChatUser = ChatUser(
    peer: PeerId,
    username: string,
    currentChannels: set<string>,
    defaultChannel: Option<string>)

  /** A channel: its name and, per username, the peer of the user in it. */
  datatype ChatChannel = ChatChannel(name: string, users: map<string, PeerId>)

  /** A chat message; the channel fills in `receiver` with its own name. */
  datatype ChatMessage = ChatMessage(receiver: string, sender: string, text: string)

  /** What a channel tells its users. */
  datatype Notice =
    | UserJoined(channel: string, username: string)
    | UserLeft(channel: string, username: string)
    | Said(message: ChatMessage)

  /** One message sent to one peer. */
  datatype Delivery = Delivery(to: PeerId, notice: Notice)

  function NewChannel(name: string): (c: ChatChannel)
    ensures c.name == name && c.users == map[]
  {
    ChatChannel(name, map[])
  }

  /** `IsUserAllowed`: a username already in the channel may not join again. */
  predicate IsUserAllowed(c: ChatChannel, user: ChatUser)
  {
    user.username !in c.users
  }

  /** The notice sent to every user of `c` except the one named `except`. */
  function Notify(c: ChatChannel, except: Option<string>, notice: Notice): (out: set<Delivery>)
    ensures forall d :: d in out <==>
      d.notice == notice && exists u :: u in c.users && Some(u) != except && d.to == c.users[u]
  {
    set u | u in c.users && Some(u) != except :: Delivery(c.users[u], notice)
  }

  /**
   * `AddUser`: refused for a username already in the channel; otherwise the
   * user joins, the channel joins the user's channels, and everyone else
   * in the channel hears about it (`OnJoined`).
   */
  function AddUser(c: ChatChannel, user: ChatUser): (r: (bool, ChatChannel, ChatUser, set<Delivery>))
    ensures !r.0 <==> user.username in c.users
    ensures !r.0 ==> r.1 == c && r.2 == user && r.3 == {}
    ensures r.0 ==> r.1 == c.(users := c.users[user.username := user.peer])
    ensures r.0 ==> r.2 == user.(currentChannels := user.currentChannels + {c.name})
    ensures r.0 ==> forall d :: d in r.3 <==>
      d.notice == UserJoined(c.name, user.username) && exists u :: u in c.users && d.to == c.users[u]
  {
    if !IsUserAllowed(c, user) then (false, c, user, {})
    else
      var c' := c.(users := c.users[user.username := user.peer]);
      var user' := user.(currentChannels := user.currentChannels + {c.name});
      assert forall u :: (u in c'.users && Some(u) != Some(user.username)) <==> u in c.users;
      assert forall u :: u in c.users ==> c'.users[u] == c.users[u];
      (true, c', user', Notify(c', Some(user.username), UserJoined(c.name, user.username)))
  }

  /**
   * `RemoveUser`: the two links are undone, the default channel is cleared
   * if it was this one, and everyone still in the channel hears about it
   * (`OnLeft`), whether or not the user was in it.
   */
  function RemoveUser(c: ChatChannel, user: ChatUser): (r: (ChatChannel, ChatUser, set<Delivery>))
    ensures r.0 == c.(users := c.users - {user.username})
    ensures c.name !in r.1.currentChannels && r.1.currentChannels == user.currentChannels - {c.name}
    ensures r.1.defaultChannel == (if user.defaultChannel == Some(c.name) then Option.None else user.defaultChannel)
    ensures r.1.peer == user.peer && r.1.username == user.username
    ensures forall d :: d in r.2 <==>
      d.notice == UserLeft(c.name, user.username) && exists u :: u in r.0.users && d.to == r.0.users[u]
  {
    var c' := c.(users := c.users - {user.username});
    var user' := user.(currentChannels := user.currentChannels - {c.name},
                       defaultChannel := if user.defaultChannel == Some(c.name) then Option.None else user.defaultChannel);
    (c', user', Notify(c', Option.None, UserLeft(c.name, user.username)))
  }

  /** `BroadcastMessage`: the message, addressed to the channel by its own name, goes to every user. */
  function BroadcastMessage(c: ChatChannel, m: ChatMessage): (out: set<Delivery>)
    ensures forall d :: d in out ==> d.notice == Said(m.(receiver := c.name))
    ensures forall u :: u in c.users ==> Delivery(c.users[u], Said(m.(receiver := c.name))) in out
    ensures forall d :: d in out ==> exists u :: u in c.users && d.to == c.users[u]
  {
    Notify(c, Option.None, Said(m.(receiver := c.name)))
  }

  /** The channel knows the user exactly when the user lists the channel. */
  ghost predicate Linked(c: ChatChannel, user: ChatUser)
  {
    (user.username in c.users && c.users[user.username] == user.peer) <==> c.name in user.currentChannels
  }

  /** Joining and leaving keep the two sides in step. */
  lemma AddRemoveKeepLinked(c: ChatChannel, user: ChatUser)
    requires Linked(c, user)
    ensures var (ok, c1, u1, _) := AddUser(c, user);
            ok ==> Linked(c1, u1)
    ensures var (c2, u2, _) := RemoveUser(c, user);
            Linked(c2, u2)
  {
  }

  /** Leaving right after joining restores the channel and the user, and tells only the others. */
  lemma AddThenRemove(c: ChatChannel, user: ChatUser)
    requires user.username !in c.users
    requires c.name !in user.currentChannels && user.defaultChannel != Some(c.name)
    ensures var (ok, c1, u1, joined) := AddUser(c, user);
            var (c2, u2, left) := RemoveUser(c1, u1);
            && ok && c2 == c && u2 == user
            && (forall d :: d in joined ==> d.to in c.users.Values)
            && (forall d :: d in left ==> d.to in c.users.Values)
  {
    var (ok, c1, u1, joined) := AddUser(c, user);
    assert c1.users - {user.username} == c.users;
    assert u1.currentChannels - {c.name} == user.currentChannels;
  }
}

=== FILE: command_line_args.dfy ===
/**
 * The process's command-line arguments: the `-msf…` names and the helpers
 * that read a value after a name. The argument vector is a parameter here
 * instead of `Environment.GetCommandLineArgs()`.
 */
module CommandLine {
  import opened Wrappers
  import opened Strings

  const MasterPortArg := "-msfMasterPort"
  const MasterIpArg := "-msfMasterIp"
  const SpawnIdArg := "-msfSpawnId"
  const SpawnCodeArg := "-msfSpawnCode"
  const AssignedPortArg := "-msfAssignedPort"
  const LoadSceneArg := "-msfLoadScene"
  const MachineIpArg := "-msfMachineIp"
  const ExecutablePathArg := "-msfExe"
  const DbConnectionStringArg := "-msfDbConnectionString"
  const LobbyIdArg := "-msfLobbyId"
  const DontSpawnInBatchmodeArg := "-msfDontSpawnInBatchmode"
  const MaxProcessesArg := "-msfMaxProcesses"
  const WebGlArg := "-msfWebgl"

  /** The port the master server opens when no `-msfMasterPort` is given. */
  const DefaultMasterPort := 60125

  /** What reading an argument can raise. */
  datatype ArgError =
    | IndexOutOfRange        // the name is the last argument, with no value after it
    | NotANumber(cause: ParseError)

  /** The position of the first occurrence of `x` in `s`. */
  function FirstIndex(s: seq<string>, x: string): (i: nat)
    requires x in s
    ensures i < |s| && s[i] == x
    ensures forall j :: 0 <= j < i ==> s[j] != x
  {
    if s[0] == x then 0 else 1 + FirstIndex(s[1..], x)
  }

  /** `IsProvided`: whether the name appears among the arguments. */
  predicate IsProvided(args: seq<string>, name: string)
  {
    name in args
  }

  /**
   * `ExtractValue`: the argument right after the first occurrence of the
   * name, or the default when the name is absent (`None` stands for C#'s
   * `null` default).
   */
  function ExtractValue(args: seq<string>, name: string, default: Option<string>): (r: Result<Option<string>, ArgError>)
    ensures !IsProvided(args, name) ==> r == Ok(default)
    ensures r == Err(IndexOutOfRange) <==> IsProvided(args, name) && FirstIndex(args, name) == |args| - 1
    ensures r.Ok? && IsProvided(args, name) ==>
      exists i :: 0 <= i < |args| - 1 && args[i] == name && (forall j :: 0 <= j < i ==> args[j] != name) && r.value == Some(args[i + 1])
  {
    if name !in args then Ok(default)
    else
      var i := FirstIndex(args, name);
      if i + 1 < |args| then Ok(Some(args[i + 1])) else Err(IndexOutOfRange)
  }

  /** `ExtractValueInt`: the value after the name, or the default, read by `Convert.ToInt32`. */
  function ExtractValueInt(args: seq<string>, name: string, default: int): (r: Result<int, ArgError>)
    requires Int32Min <= default <= Int32Max
    ensures r.Ok? ==> Int32Min <= r.value <= Int32Max
    ensures !IsProvided(args, name) ==> r == Ok(default)
    ensures IsProvided(args, name) && FirstIndex(args, name) == |args| - 1 ==> r == Err(IndexOutOfRange)
    ensures IsProvided(args, name) && FirstIndex(args, name) < |args| - 1 ==>
      var parsed := ParseInt32(args[FirstIndex(args, name) + 1]);
      && (parsed.Ok? ==> r == Ok(parsed.value))
      && (parsed.Err? ==> r == Err(NotANumber(parsed.error)))
  {
    ParseIntToString(default);
    match ExtractValue(args, name, Some(IntToString(default)))
    case Err(e) => Err(e)
    case Ok(v) =>
      // The default is never null, so `Convert.ToInt32(null)` does not arise.
      var text := v.GetOr(IntToString(default));
      match ParseInt32(text)
      case Ok(n) => Ok(n)
      case Err(e) => Err(NotANumber(e))
  }

  /** The default of `ExtractValueInt` when the caller names none. */
  const DefaultInt := -1

  /** `MasterPort`: the master server's port. */
  function MasterPort(args: seq<string>): Result<int, ArgError>
  {
    ExtractValueInt(args, MasterPortArg, DefaultMasterPort)
  }

  /** An absent name reads as the default, which survives its round trip through text. */
  lemma AbsentIntIsDefault(args: seq<string>, name: string, default: int)
    requires Int32Min <= default <= Int32Max
    requires !IsProvided(args, name)
    ensures ExtractValueInt(args, name, default) == Ok(default)
  {
    ParseIntToString(default);
  }

  /** Without `-msfMasterPort` the master port is 60125, and any other number reads back as itself. */
  lemma MasterPortValue(args: seq<string>, port: int)
    requires MasterPortArg !in args
    requires Int32Min <= port <= Int32Max
    ensures MasterPort(args) == Ok(DefaultMasterPort)
    ensures MasterPort(args + [MasterPortArg, IntToString(port)]) == Ok(port)
  {
    AbsentIntIsDefault(args, MasterPortArg, DefaultMasterPort);
    var a := args + [MasterPortArg, IntToString(port)];
    assert a[|args|] == MasterPortArg;
    assert FirstIndex(a, MasterPortArg) == |args|;
    ParseIntToString(port);
  }

  /** Without a default, an absent integer argument reads as -1. */
  lemma AbsentIntIsMinusOne(args: seq<string>, name: string)
    requires !IsProvided(args, name)
    ensures ExtractValueInt(args, name, DefaultInt) == Ok(-1)
  {
    AbsentIntIsDefault(args, name, DefaultInt);
  }
}

=== FILE: gameserver.dfy ===
/**
 * The spawn service's `GameServer` custom resource and the pod derived
 * from it. Kubernetes objects are reduced to the metadata fields the code
 * reads or writes; the API group name is a parameter (it is declared
 * outside this package).
 */
module GameServers {
  import opened Wrappers

  /** The version of the API group this package defines. */
  const Version := "v1alpha1"

  const GeneratedNamePrefix := "gameserver"
  const DefaultNamespace := "default"
  const ExampleContainer := Container("exampleserver", "docker.io/proepkes/mmsvc:dev")

  datatype State = Requested | Ready

  function StateName(s: State): (r: string)
  {
    match s
    case Requested => "Requested"
    case Ready => "Ready"
  }

  /** A `metav1.OwnerReference`; `controller` and `blockOwnerDeletion` are `nil` when false. */
  datatype OwnerRef = OwnerRef(apiVersion: string, kind: string, name: string, uid: string,
                               controller: bool, blockOwnerDeletion: bool)

  datatype ObjectMeta = ObjectMeta(
    name: string,
    generateName: string,
    namespace: string,
    uid: string,
    labels: map<string, string>,
    finalizers: seq<string>,
    ownerRefs: seq<OwnerRef>)

  const EmptyMeta := ObjectMeta("", "", "", "", map[], [], [])

  datatype Container = Container(name: string, image: string)
  datatype PodSpec = PodSpec(containers: seq<Container>)
  datatype PodTemplate = PodTemplate(meta: ObjectMeta, spec: PodSpec)

  datatype GameServer = GameServer(meta: ObjectMeta, state: State, port: int, template: PodTemplate)
  datatype Pod = Pod(meta: ObjectMeta, spec: PodSpec)

  /** The label that ties a pod to its game server. */
  function PodLabel(groupName: string): string
  {
    groupName + "_gameserver"
  }

  /** `GroupVersion.String()`: the bare version for the core (empty) group. */
  function GroupVersion(groupName: string): string
  {
    if groupName == "" then Version else groupName + "/" + Version
  }

  /** `NewGameserver`: a requested server with a generated name and the group's finalizer. */
  function NewGameserver(groupName: string): (gs: GameServer)
    ensures gs.state == Requested
    ensures gs.meta.namespace == DefaultNamespace && gs.meta.generateName == GeneratedNamePrefix
    ensures gs.meta.name == "" && gs.meta.finalizers == [groupName]
    ensures gs.template.spec.containers == [ExampleContainer]
    ensures gs.template.meta == EmptyMeta
  {
    var meta := EmptyMeta.(generateName := GeneratedNamePrefix, namespace := DefaultNamespace);
    var gs := GameServer(meta, Requested, 0, PodTemplate(EmptyMeta, PodSpec([ExampleContainer])));
    gs.(meta := gs.meta.(finalizers := gs.meta.finalizers + [groupName]))
  }

  /** `metav1.NewControllerRef(gs, SchemeGroupVersion.WithKind("GameServer"))`. */
  function ControllerRef(gs: GameServer, groupName: string): (r: OwnerRef)
    ensures r.controller && r.blockOwnerDeletion
    ensures r.name == gs.meta.name && r.uid == gs.meta.uid && r.kind == "GameServer"
  {
    OwnerRef(GroupVersion(groupName), "GameServer", gs.meta.name, gs.meta.uid, true, true)
  }

  /**
   * `Pod`: the template's metadata and spec, named after the game server,
   * labelled with its name only, and owned by it as controller.
   */
  function MakePod(gs: GameServer, groupName: string): (p: Pod)
    ensures p.spec == gs.template.spec
    ensures p.meta.name == gs.meta.name
    ensures p.meta.labels == map[PodLabel(groupName) := gs.meta.name]
    ensures p.meta.ownerRefs == gs.template.meta.ownerRefs + [ControllerRef(gs, groupName)]
    ensures p.meta.namespace == gs.template.meta.namespace
    ensures p.meta.generateName == gs.template.meta.generateName
    ensures p.meta.finalizers == gs.template.meta.finalizers
  {
    var meta := gs.template.meta.(labels := map[PodLabel(groupName) := gs.meta.name]);
    var meta := meta.(name := gs.meta.name);
    var ref := ControllerRef(gs, groupName);
    Pod(meta.(ownerRefs := meta.ownerRefs + [ref]), gs.template.spec)
  }

  /** `metav1.GetControllerOf`: the first owner reference marked as controller. */
  function ControllerOf(refs: seq<OwnerRef>): (r: Option<OwnerRef>)
    ensures r.Some? <==> exists i :: 0 <= i < |refs| && refs[i].controller
    ensures r.Some? ==> r.value in refs && r.value.controller
    ensures r.Some? ==> exists i :: 0 <= i < |refs| && refs[i] == r.value && forall j :: 0 <= j < i ==> !refs[j].controller
    decreases |refs|
  {
    if |refs| == 0 then Option.None
    else if refs[0].controller then Some(refs[0])
    else
      var r := ControllerOf(refs[1..]);
      assert forall i :: 1 <= i < |refs| ==> refs[i] == refs[1..][i - 1];
      assert r.Some? ==> exists i :: 0 <= i < |refs| && refs[i] == r.value && forall j :: 0 <= j < i ==> !refs[j].controller by {
        if r.Some? {
          var i :| 0 <= i < |refs[1..]| && refs[1..][i] == r.value && forall j :: 0 <= j < i ==> !refs[1..][j].controller;
          assert refs[i + 1] == r.value;
          assert forall j :: 0 <= j < i + 1 ==> !refs[j].controller by {
            forall j | 0 <= j < i + 1 ensures !refs[j].controller {
              if j > 0 {
                assert refs[j] == refs[1..][j - 1];
              }
            }
          }
        }
      }
      r
  }

  /** `metav1.IsControlledBy`: the controller reference carries the owner's UID. */
  predicate IsControlledBy(meta: ObjectMeta, owner: ObjectMeta)
  {
    var c := ControllerOf(meta.ownerRefs);
    c.Some? && c.value.uid == owner.uid
  }

  lemma {:induction false} ControllerOfAppend(refs: seq<OwnerRef>, last: OwnerRef)
    ensures ControllerOf(refs + [last]) ==
      (if ControllerOf(refs).Some? then ControllerOf(refs) else if last.controller then Some(last) else Option.None)
    decreases |refs|
  {
    if |refs| == 0 {
      assert refs + [last] == [last];
      assert [last][1..] == [];
    } else {
      assert (refs + [last])[0] == refs[0];
      assert (refs + [last])[1..] == refs[1..] + [last];
      ControllerOfAppend(refs[1..], last);
    }
  }

  /** A pod from a template without a controller is controlled by its game server. */
  lemma PodControlledByServer(gs: GameServer, groupName: string)
    requires ControllerOf(gs.template.meta.ownerRefs).None?
    ensures IsControlledBy(MakePod(gs, groupName).meta, gs.meta)
    ensures ControllerOf(MakePod(gs, groupName).meta.ownerRefs) == Some(ControllerRef(gs, groupName))
  {
    ControllerOfAppend(gs.template.meta.ownerRefs, ControllerRef(gs, groupName));
  }

  /** A controller already in the template stays the pod's controller: the appended one comes later. */
  lemma TemplateControllerKept(gs: GameServer, groupName: string)
    requires ControllerOf(gs.template.meta.ownerRefs).Some?
    ensures ControllerOf(MakePod(gs, groupName).meta.ownerRefs) == ControllerOf(gs.template.meta.ownerRefs)
  {
    ControllerOfAppend(gs.template.meta.ownerRefs, ControllerRef(gs, groupName));
  }

  /** The pod label tells game servers apart: pods of differently named servers carry different labels. */
  lemma PodLabelIdentifiesServer(a: GameServer, b: GameServer, groupName: string)
    ensures MakePod(a, groupName).meta.labels == MakePod(b, groupName).meta.labels <==> a.meta.name == b.meta.name
  {
    if MakePod(a, groupName).meta.labels == MakePod(b, groupName).meta.labels {
      assert MakePod(a, groupName).meta.labels[PodLabel(groupName)] == a.meta.name;
    }
  }

  /** The pod of a new game server runs the example container, and a controller reference is its only owner. */
  lemma NewServerPod(groupName: string)
    ensures var p := MakePod(NewGameserver(groupName), groupName);
            p.spec.containers == [ExampleContainer] && |p.meta.ownerRefs| == 1
            && IsControlledBy(p.meta, NewGameserver(groupName).meta)
  {
    PodControlledByServer(NewGameserver(groupName), groupName);
  }
}

=== FILE: joined_lobby.dfy ===
/**
 * `JoinedLobby` (client side): the player's copy of a lobby it joined,
 * kept up to date by the messages the lobby broadcasts. Each handler is a
 * function from the copy and one decoded message to the new copy and the
 * call made on the lobby listener, if one is set.
 */
module ClientLobby {
  import opened Wrappers
  import Strings

  datatype MemberData = MemberData(username: string, properties: map<string, string>, isReady: bool, team: string)

  datatype TeamData = TeamData(name: string, minPlayers: int, maxPlayers: int, properties: map<string, string>)

  datatype ChatPacket = ChatPacket(sender: string, message: string, isError: bool)

  /**
   * The lobby as the client sees it. `stateCode` is the number last
   * received: the cast to the lobby-state enum accepts any integer.
   */
  datatype JoinedLobby = JoinedLobby(
    id: int,
    name: string,
    stateCode: int,
    statusText: string,
    gameMaster: string,
    properties: map<string, string>,
    members: map<string, MemberData>,
    teams: map<string, TeamData>,
    hasLeft: bool)

  /** The messages the lobby sends to its members, decoded. */
  datatype Message =
    | MemberPropertyChanged(lobbyId: int, username: string, property: string, value: string)
    | LeftLobby(leftId: int)
    | ChatMessage(chat: ChatPacket)
    | MemberJoined(member: MemberData)
    | MemberLeft(leaver: string)
    | MasterChange(master: string)
    | ReadyStatusChange(who: string, ready: string)
    | TeamChange(mover: string, teamName: string)
    | StatusTextChange(text: string)
    | StateChange(code: int)
    | PropertyChanged(key: string, propertyValue: string)

  /** The listener call a message leads to. */
  datatype Notice =
    | OnMemberPropertyChanged(member: MemberData, property: string, value: string)
    | OnLobbyLeft
    | OnChatMessageReceived(chat: ChatPacket)
    | OnMemberJoined(joined: MemberData)
    | OnMemberLeft(left: MemberData)
    | OnMasterChanged(master: string)
    | OnMemberReadyStatusChanged(readyMember: MemberData, isReady: bool)
    | OnMemberTeamChanged(mover: MemberData, team: TeamData)
    | OnLobbyStatusTextChanged(text: string)
    | OnLobbyStateChange(code: int)
    | OnLobbyPropertyChanged(key: string, propertyValue: string)

  datatype Handled = Handled(lobby: JoinedLobby, notice: Option<Notice>)

  /** The client's copy as built from the lobby data the server sends on joining. */
  function Join(id: int, name: string, stateCode: int, statusText: string, gameMaster: string,
                properties: map<string, string>, members: map<string, MemberData>, teams: map<string, TeamData>): (l: JoinedLobby)
    ensures !l.hasLeft && l.id == id && l.members == members && l.teams == teams && l.properties == properties
  {
    JoinedLobby(id, name, stateCode, statusText, gameMaster, properties, members, teams, false)
  }

  /** Every member is filed under its own username. */
  predicate Keyed(l: JoinedLobby)
  {
    forall u :: u in l.members ==> l.members[u].username == u
  }

  /** `HandleMemberPropertyChanged`: another lobby's message or an unknown member changes nothing. */
  function OnPropertyOfMember(l: JoinedLobby, lobbyId: int, u: string, key: string, value: string): (r: Handled)
    ensures lobbyId != l.id || u !in l.members ==> r == Handled(l, Option.None)
    ensures lobbyId == l.id && u in l.members ==>
      && r.lobby == l.(members := r.lobby.members)
      && r.lobby.members.Keys == l.members.Keys
      && (forall v :: v in l.members && v != u ==> r.lobby.members[v] == l.members[v])
      && r.lobby.members[u] == l.members[u].(properties := r.lobby.members[u].properties)
      && r.lobby.members[u].properties.Keys == l.members[u].properties.Keys + {key}
      && r.lobby.members[u].properties[key] == value
      && (forall k :: k in l.members[u].properties && k != key ==>
            r.lobby.members[u].properties[k] == l.members[u].properties[k])
      && r.notice == Some(OnMemberPropertyChanged(r.lobby.members[u], key, value))
  {
    if lobbyId != l.id || u !in l.members then Handled(l, Option.None)
    else
      var m := l.members[u];
      var m' := m.(properties := m.properties[key := value]);
      Handled(l.(members := l.members[u := m']), Some(OnMemberPropertyChanged(m', key, value)))
  }

  /** `HandleLeftLobbyMsg`: only a message carrying this lobby's id marks it as left. */
  function OnLeft(l: JoinedLobby, id: int): (r: Handled)
    ensures id != l.id ==> r == Handled(l, Option.None)
    ensures id == l.id ==> r.lobby == l.(hasLeft := true) && r.notice == Some(OnLobbyLeft)
  {
    if id != l.id then Handled(l, Option.None) else Handled(l.(hasLeft := true), Some(OnLobbyLeft))
  }

  /** `HandleLobbyMemberLeftMsg`: the listener hears of a known member; the copy is not changed. */
  function OnMemberLeftMsg(l: JoinedLobby, u: string): (r: Handled)
    ensures r.lobby == l
    ensures r.notice.Some? <==> u in l.members
    ensures u in l.members ==> r.notice == Some(OnMemberLeft(l.members[u]))
  {
    match Lookup(l.members, u)
    case None => Handled(l, Option.None)
    case Some(m) => Handled(l, Some(OnMemberLeft(m)))
  }

  /** `HandleLobbyMemberJoinedMsg`: the member is added, or replaces the one with its username. */
  function OnMemberJoinedMsg(l: JoinedLobby, m: MemberData): (r: Handled)
    ensures r.lobby == l.(members := r.lobby.members)
    ensures r.lobby.members.Keys == l.members.Keys + {m.username}
    ensures r.lobby.members[m.username] == m
    ensures forall v :: v in l.members && v != m.username ==> r.lobby.members[v] == l.members[v]
    ensures r.notice == Some(OnMemberJoined(m))
  {
    Handled(l.(members := l.members[m.username := m]), Some(OnMemberJoined(m)))
  }

  /** `bool.ToString()`, as the server sends a ready status. */
  function BoolText(b: bool): string
  {
    if b then "True" else "False"
  }

  /**
   * `bool.Parse`: "True" or "False" in any letter case, with surrounding
   * white space; anything else throws a `FormatException` (`None`).
   */
  function ParseBool(s: string): (r: Option<bool>)
    ensures r == Some(true) <==> Strings.ToLower(Strings.Trim(s)) == "true"
    ensures r == Some(false) <==> Strings.ToLower(Strings.Trim(s)) == "false"
  {
    var t := Strings.ToLower(Strings.Trim(s));
    if t == "true" then Some(true) else if t == "false" then Some(false) else Option.None
  }

  /** Parsing what the server sends gives back the status it sent. */
  lemma ParseBoolText(b: bool)
    ensures ParseBool(BoolText(b)) == Some(b)
  {
    var s := BoolText(b);
    assert Strings.TrimStart(s) == s;
    assert Strings.TrimEnd(s) == s;
    if b {
      assert Strings.ToLower(s) == "true";
    } else {
      assert Strings.ToLower(s) == "false";
    }
  }

  /** A text that, once trimmed, is not four or five characters long is not a boolean: the ready-status handler throws on it. */
  lemma ParseBoolRejects(s: string)
    requires |Strings.Trim(s)| != 4 && |Strings.Trim(s)| != 5
    ensures ParseBool(s).None?
  {
  }

  /** Every letter casing of "true" or "false", with white space around it, is read as that flag. */
  lemma ParseBoolPadded(pre: string, w: string, post: string, b: bool)
    requires Strings.AllSpace(pre) && Strings.AllSpace(post) && Strings.ToLower(w) == Strings.ToLower(BoolText(b))
    ensures ParseBool(pre + w + post) == Some(b)
  {
    var lower := Strings.ToLower(w);
    if b {
      assert lower == "true";
    } else {
      assert lower == "false";
    }
    assert Strings.LowerChar(w[0]) == lower[0] && Strings.LowerChar(w[|w| - 1]) == lower[|w| - 1];
    Strings.TrimPadded(pre, w, post);
  }

  /**
   * `HandleLobbyMemberReadyStatusChangeMsg`: an unknown member is ignored;
   * otherwise the status is parsed (`None` when that throws) and stored.
   */
  function OnReadyStatus(l: JoinedLobby, u: string, text: string): (r: Option<Handled>)
    ensures u !in l.members ==> r == Some(Handled(l, Option.None))
    ensures u in l.members ==> (r.None? <==> ParseBool(text).None?)
    ensures u in l.members && r.Some? ==>
      && r.value.lobby == l.(members := l.members[u := l.members[u].(isReady := ParseBool(text).value)])
      && r.value.notice == Some(OnMemberReadyStatusChanged(r.value.lobby.members[u], ParseBool(text).value))
  {
    if u !in l.members then Some(Handled(l, Option.None))
    else
      match ParseBool(text)
      case None => Option.None
      case Some(b) =>
        var m := l.members[u].(isReady := b);
        Some(Handled(l.(members := l.members[u := m]), Some(OnMemberReadyStatusChanged(m, b))))
  }

  /**
   * `HandlePlayerTeamChangeMsg`: an unknown member or team is ignored;
   * otherwise the member's team becomes the team's name.
   */
  function OnTeamChange(l: JoinedLobby, u: string, teamName: string): (r: Handled)
    ensures u !in l.members || teamName !in l.teams ==> r == Handled(l, Option.None)
    ensures u in l.members && teamName in l.teams ==>
      && r.lobby == l.(members := r.lobby.members)
      && r.lobby.members.Keys == l.members.Keys
      && r.lobby.members[u] == l.members[u].(team := l.teams[teamName].name)
      && (forall v :: v in l.members && v != u ==> r.lobby.members[v] == l.members[v])
      && r.notice == Some(OnMemberTeamChanged(r.lobby.members[u], l.teams[teamName]))
  {
    match Lookup(l.members, u)
    case None => Handled(l, Option.None)
    case Some(m) =>
      match Lookup(l.teams, teamName)
      case None => Handled(l, Option.None)
      case Some(t) =>
        var m' := m.(team := t.name);
        Handled(l.(members := l.members[u := m']), Some(OnMemberTeamChanged(m', t)))
  }

  /** `HandleLobbyPropertyChanged`: the property is added or overwritten. */
  function OnLobbyProperty(l: JoinedLobby, key: string, value: string): (r: Handled)
    ensures r.lobby == l.(properties := r.lobby.properties)
    ensures r.lobby.properties.Keys == l.properties.Keys + {key} && r.lobby.properties[key] == value
    ensures forall k :: k in l.properties && k != key ==> r.lobby.properties[k] == l.properties[k]
    ensures r.notice == Some(OnLobbyPropertyChanged(key, value))
  {
    Handled(l.(properties := l.properties[key := value]), Some(OnLobbyPropertyChanged(key, value)))
  }

  /** Dispatch on the message kind; `None` when the handler throws. */
  function Handle(l: JoinedLobby, msg: Message): (r: Option<Handled>)
    ensures r.None? <==> msg.ReadyStatusChange? && msg.who in l.members && ParseBool(msg.ready).None?
    ensures r.Some? ==> r.value.lobby.id == l.id && r.value.lobby.name == l.name && r.value.lobby.teams == l.teams
    ensures r.Some? && l.hasLeft ==> r.value.lobby.hasLeft
    ensures msg.ChatMessage? ==> r == Some(Handled(l, Some(OnChatMessageReceived(msg.chat))))
    ensures msg.MasterChange? ==> r.Some? && r.value.lobby == l.(gameMaster := msg.master)
    ensures msg.StatusTextChange? ==> r.Some? && r.value.lobby == l.(statusText := msg.text)
    ensures msg.StateChange? ==> r.Some? && r.value.lobby == l.(stateCode := msg.code)
  {
    match msg
    case MemberPropertyChanged(id, u, k, v) => Some(OnPropertyOfMember(l, id, u, k, v))
    case LeftLobby(id) => Some(OnLeft(l, id))
    case ChatMessage(chat) => Some(Handled(l, Some(OnChatMessageReceived(chat))))
    case MemberJoined(m) => Some(OnMemberJoinedMsg(l, m))
    case MemberLeft(u) => Some(OnMemberLeftMsg(l, u))
    case MasterChange(u) => Some(Handled(l.(gameMaster := u), Some(OnMasterChanged(u))))
    case ReadyStatusChange(u, text) => OnReadyStatus(l, u, text)
    case TeamChange(u, t) => Some(OnTeamChange(l, u, t))
    case StatusTextChange(text) => Some(Handled(l.(statusText := text), Some(OnLobbyStatusTextChanged(text))))
    case StateChange(code) => Some(Handled(l.(stateCode := code), Some(OnLobbyStateChange(code))))
    case PropertyChanged(k, v) => Some(OnLobbyProperty(l, k, v))
  }

  /** Every handler keeps members filed under their own usernames. */
  lemma HandleKeepsKeyed(l: JoinedLobby, msg: Message)
    requires Keyed(l)
    ensures Handle(l, msg).Some? ==> Keyed(Handle(l, msg).value.lobby)
  {
  }

  /** Members are never removed by a message: the member set only grows. */
  lemma HandleNeverRemovesMembers(l: JoinedLobby, msg: Message)
    ensures Handle(l, msg).Some? ==> l.members.Keys <= Handle(l, msg).value.lobby.members.Keys
  {
  }

  /** A member who left is still listed, and with the same data. */
  lemma MemberLeftKeepsMember(l: JoinedLobby, u: string)
    requires u in l.members
    ensures var r := Handle(l, MemberLeft(u));
            r.Some? && u in r.value.lobby.members && r.value.lobby == l
  {
  }

  /** Once left, always left: the flag is never cleared, whatever arrives afterwards. */
  lemma {:induction false} LeftStaysLeft(l: JoinedLobby, msgs: seq<Message>)
    requires l.hasLeft
    ensures var r := Replay(l, msgs); r.Some? ==> r.value.hasLeft
    decreases |msgs|
  {
    if |msgs| > 0 {
      var h := Handle(l, msgs[0]);
      if h.Some? {
        LeftStaysLeft(h.value.lobby, msgs[1..]);
      }
    }
  }

  /** The copy after a run of messages; `None` once a handler throws. */
  function Replay(l: JoinedLobby, msgs: seq<Message>): (r: Option<JoinedLobby>)
    ensures |msgs| == 0 ==> r == Some(l)
    decreases |msgs|
  {
    if |msgs| == 0 then Some(l)
    else
      match Handle(l, msgs[0])
      case None => Option.None
      case Some(h) => Replay(h.lobby, msgs[1..])
  }

  /** A ready status broadcast by the server always parses, so the member's flag follows it. */
  lemma ReadyStatusFollowsServer(l: JoinedLobby, u: string, b: bool)
    requires u in l.members
    ensures var r := Handle(l, ReadyStatusChange(u, BoolText(b)));
            r.Some? && r.value.lobby.members[u].isReady == b
  {
    ParseBoolText(b);
  }
}

=== FILE: jwt_auth.dfy ===
/**
 * The storage service's JWT security handler: after the signature check
 * (left to the JWT library), the scopes are read from the token's claims
 * and every scope the endpoint requires must be among them.
 */
module JwtAuth {
  import opened Wrappers

  /** A decoded JSON claim value (`encoding/json` into `interface{}`). */
  datatype Json =
    | JNull
    | JString(s: string)
    | JNumber(n: int)
    | JBool(b: bool)
    | JArray(items: seq<Json>)
    | JObject(fields: map<string, Json>)

  /** The claims of a token: a `jwt.MapClaims`, or some other claims type. */
  datatype Claims = MapClaims(m: map<string, Json>) | OtherClaims

  /** The claim keys read for scopes, in the order they are tried. */
  const ScopeKeys: seq<string> := ["scope", "scopes"]

  /** The scopes granted by a token: the membership map and the sorted list. */
  datatype ScopeClaims = ScopeClaims(granted: set<string>, list: seq<string>)

  // ---------------------------------------------------------------- splitting

  /** The pieces joined with single spaces (`strings.Join(parts, " ")`). */
  function Join(parts: seq<string>): (r: string)
    requires |parts| >= 1
    decreases |parts|
  {
    if |parts| == 1 then parts[0] else parts[0] + " " + Join(parts[1..])
  }

  predicate SpaceFree(parts: seq<string>)
  {
    forall i :: 0 <= i < |parts| ==> ' ' !in parts[i]
  }

  /** Joining is unaffected by a character put in front of the first piece. */
  lemma {:induction false} JoinCons(c: char, parts: seq<string>)
    requires |parts| >= 1
    ensures Join([[c] + parts[0]] + parts[1..]) == [c] + Join(parts)
  {
    var q := [[c] + parts[0]] + parts[1..];
    assert |q| == |parts| && q[0] == [c] + parts[0];
    if |parts| > 1 {
      assert q[1..] == parts[1..];
    }
  }

  /**
   * `strings.Split(s, " ")`: the pieces between single spaces. Two spaces
   * in a row give an empty piece, and the empty string gives one empty piece.
   */
  function Split(s: string): (r: seq<string>)
    ensures |r| >= 1 && SpaceFree(r)
    ensures Join(r) == s
    decreases |s|
  {
    if |s| == 0 then [""]
    else
      var t := Split(s[1..]);
      if s[0] == ' ' then
        var r := [""] + t;
        assert r[1..] == t;
        assert s == " " + s[1..];
        r
      else
        var r := [[s[0]] + t[0]] + t[1..];
        JoinCons(s[0], t);
        assert s == [s[0]] + s[1..];
        r
  }

  /** The index of the first space in `s`, or `|s|` when there is none. */
  function FirstSpace(s: string): (r: nat)
    ensures r <= |s|
    decreases |s|
  {
    if |s| == 0 || s[0] == ' ' then 0 else 1 + FirstSpace(s[1..])
  }

  lemma {:induction false} FirstSpaceAfter(x: string, rest: string)
    requires ' ' !in x
    ensures FirstSpace(x + rest) == |x| + FirstSpace(rest)
    decreases |x|
  {
    if |x| > 0 {
      assert (x + rest)[0] == x[0];
      assert (x + rest)[1..] == x[1..] + rest;
      FirstSpaceAfter(x[1..], rest);
    } else {
      assert x + rest == rest;
    }
  }

  /** The first space of a join ends its first piece; a single piece has none. */
  lemma FirstSpaceOfJoin(parts: seq<string>)
    requires |parts| >= 1 && SpaceFree(parts)
    ensures FirstSpace(Join(parts)) == |parts[0]|
    ensures |parts| == 1 <==> |Join(parts)| == |parts[0]|
    ensures Join(parts)[..|parts[0]|] == parts[0]
  {
    if |parts| == 1 {
      FirstSpaceAfter(parts[0], "");
      assert parts[0] + "" == parts[0];
    } else {
      var tail := " " + Join(parts[1..]);
      assert Join(parts) == parts[0] + tail;
      FirstSpaceAfter(parts[0], tail);
    }
  }

  /** Space-free pieces are recovered from their join: joining is injective on them. */
  lemma {:induction false} JoinInjective(a: seq<string>, b: seq<string>)
    requires |a| >= 1 && |b| >= 1 && SpaceFree(a) && SpaceFree(b)
    requires Join(a) == Join(b)
    ensures a == b
    decreases |a|
  {
    var j := Join(a);
    FirstSpaceOfJoin(a);
    FirstSpaceOfJoin(b);
    assert a[0] == b[0];
    if |a| == 1 {
      assert |b| == 1;
    } else {
      assert |b| > 1;
      assert j == a[0] + " " + Join(a[1..]);
      assert j == b[0] + " " + Join(b[1..]);
      assert Join(a[1..]) == j[|a[0]| + 1..] == Join(b[1..]);
      assert SpaceFree(a[1..]) && SpaceFree(b[1..]);
      JoinInjective(a[1..], b[1..]);
      assert a == [a[0]] + a[1..];
      assert b == [b[0]] + b[1..];
    }
  }

  /** Splitting what was joined gives back the pieces. */
  lemma SplitJoin(parts: seq<string>)
    requires |parts| >= 1 && SpaceFree(parts)
    ensures Split(Join(parts)) == parts
  {
    JoinInjective(Split(Join(parts)), parts);
  }

  /** The empty claim string is one empty scope, not no scopes. */
  lemma EmptyScopeString()
    ensures Split("") == [""]
  {
  }

  // ---------------------------------------------------------------- ordering

  /** `a <= b` as Go compares strings: lexicographically by character. */
  predicate LessEq(a: string, b: string)
    decreases |a|
  {
    if |a| == 0 then true
    else if |b| == 0 then false
    else if a[0] != b[0] then a[0] < b[0]
    else LessEq(a[1..], b[1..])
  }

  lemma LessEqTotal(a: string, b: string)
    ensures LessEq(a, b) || LessEq(b, a)
    decreases |a|
  {
    if |a| > 0 && |b| > 0 && a[0] == b[0] {
      LessEqTotal(a[1..], b[1..]);
    }
  }

  predicate Sorted(s: seq<string>)
  {
    forall i :: 0 < i < |s| ==> LessEq(s[i - 1], s[i])
  }

  function Insert(x: string, s: seq<string>): (r: seq<string>)
    requires Sorted(s)
    ensures Sorted(r)
    ensures multiset(r) == multiset(s) + multiset{x}
    ensures |r| == |s| + 1 && (r[0] == x || (|s| > 0 && r[0] == s[0]))
    decreases |s|
  {
    if |s| == 0 then [x]
    else if LessEq(x, s[0]) then [x] + s
    else
      LessEqTotal(x, s[0]);
      var t := Insert(x, s[1..]);
      assert s == [s[0]] + s[1..];
      [s[0]] + t
  }

  /** `sort.Strings`: the same strings, in ascending order. */
  function Sort(s: seq<string>): (r: seq<string>)
    ensures Sorted(r) && multiset(r) == multiset(s)
    decreases |s|
  {
    if |s| == 0 then []
    else
      assert s == [s[0]] + s[1..];
      Insert(s[0], Sort(s[1..]))
  }

  // ---------------------------------------------------------------- claims

  /** The string elements of a claim list, in order; other elements are skipped. */
  function StringItems(items: seq<Json>): (r: seq<string>)
    ensures forall x :: x in r <==> JString(x) in items
    decreases |items|
  {
    if |items| == 0 then []
    else
      var rest := StringItems(items[1..]);
      assert items == [items[0]] + items[1..];
      if items[0].JString? then [items[0].s] + rest else rest
  }

  /** Go's `%T` of a decoded JSON value that is neither a string nor a list. */
  function TypeName(v: Json): string
  {
    match v
    case JNull => "<nil>"
    case JString(_) => "string"
    case JNumber(_) => "float64"
    case JBool(_) => "bool"
    case JArray(_) => "[]interface {}"
    case JObject(_) => "map[string]interface {}"
  }

  /** The scopes listed by one claim value: a space-separated string or a list of strings. */
  function ScopesOf(v: Json): (r: Result<seq<string>, string>)
    ensures r.Err? <==> !(v.JString? || v.JArray?)
    ensures v.JString? ==> r == Ok(Split(v.s))
    ensures v.JArray? ==> r.Ok? && forall x :: x in r.value <==> JString(x) in v.items
  {
    match v
    case JString(s) => Ok(Split(s))
    case JArray(items) => Ok(StringItems(items))
    case _ => Err("unsupported scope format in incoming JWT claim, was type " + TypeName(v))
  }

  /** Whether a claim key holds a value that is not `null`. */
  predicate Present(m: map<string, Json>, k: string)
  {
    k in m && m[k] != JNull
  }

  /** The first scope key that is present and not `null`, if any. */
  function ScopeKey(m: map<string, Json>): (r: Option<string>)
    ensures r.None? <==> !Present(m, "scope") && !Present(m, "scopes")
    ensures r.Some? ==> Present(m, r.value)
    ensures Present(m, "scope") ==> r == Some("scope")
    ensures !Present(m, "scope") && Present(m, "scopes") ==> r == Some("scopes")
  {
    if Present(m, "scope") then Some("scope")
    else if Present(m, "scopes") then Some("scopes")
    else Option.None
  }

  /** `parseClaimScopes`: the granted scopes, or why the claims cannot be read. */
  function ParseClaimScopes(c: Claims): (r: Result<ScopeClaims, string>)
    ensures c.OtherClaims? ==> r == Err("unsupported claims shape")
    ensures c.MapClaims? && ScopeKey(c.m).None? ==> r == Ok(ScopeClaims({}, []))
    ensures c.MapClaims? && ScopeKey(c.m).Some? ==>
      (r.Err? <==> ScopesOf(c.m[ScopeKey(c.m).value]).Err?)
    ensures r.Ok? && c.MapClaims? && ScopeKey(c.m).Some? ==>
      multiset(r.value.list) == multiset(ScopesOf(c.m[ScopeKey(c.m).value]).value)
    ensures r.Ok? ==> Sorted(r.value.list)
    ensures r.Ok? ==> forall x :: x in r.value.granted <==> x in r.value.list
  {
    match c
    case OtherClaims => Err("unsupported claims shape")
    case MapClaims(m) =>
      match ScopeKey(m)
      case None => Ok(ScopeClaims({}, []))
      case Some(k) =>
        match ScopesOf(m[k])
        case Err(e) => Err(e)
        case Ok(list) =>
          var sorted := Sort(list);
          assert forall x :: x in list <==> x in multiset(list);
          assert forall x :: x in sorted <==> x in multiset(sorted);
          Ok(ScopeClaims((set x | x in list), sorted))
  }

  // ---------------------------------------------------------------- JWTAuth

  /** A token after the library's signature check: parsed, and whether it is valid. */
  datatype Token = Token(valid: bool, claims: Claims)

  datatype AuthOutcome = Authorized | Unauthorized(reason: string)

  const InsufficientMessage := "Insufficent permissions"

  /** The required-scope loop: the first required scope not granted stops it. */
  method CheckRequired(granted: set<string>, required: seq<string>) returns (ok: bool)
    ensures ok <==> forall i :: 0 <= i < |required| ==> required[i] in granted
  {
    var i := 0;
    while i < |required|
      invariant 0 <= i <= |required|
      invariant forall j :: 0 <= j < i ==> required[j] in granted
    {
      if required[i] !in granted {
        return false;
      }
      i := i + 1;
    }
    return true;
  }

  /**
   * `JWTAuth`: a parse or signature error, an invalid token, unreadable
   * scope claims or a missing required scope is `Unauthorized`.
   */
  method JwtAuthorize(parsed: Result<Token, string>, required: seq<string>) returns (r: AuthOutcome)
    ensures parsed.Err? ==> r == Unauthorized(parsed.error)
    ensures parsed.Ok? && !parsed.value.valid ==> r == Unauthorized("Token invalid")
    ensures r.Authorized? <==>
      parsed.Ok? && parsed.value.valid && ParseClaimScopes(parsed.value.claims).Ok?
      && forall i :: 0 <= i < |required| ==> required[i] in ParseClaimScopes(parsed.value.claims).value.granted
    ensures parsed.Ok? && parsed.value.valid && ParseClaimScopes(parsed.value.claims).Err? ==>
      r == Unauthorized(ParseClaimScopes(parsed.value.claims).error)
    ensures r.Unauthorized? && parsed.Ok? && parsed.value.valid && ParseClaimScopes(parsed.value.claims).Ok? ==>
      r.reason == InsufficientMessage
  {
    if parsed.Err? {
      return Unauthorized(parsed.error);
    }
    if !parsed.value.valid {
      return Unauthorized("Token invalid");
    }
    var scopes := ParseClaimScopes(parsed.value.claims);
    if scopes.Err? {
      return Unauthorized(scopes.error);
    }
    var ok := CheckRequired(scopes.value.granted, required);
    if !ok {
      return Unauthorized(InsufficientMessage);
    }
    return Authorized;
  }

  /** A space-separated "scope" claim grants exactly its pieces. */
  lemma StringClaimGrants(m: map<string, Json>, parts: seq<string>)
    requires |parts| >= 1 && SpaceFree(parts)
    requires "scope" in m && m["scope"] == JString(Join(parts))
    ensures var r := ParseClaimScopes(MapClaims(m));
            r.Ok? && forall x :: x in r.value.granted <==> x in parts
  {
    SplitJoin(parts);
    var r := ParseClaimScopes(MapClaims(m));
    assert forall x :: x in parts <==> x in multiset(parts);
    assert forall x :: x in r.value.list <==> x in multiset(r.value.list);
  }

  /** "scope" wins over "scopes": with both present, "scopes" is never read. */
  lemma ScopeKeyWins(m: map<string, Json>, other: Json)
    requires Present(m, "scope")
    ensures ParseClaimScopes(MapClaims(m)) == ParseClaimScopes(MapClaims(m["scopes" := other]))
  {
    var m2 := m["scopes" := other];
    assert m2["scope"] == m["scope"];
  }

  /** A `null` scope claim is as good as a missing one. */
  lemma NullScopeIgnored(m: map<string, Json>)
    ensures ParseClaimScopes(MapClaims(m["scope" := JNull])) == ParseClaimScopes(MapClaims(m - {"scope"}))
  {
    var a := m["scope" := JNull];
    var b := m - {"scope"};
    assert !Present(a, "scope") && !Present(b, "scope");
    assert Present(a, "scopes") <==> Present(b, "scopes");
    if Present(a, "scopes") {
      assert a["scopes"] == b["scopes"];
    }
  }
}

=== FILE: lobbies_plugin.dfy ===
/**
 * `LobbiesPlugin`: the registry of lobby factories and live lobbies, the id
 * counter, and the request handlers that create, join, leave and edit
 * lobbies. The caller's lobby-side state (`LobbyUser`) and its permission
 * level are parameters; replies are returned, never sent.
 */
module LobbyRegistry {
  import opened Wrappers
  import opened Messaging
  import opened Strings
  import LobbyTeams
  import opened Lobbies

  /** The request property naming the factory to build a lobby with. */
  const LobbyFactoryKey := "sd.lobbyFactory"

  /**
   * A lobby factory, as the blueprint its creation delegate follows: the
   * teams and configuration of a new `BaseLobby`, and the type the delegate
   * sets itself, if any.
   */
  datatype LobbyFactory = LobbyFactory(
    id: string,
    teams: seq<LobbyTeams.LobbyTeam>,
    config: LobbyConfig,
    presetType: Option<string>)

  datatype Registry = Registry(
    factories: map<string, LobbyFactory>,
    lobbies: map<int, Lobby>,
    nextLobbyId: int,
    createLobbiesPermissionLevel: int,
    dontAllowCreatingIfJoined: bool)

  /** A fresh plugin: no factories, no lobbies, ids from 0, anyone may create, one lobby per user. */
  function NewRegistry(): (r: Registry)
    ensures r.factories == map[] && r.lobbies == map[] && r.nextLobbyId == 0
    ensures r.createLobbiesPermissionLevel == 0 && r.dontAllowCreatingIfJoined
  {
    Registry(map[], map[], 0, 0, true)
  }

  /** Every lobby is stored under its own id, which the counter has already handed out. */
  ghost predicate WellFormed(r: Registry)
  {
    forall id :: id in r.lobbies ==> r.lobbies[id].id == id && id < r.nextLobbyId
  }

  /** `AddFactory`: store the factory under its id, replacing one with the same id. */
  function AddFactory(r: Registry, f: LobbyFactory): (r': Registry)
    ensures f.id in r'.factories && r'.factories[f.id] == f
    ensures forall k :: k in r.factories && k != f.id ==> k in r'.factories && r'.factories[k] == r.factories[k]
    ensures r'.factories.Keys == r.factories.Keys + {f.id}
    ensures r' == r.(factories := r'.factories)
  {
    r.(factories := r.factories[f.id := f])
  }

  /** A second factory with the same id wins: the first leaves no trace. */
  lemma AddFactoryOverwrites(r: Registry, f: LobbyFactory, g: LobbyFactory)
    requires f.id == g.id
    ensures AddFactory(AddFactory(r, f), g) == AddFactory(r, g)
  {
  }

  /** `AddLobby`: refuse an id already registered, leaving the registry as it was. */
  function AddLobby(r: Registry, l: Lobby): (res: (bool, Registry))
    ensures !res.0 <==> l.id in r.lobbies
    ensures !res.0 ==> res.1 == r
    ensures res.0 ==> res.1 == r.(lobbies := r.lobbies[l.id := l])
  {
    if l.id in r.lobbies then (false, r) else (true, r.(lobbies := r.lobbies[l.id := l]))
  }

  /** `OnLobbyDestroyed`: the lobby leaves the registry; the others stay. */
  function OnLobbyDestroyed(r: Registry, id: int): (r': Registry)
    ensures id !in r'.lobbies
    ensures forall k :: k in r.lobbies && k != id ==> k in r'.lobbies && r'.lobbies[k] == r.lobbies[k]
    ensures r'.lobbies.Keys == r.lobbies.Keys - {id}
    ensures r' == r.(lobbies := r'.lobbies)
  {
    r.(lobbies := r.lobbies - {id})
  }

  /** `GenerateLobbyId`: the counter's value, then the counter moves past it. */
  function GenerateLobbyId(r: Registry): (res: (int, Registry))
    ensures res.1 == r.(nextLobbyId := res.1.nextLobbyId)
    ensures res.0 < res.1.nextLobbyId && res.0 >= r.nextLobbyId
  {
    (r.nextLobbyId, r.(nextLobbyId := r.nextLobbyId + 1))
  }

  /** Ids handed out one after another strictly increase, and a new id names no registered lobby. */
  lemma GenerateLobbyIdIncreases(r: Registry)
    requires WellFormed(r)
    ensures var (a, r1) := GenerateLobbyId(r);
            var (b, _) := GenerateLobbyId(r1);
            a < b && a !in r.lobbies && WellFormed(r1)
  {
  }

  /**
   * `CreateLobby` of a factory: a `BaseLobby` under a freshly generated id,
   * the request's properties over its own, and the factory id as its type
   * when the delegate set none. The id is consumed even when the
   * constructor throws on clashing team names.
   */
  function CreateLobby(r: Registry, f: LobbyFactory, properties: map<string, string>): (res: (Result<Lobby, string>, Registry))
    ensures res.1 == r.(nextLobbyId := r.nextLobbyId + 1)
    ensures res.0.Err? <==> !DistinctNames(f.teams)
    ensures res.0.Ok? ==>
      && res.0.value.id == r.nextLobbyId
      && res.0.value.members == map[]
      && res.0.value.lobbyType == Some(f.presetType.GetOr(f.id))
      && res.0.value.properties.Keys == properties.Keys
      && (forall k :: k in properties ==> res.0.value.properties[k] == properties[k])
      && !res.0.value.isDestroyed
  {
    var (id, r1) := GenerateLobbyId(r);
    match NewLobby(id, f.teams, f.config)
    case Err(e) => (Err(e), r1)
    case Ok(l) =>
      var l1 := SetLobbyProperties(l, properties);
      (Ok(l1.(lobbyType := Some(f.presetType.GetOr(f.id)))), r1)
  }

  /**
   * The guards of `HandleCreateLobby`, in order: the reply of the first that
   * fails, or the factory to use.
   */
  function CreateRefusal(r: Registry, user: LobbyUser, level: int, properties: map<string, string>): (res: Result<LobbyFactory, Reply>)
    ensures res == Err(Refuse(Unauthorized, "Insufficient permissions")) <==> level < r.createLobbiesPermissionLevel
    ensures res == Err(Refuse(Failed, "You are already in a lobby")) <==>
      level >= r.createLobbiesPermissionLevel && r.dontAllowCreatingIfJoined && user.currentLobby.Some?
    ensures res == Err(Refuse(Failed, "Invalid request (undefined factory)")) <==>
      && level >= r.createLobbiesPermissionLevel && !(r.dontAllowCreatingIfJoined && user.currentLobby.Some?)
      && LobbyFactoryKey !in properties
    ensures res == Err(Refuse(Failed, "Unavailable lobby factory")) <==>
      && level >= r.createLobbiesPermissionLevel && !(r.dontAllowCreatingIfJoined && user.currentLobby.Some?)
      && LobbyFactoryKey in properties && properties[LobbyFactoryKey] !in r.factories
    ensures res.Ok? <==>
      && level >= r.createLobbiesPermissionLevel && !(r.dontAllowCreatingIfJoined && user.currentLobby.Some?)
      && LobbyFactoryKey in properties && properties[LobbyFactoryKey] in r.factories
    ensures res.Ok? ==> res.value == r.factories[properties[LobbyFactoryKey]]
  {
    if level < r.createLobbiesPermissionLevel then Err(Refuse(Unauthorized, "Insufficient permissions"))
    else if r.dontAllowCreatingIfJoined && user.currentLobby.Some? then Err(Refuse(Failed, "You are already in a lobby"))
    else if LobbyFactoryKey !in properties then Err(Refuse(Failed, "Invalid request (undefined factory)"))
    else if properties[LobbyFactoryKey] !in r.factories then Err(Refuse(Failed, "Unavailable lobby factory"))
    else Ok(r.factories[properties[LobbyFactoryKey]])
  }

  /**
   * `HandleCreateLobby`. A refused request changes nothing; otherwise the
   * lobby is built and registered and the reply carries its id. A
   * constructor that throws leaves the request unanswered (`None`). The
   * creator does not join the lobby.
   */
  function HandleCreateLobby(r: Registry, user: LobbyUser, level: int, properties: map<string, string>): (res: (Option<Reply>, Registry))
    ensures CreateRefusal(r, user, level, properties).Err? ==>
      res == (Some(CreateRefusal(r, user, level, properties).error), r)
    ensures res.0 == Some(Reply(Success, Number(r.nextLobbyId))) <==>
      && CreateRefusal(r, user, level, properties).Ok?
      && DistinctNames(CreateRefusal(r, user, level, properties).value.teams)
      && r.nextLobbyId !in r.lobbies
    ensures res.0 == Some(Reply(Success, Number(r.nextLobbyId))) ==>
      && res.1.lobbies.Keys == r.lobbies.Keys + {r.nextLobbyId}
      && res.1.nextLobbyId == r.nextLobbyId + 1
      && res.1.lobbies[r.nextLobbyId].members == map[]
      && (forall k :: k in r.lobbies ==> res.1.lobbies[k] == r.lobbies[k])
  {
    match CreateRefusal(r, user, level, properties)
    case Err(reply) => (Some(reply), r)
    case Ok(f) =>
      var (created, r1) := CreateLobby(r, f, properties);
      match created
      case Err(_) => (Option.None, r1)
      case Ok(l) =>
        var (added, r2) := AddLobby(r1, l);
        if !added then (Some(Refuse(Error, "Lobby registration failed")), r2)
        else (Some(Reply(Success, Number(l.id))), r2)
  }

  /** In a well-formed registry, registration never collides, and creating keeps the registry well-formed. */
  lemma CreateKeepsWellFormed(r: Registry, user: LobbyUser, level: int, properties: map<string, string>)
    requires WellFormed(r)
    ensures HandleCreateLobby(r, user, level, properties).0 != Some(Refuse(Error, "Lobby registration failed"))
    ensures WellFormed(HandleCreateLobby(r, user, level, properties).1)
  {
    assert r.nextLobbyId !in r.lobbies;
  }

  /**
   * `HandleJoinLobby`: refuse a user already in a lobby or an unknown lobby,
   * then pass `AddPlayer`'s error text on. On success the lobby and the user
   * are updated; the reply's lobby data is not modelled (`Empty`).
   */
  function HandleJoinLobby(r: Registry, user: LobbyUser, lobbyId: int): (res: (Reply, Registry, LobbyUser))
    ensures user.currentLobby.Some? ==> res == (Refuse(Failed, "You're already in a lobby"), r, user)
    ensures user.currentLobby.None? && lobbyId !in r.lobbies ==> res == (Refuse(Failed, "Lobby was not found"), r, user)
    ensures user.currentLobby.None? && lobbyId in r.lobbies && AddPlayer(r.lobbies[lobbyId], user).Err? ==>
      res == (Refuse(Failed, AddPlayer(r.lobbies[lobbyId], user).error), r, user)
    ensures res.0.status == Success <==>
      user.currentLobby.None? && lobbyId in r.lobbies && AddPlayer(r.lobbies[lobbyId], user).Ok?
    ensures res.0.status == Success ==>
      && res.1 == r.(lobbies := r.lobbies[lobbyId := AddPlayer(r.lobbies[lobbyId], user).value.0])
      && res.2 == AddPlayer(r.lobbies[lobbyId], user).value.1
  {
    if user.currentLobby.Some? then (Refuse(Failed, "You're already in a lobby"), r, user)
    else if lobbyId !in r.lobbies then (Refuse(Failed, "Lobby was not found"), r, user)
    else
      match AddPlayer(r.lobbies[lobbyId], user)
      case Err(e) => (Refuse(Failed, e), r, user)
      case Ok((l', user')) => (Reply(Success, Empty), r.(lobbies := r.lobbies[lobbyId := l']), user')
  }

  /** A successful join puts the user in that lobby, keeps the registry well-formed, and leaves the other lobbies alone. */
  lemma JoinKeepsWellFormed(r: Registry, user: LobbyUser, lobbyId: int)
    requires WellFormed(r)
    ensures var (reply, r', user') := HandleJoinLobby(r, user, lobbyId);
            && WellFormed(r')
            && r'.lobbies.Keys == r.lobbies.Keys
            && (forall k :: k in r.lobbies && k != lobbyId ==> r'.lobbies[k] == r.lobbies[k])
            && (reply.status == Success ==> user'.currentLobby == Some(lobbyId))
  {
  }

  /**
   * `HandleLeaveLobby`: an unknown lobby is answered with success and
   * nothing happens. A peer without a username makes `RemovePlayer` throw,
   * and the request goes unanswered. A lobby that destroys itself because
   * its last member left is dropped from the registry; its game server's
   * spawn task is returned for killing.
   */
  function HandleLeaveLobby(r: Registry, user: LobbyUser, lobbyId: int): (res: (Option<Reply>, Registry, LobbyUser, Option<int>))
    ensures lobbyId !in r.lobbies ==> res == (Some(Reply(Success, Empty)), r, user, Option.None)
    ensures lobbyId in r.lobbies && user.username.None? ==> res == (Option.None, r, user, Option.None)
    ensures lobbyId in r.lobbies && user.username.Some? ==>
      var rem := RemoveNamed(r.lobbies[lobbyId], user.username.value, user);
      && res.0 == Some(Reply(Success, Empty)) && res.2 == rem.user && res.3 == rem.killTask
      && (if rem.lobby.isDestroyed && !r.lobbies[lobbyId].isDestroyed
          then res.1 == OnLobbyDestroyed(r, lobbyId)
          else res.1 == r.(lobbies := r.lobbies[lobbyId := rem.lobby]))
  {
    if lobbyId !in r.lobbies then (Some(Reply(Success, Empty)), r, user, Option.None)
    else
      var l := r.lobbies[lobbyId];
      match RemovePlayer(l, user)
      case Err(_) => (Option.None, r, user, Option.None)
      case Ok(rem) =>
        var r' := if rem.lobby.isDestroyed && !l.isDestroyed then OnLobbyDestroyed(r, lobbyId)
                  else r.(lobbies := r.lobbies[lobbyId := rem.lobby]);
        (Some(Reply(Success, Empty)), r', rem.user, rem.killTask)
  }

  /** The last member out of a lobby not kept alive takes the lobby out of the registry. */
  lemma LastLeaverUnregisters(r: Registry, user: LobbyUser, lobbyId: int)
    requires lobbyId in r.lobbies && user.username.Some?
    requires var l := r.lobbies[lobbyId];
             !l.isDestroyed && !l.config.keepAliveWithZeroPlayers && l.members.Keys == {user.username.value}
    ensures lobbyId !in HandleLeaveLobby(r, user, lobbyId).1.lobbies
  {
    var l := r.lobbies[lobbyId];
    var u := user.username.value;
    assert u in l.members;
    assert |l.members| == 1 by {
      assert l.members.Keys == {u};
    }
  }

  /**
   * The property loop of `HandleSetLobbyProperties`: each pair is set in
   * turn; the first refusal stops the loop and names the key.
   */
  function SetEach(l: Lobby, setter: PeerId, props: seq<(string, string)>): (res: (Lobby, Option<string>))
    ensures res.1.Some? ==> |props| > 0 && res.1.value == props[0].0 && res.0 == l
    ensures res.1.Some? <==> |props| > 0 && !SetProperty(l, setter, props[0].0, props[0].1).1
    ensures res.1.None? ==> res.0 == l.(properties := res.0.properties)
    ensures res.1.None? ==> forall i :: 0 <= i < |props| ==> props[i].0 in res.0.properties
    ensures res.1.None? ==> forall i :: 0 <= i < |props| && (forall j :: i < j < |props| ==> props[j].0 != props[i].0) ==>
      res.0.properties[props[i].0] == props[i].1
    ensures res.1.None? ==> forall k :: k in l.properties && (forall j :: 0 <= j < |props| ==> props[j].0 != k) ==>
      k in res.0.properties && res.0.properties[k] == l.properties[k]
    decreases |props|
  {
    if |props| == 0 then (l, Option.None)
    else
      var (l1, ok) := SetProperty(l, setter, props[0].0, props[0].1);
      if !ok then (l, Some(props[0].0))
      else
        var (l2, failed) := SetEach(l1, setter, props[1..]);
        assert failed.None? by {
          // Whether a setter may set properties does not depend on the key, and setting one changes nothing it depends on.
          if |props[1..]| > 0 {
            assert SetProperty(l1, setter, props[1..][0].0, props[1..][0].1).1;
          }
        }
        (l2, Option.None)
  }

  /**
   * `HandleSetLobbyProperties`. Whether a setter may set properties does not
   * depend on the key, so the request is all-or-nothing: either every pair
   * is stored or, at the first key, nothing is.
   */
  function HandleSetLobbyProperties(r: Registry, user: LobbyUser, lobbyId: int, props: seq<(string, string)>): (res: (Reply, Registry))
    ensures lobbyId !in r.lobbies ==> res == (Refuse(Failed, "Lobby was not found"), r)
    ensures res.0.status == Success <==> lobbyId in r.lobbies && SetEach(r.lobbies[lobbyId], user.peer, props).1.None?
    ensures res.0.status != Success ==> res.1 == r
    ensures res.0.status == Success ==> res.1 == r.(lobbies := r.lobbies[lobbyId := SetEach(r.lobbies[lobbyId], user.peer, props).0])
  {
    if lobbyId !in r.lobbies then (Refuse(Failed, "Lobby was not found"), r)
    else
      match SetEach(r.lobbies[lobbyId], user.peer, props)
      case (_, Some(k)) => (Refuse(Failed, "Failed to set the property: " + k), r)
      case (l', None) => (Reply(Success, Empty), r.(lobbies := r.lobbies[lobbyId := l']))
  }

  /** A refused property request names its first key, and happens exactly when the caller may not set properties. */
  lemma SetPropertiesAllOrNothing(r: Registry, user: LobbyUser, lobbyId: int, props: seq<(string, string)>)
    requires lobbyId in r.lobbies && |props| > 0
    ensures var l := r.lobbies[lobbyId];
            var (reply, r') := HandleSetLobbyProperties(r, user, lobbyId, props);
            && (reply == Refuse(Failed, "Failed to set the property: " + props[0].0) <==>
                !(l.config.allowPlayersChangeLobbyProperties
                  && (l.config.enableGameMasters ==> l.gameMaster == GetMember(l, user.peer))))
            && (reply.status == Success ==> forall i :: 0 <= i < |props| ==> props[i].0 in r'.lobbies[lobbyId].properties)
  {
  }

  /** The public listing of one lobby. */
  function GameInfoOf(l: Lobby): (g: GameInfo)
    ensures g.id == l.id && g.kind == LobbyGame && !g.isPasswordProtected
    ensures g.onlinePlayers == |l.members| && g.maxPlayers == l.maxPlayers
    ensures g.address == l.gameIp + ":" + IntToString(l.gamePort)
  {
    GameInfo(l.gameIp + ":" + IntToString(l.gamePort), l.id, false, l.maxPlayers, l.name, |l.members|, l.properties, LobbyGame)
  }

  /** `GetPublicGames`: one entry per registered lobby, keyed by lobby id. */
  function GetPublicGames(r: Registry): (games: map<int, GameInfo>)
    ensures games.Keys == r.lobbies.Keys
    ensures forall id :: id in games ==> games[id] == GameInfoOf(r.lobbies[id])
  {
    map id | id in r.lobbies :: GameInfoOf(r.lobbies[id])
  }

  /** A successful join shows in the listing: one more online player in that lobby, and no other entry changes. */
  lemma JoinShowsInListing(r: Registry, user: LobbyUser, lobbyId: int)
    requires HandleJoinLobby(r, user, lobbyId).0.status == Success
    ensures var games' := GetPublicGames(HandleJoinLobby(r, user, lobbyId).1);
            var games := GetPublicGames(r);
            && games'.Keys == games.Keys
            && games'[lobbyId].onlinePlayers == games[lobbyId].onlinePlayers + 1
            && (forall k :: k in games && k != lobbyId ==> games'[k] == games[k])
  {
  }
}

=== FILE: lobby_team.dfy ===
/**
 * Lobby members and the teams they belong to. A member points at its team by
 * name; a team keeps its members by username.
 */
module LobbyTeams {
  import opened Wrappers
  import opened Messaging

  /** A player inside a lobby: the team it is in, its ready flag and its own properties. */
  datatype LobbyMember = LobbyMember(
    username: string,
    peer: PeerId,
    team: Option<string>,
    isReady: bool,
    properties: map<string, string>)

  /** A team: its player bounds, its members' usernames and its properties. */
  datatype LobbyTeam = LobbyTeam(
    name: string,
    minPlayers: int,
    maxPlayers: int,
    members: set<string>,
    properties: map<string, string>)

  /** A new team admits between one and five players and has nobody in it. */
  function NewTeam(name: string): (t: LobbyTeam)
    ensures t.name == name && t.minPlayers == 1 && t.maxPlayers == 5
    ensures t.members == {} && t.properties == map[]
  {
    LobbyTeam(name, 1, 5, {}, map[])
  }

  function PlayerCount(t: LobbyTeam): nat
  {
    |t.members|
  }

  /** Whether the team has room for one more player. */
  predicate CanAddPlayer(t: LobbyTeam)
  {
    PlayerCount(t) < t.maxPlayers
  }

  /** `AddMember`: refuse a username already in the team; otherwise add it and point the member at this team. */
  function AddMember(t: LobbyTeam, m: LobbyMember): (r: (bool, LobbyTeam, LobbyMember))
    ensures !r.0 <==> m.username in t.members
    ensures !r.0 ==> r.1 == t && r.2 == m
    ensures r.0 ==> r.1 == t.(members := t.members + {m.username})
    ensures r.0 ==> r.2 == m.(team := Some(t.name))
    ensures r.0 ==> PlayerCount(r.1) == PlayerCount(t) + 1
  {
    if m.username in t.members then (false, t, m)
    else (true, t.(members := t.members + {m.username}), m.(team := Some(t.name)))
  }

  /** `RemoveMember`: forget the username, and clear the member's team only if it was this one. */
  function RemoveMember(t: LobbyTeam, m: LobbyMember): (r: (LobbyTeam, LobbyMember))
    ensures m.username !in r.0.members && r.0 == t.(members := t.members - {m.username})
    ensures m.team == Some(t.name) ==> r.1 == m.(team := None)
    ensures m.team != Some(t.name) ==> r.1 == m
  {
    (t.(members := t.members - {m.username}), if m.team == Some(t.name) then m.(team := None) else m)
  }

  /** `SetProperty`: an upsert into the team's properties. */
  function SetProperty(t: LobbyTeam, key: string, value: string): (r: LobbyTeam)
    ensures key in r.properties && r.properties[key] == value
    ensures forall k :: k in t.properties && k != key ==> k in r.properties && r.properties[k] == t.properties[k]
    ensures r.members == t.members && r.name == t.name
  {
    t.(properties := t.properties[key := value])
  }

  /** Removing a member just added gives the team back, with the member in no team. */
  lemma AddThenRemove(t: LobbyTeam, m: LobbyMember)
    requires m.username !in t.members
    ensures var (ok, t', m') := AddMember(t, m);
            ok && RemoveMember(t', m') == (t, m.(team := None))
  {
    var (ok, t', m') := AddMember(t, m);
    assert t'.members - {m.username} == t.members;
  }
}

=== FILE: merge_objects.dfy ===
/**
 * `MergeObjectExtensions`: configuration objects merged property by
 * property. An object is its property values by name (the properties of
 * its type); a property is simple (a string or a value type) or holds a
 * nested object, which may be `null`. Merging mutates the primary object
 * in place; here it returns the merged object, or what the source
 * throws: the name of the argument of an `ArgumentNullException`, or the
 * `MissingMethodException` of a type that cannot be constructed.
 */
module Merging {
  import opened Wrappers

  /** A simple property value: a string (possibly `null`) or a value type. */
  datatype Scalar = Null | Str(s: string) | Int(i: int) | Bool(b: bool)

  datatype Value =
    | Simple(scalar: Scalar)
    | Nested(typeName: string, obj: Option<Obj>)

  datatype Obj = Obj(props: map<string, Value>)

  /** What the source throws on a `null` primary object. */
  const PrimaryIsNull := "primary"

  /**
   * What `Activator.CreateInstance` throws for a type without a public
   * parameterless constructor.
   */
  const NotConstructible := "MissingMethodException"

  /** The default object's value for a property, if it has one. */
  function DefaultOf(d: Obj, k: string): (r: Option<Value>)
    ensures r.Some? <==> k in d.props
  {
    if k in d.props then Some(d.props[k]) else Option.None
  }

  /** The default object holds a non-null nested value for the property. */
  predicate HasNestedDefault(dv: Option<Value>)
  {
    dv.Some? && dv.value.Nested? && dv.value.obj.Some?
  }

  /**
   * The reference object for a nested property: the default object's
   * nested value, or else a freshly constructed instance of the property's
   * type (`Activator.CreateInstance`). `instances` holds the types that can
   * be constructed; for any other type there is no reference object.
   */
  function NestedDefault(dv: Option<Value>, typeName: string, instances: map<string, Obj>): (r: Option<Obj>)
    ensures r.None? <==> !HasNestedDefault(dv) && typeName !in instances
    ensures HasNestedDefault(dv) ==> r == dv.value.obj
    ensures !HasNestedDefault(dv) && typeName in instances ==> r == Some(instances[typeName])
  {
    if HasNestedDefault(dv) then dv.value.obj
    else if typeName in instances then Some(instances[typeName])
    else Option.None
  }

  /**
   * One property of `MergeUntyped`. A simple property takes the secondary's
   * value when that differs from the default's; a nested one is merged
   * recursively. The reference object is built before the recursive call,
   * so a type that cannot be constructed throws even for a `null`
   * secondary; otherwise a `null` secondary does nothing and a `null`
   * primary throws.
   */
  function MergeProp(pv: Value, sv: Value, dv: Option<Value>, instances: map<string, Obj>): (r: Result<Value, string>)
    ensures sv.Simple? ==> r == Ok(if Some(sv) != dv then sv else pv)
    ensures sv.Nested? && !HasNestedDefault(dv) && sv.typeName !in instances ==> r == Err(NotConstructible)
    ensures sv.Nested? && NestedDefault(dv, sv.typeName, instances).Some? && sv.obj.None? ==> r == Ok(pv)
    ensures sv.Nested? && NestedDefault(dv, sv.typeName, instances).Some? && sv.obj.Some? && !(pv.Nested? && pv.obj.Some?) ==>
      r == Err(PrimaryIsNull)
    ensures r.Err? ==> r.error == PrimaryIsNull || r.error == NotConstructible
    ensures sv.Nested? && sv.obj.Some? && r.Ok? ==>
      pv.Nested? && r.value.Nested? && r.value.typeName == pv.typeName && r.value.obj.Some?
    decreases sv, 0
  {
    match sv
    case Simple(_) => Ok(if Some(sv) != dv then sv else pv)
    case Nested(t, so) =>
      var nd := NestedDefault(dv, t, instances);
      if nd.None? then Err(NotConstructible)
      else if so.None? then Ok(pv)
      else if !(pv.Nested? && pv.obj.Some?) then Err(PrimaryIsNull)
      else
        match MergeObj(pv.obj.value, so.value, nd.value, instances)
        case Err(e) => Err(e)
        case Ok(m) => Ok(Nested(pv.typeName, Some(m)))
  }

  /** Whether merging some property of `s` into `p` throws. */
  predicate MergeFails(p: Obj, s: Obj, d: Obj, instances: map<string, Obj>)
    decreases s, 0
  {
    exists k :: k in p.props && k in s.props && MergeProp(p.props[k], s.props[k], DefaultOf(d, k), instances).Err?
  }

  /**
   * `MergeUntyped` on two non-null objects: every property of the primary
   * is merged with the secondary's; properties keep their names.
   */
  function MergeObj(p: Obj, s: Obj, d: Obj, instances: map<string, Obj>): (r: Result<Obj, string>)
    ensures r.Err? <==> MergeFails(p, s, d, instances)
    ensures r.Err? ==>
      exists k :: k in p.props && k in s.props && MergeProp(p.props[k], s.props[k], DefaultOf(d, k), instances) == Err(r.error)
    ensures r.Ok? ==> r.value.props.Keys == p.props.Keys
    ensures r.Ok? ==> forall k :: k in p.props && k !in s.props ==> r.value.props[k] == p.props[k]
    ensures r.Ok? ==> forall k :: k in p.props && k in s.props ==>
      Ok(r.value.props[k]) == MergeProp(p.props[k], s.props[k], DefaultOf(d, k), instances)
    decreases s, 1
  {
    if MergeFails(p, s, d, instances) then
      if exists k :: k in p.props && k in s.props && MergeProp(p.props[k], s.props[k], DefaultOf(d, k), instances) == Err(NotConstructible)
      then Err(NotConstructible)
      else Err(PrimaryIsNull)
    else
      Ok(Obj(map k | k in p.props ::
        if k in s.props then MergeProp(p.props[k], s.props[k], DefaultOf(d, k), instances).value else p.props[k]))
  }

  /**
   * `MergeWith(primary, secondary, defaultObject)`: a `null` secondary
   * leaves the primary as it is; a `null` primary throws. The two-argument
   * overload passes a newly constructed object as the default.
   */
  function MergeWith(primary: Option<Obj>, secondary: Option<Obj>, d: Obj, instances: map<string, Obj>): (r: Result<Option<Obj>, string>)
    ensures secondary.None? ==> r == Ok(primary)
    ensures secondary.Some? && primary.None? ==> r == Err(PrimaryIsNull)
    ensures r.Ok? && primary.Some? ==> r.value.Some? && r.value.value.props.Keys == primary.value.props.Keys
  {
    if secondary.None? then Ok(primary)
    else if primary.None? then Err(PrimaryIsNull)
    else
      match MergeObj(primary.value, secondary.value, d, instances)
      case Err(e) => Err(e)
      case Ok(m) => Ok(Some(m))
  }

  /** A simple property ends up with the secondary's value exactly when that value is not the default's. */
  lemma SimplePropertyRule(p: Obj, s: Obj, d: Obj, instances: map<string, Obj>, k: string)
    requires k in p.props && k in s.props && s.props[k].Simple?
    requires MergeObj(p, s, d, instances).Ok?
    ensures var m := MergeObj(p, s, d, instances).value;
            && (k !in d.props || s.props[k] != d.props[k] ==> m.props[k] == s.props[k])
            && (k in d.props && s.props[k] == d.props[k] ==> m.props[k] == p.props[k])
  {
  }

  /** Merging the same secondary twice is the same as merging it once. */
  lemma {:induction false} MergePropIdempotent(pv: Value, sv: Value, dv: Option<Value>, instances: map<string, Obj>)
    requires MergeProp(pv, sv, dv, instances).Ok?
    ensures var m := MergeProp(pv, sv, dv, instances).value;
            MergeProp(m, sv, dv, instances) == Ok(m)
    decreases sv, 0
  {
    match sv
    case Simple(_) =>
    case Nested(t, so) =>
      if so.Some? {
        var dobj := NestedDefault(dv, t, instances).value;
        MergeObjIdempotent(pv.obj.value, so.value, dobj, instances);
      }
  }

  lemma {:induction false} MergeObjIdempotent(p: Obj, s: Obj, d: Obj, instances: map<string, Obj>)
    requires MergeObj(p, s, d, instances).Ok?
    ensures var m := MergeObj(p, s, d, instances).value;
            MergeObj(m, s, d, instances) == Ok(m)
    decreases s, 1
  {
    var m := MergeObj(p, s, d, instances).value;
    forall k | k in m.props && k in s.props
      ensures MergeProp(m.props[k], s.props[k], DefaultOf(d, k), instances) == Ok(m.props[k])
    {
      MergePropIdempotent(p.props[k], s.props[k], DefaultOf(d, k), instances);
    }
    assert !MergeFails(m, s, d, instances);
    var m2 := MergeObj(m, s, d, instances).value;
    assert m2.props == m.props;
  }

  lemma MergeWithIdempotent(primary: Option<Obj>, secondary: Option<Obj>, d: Obj, instances: map<string, Obj>)
    requires MergeWith(primary, secondary, d, instances).Ok?
    ensures var m := MergeWith(primary, secondary, d, instances).value;
            MergeWith(m, secondary, d, instances) == Ok(m)
  {
    if secondary.Some? && primary.Some? {
      MergeObjIdempotent(primary.value, secondary.value, d, instances);
    }
  }

  /** `Merge(objects, seed)`: each object merged into the seed in turn; the first exception stops it. */
  function Merge(objects: seq<Option<Obj>>, seed: Option<Obj>, d: Obj, instances: map<string, Obj>): (r: Result<Option<Obj>, string>)
    ensures |objects| == 0 ==> r == Ok(seed)
    decreases |objects|
  {
    if |objects| == 0 then Ok(seed)
    else
      match MergeWith(seed, objects[0], d, instances)
      case Err(e) => Err(e)
      case Ok(x) => Merge(objects[1..], x, d, instances)
  }

  /** `Merge(objects)`: the seed is a newly constructed object, the default itself. */
  function MergeAll(objects: seq<Option<Obj>>, d: Obj, instances: map<string, Obj>): (r: Result<Option<Obj>, string>)
    ensures |objects| == 0 ==> r == Ok(Some(d))
  {
    Merge(objects, Some(d), d, instances)
  }

  /** Merge is a left fold: one more object is merged into the result of the others. */
  lemma {:induction false} MergeSnoc(objects: seq<Option<Obj>>, o: Option<Obj>, seed: Option<Obj>, d: Obj, instances: map<string, Obj>)
    ensures Merge(objects + [o], seed, d, instances) ==
      match Merge(objects, seed, d, instances)
      case Err(e) => Err(e)
      case Ok(x) => MergeWith(x, o, d, instances)
    decreases |objects|
  {
    if |objects| == 0 {
      assert objects + [o] == [o];
      assert [o][1..] == [];
    } else {
      assert (objects + [o])[0] == objects[0];
      assert (objects + [o])[1..] == objects[1..] + [o];
      match MergeWith(seed, objects[0], d, instances)
      case Err(_) =>
      case Ok(x) => MergeSnoc(objects[1..], o, x, d, instances);
    }
  }

  /** Later objects win: a simple property the last object sets away from the default ends up in the result. */
  lemma LaterObjectWins(objects: seq<Option<Obj>>, last: Obj, seed: Option<Obj>, d: Obj, instances: map<string, Obj>, k: string)
    requires Merge(objects + [Some(last)], seed, d, instances).Ok?
    requires k in last.props && last.props[k].Simple? && (k !in d.props || last.props[k] != d.props[k])
    ensures var x := Merge(objects, seed, d, instances);
            x.Ok? && x.value.Some? && k in x.value.value.props ==>
              var r := Merge(objects + [Some(last)], seed, d, instances).value;
              r.Some? && k in r.value.props && r.value.props[k] == last.props[k]
  {
    MergeSnoc(objects, Some(last), seed, d, instances);
  }
}

=== FILE: messaging.dfy ===
/**
 * The shapes shared by every request handler: peers are opaque ids, and a
 * handler's answer is a status plus a payload. Sending a message is modelled
 * as returning the message, never as I/O.
 */
module Messaging {

  /** A connected peer, known only by its id. */
  type PeerId = int

  /** The status codes a response can carry. */
  datatype ResponseStatus = Default | Success | Timeout | Error | Unauthorized | Invalid | Failed | NotConnected

  /** What a response carries beside its status. */
  datatype Payload =
    | Empty
    | Text(text: string)
    | Number(number: int)
    | Table(entries: map<string, string>)

  /** A response sent back to the peer that made a request. */
  datatype Reply = Reply(status: ResponseStatus, payload: Payload)

  /** Whether a listed game is a bare room or a lobby. */
  datatype GameKind = RoomGame | LobbyGame

  /** One entry of a public game list. */
  datatype GameInfo = GameInfo(
    address: string,
    id: int,
    isPasswordProtected: bool,
    maxPlayers: int,
    name: string,
    onlinePlayers: int,
    properties: map<string, string>,
    kind: GameKind)

  /** A reply carrying an error message. */
  function Refuse(status: ResponseStatus, message: string): Reply
  {
    Reply(status, Text(message))
  }
}

=== FILE: registered_room.dfy ===
/**
 * `RegisteredRoom`: the master server's record of a game-server room and of
 * the access tokens it hands to players. An access is first requested from
 * the room's owner (pending), then held unconfirmed until the player shows
 * the token to the game server, which validates it (in use).
 *
 * Clock readings are parameters (`now`, in whole seconds); the owner's
 * asynchronous answer to an access check is a separate operation,
 * `OnAccessAnswer`. Unconfirmed accesses are kept in insertion order, which
 * stands for the enumeration order of the dictionary that holds them.
 */
module Rooms {
  import opened Wrappers
  import opened Messaging
  import opened Strings

  /** The room property that overrides `isPublic` (its name says otherwise, but it is read as "is public"). */
  const IsPublicKey := "sd.isPrivate"

  datatype RoomOptions = RoomOptions(
    isPublic: bool,
    maxPlayers: int,
    name: string,
    password: string,
    roomIp: string,
    roomPort: int,
    allowUsersRequestAccess: bool,
    accessTimeoutPeriod: int,
    properties: map<string, string>)

  /** An access handed out and not yet confirmed: its token, its holder and when it expires. */
  datatype RoomAccess = RoomAccess(token: string, peer: PeerId, timeout: int)

  /**
   * A registered room. `inUse` maps each player peer to the token it
   * confirmed; `players` is the dictionary of players the room keeps, which
   * no operation of the room ever fills.
   */
  datatype Room = Room(
    roomId: int,
    owner: PeerId,
    options: RoomOptions,
    inUse: map<PeerId, string>,
    requestsInProgress: set<PeerId>,
    unconfirmed: seq<RoomAccess>,
    players: set<PeerId>)

  /** `bool.TryParse`: "true" or "false" in any letter case, around white space; anything else reads as false. */
  function ParseBool(s: string): (b: bool)
    ensures b <==> ToLower(Trim(s)) == "true"
    ensures |Trim(s)| != 4 ==> !b
  {
    ToLower(Trim(s)) == "true"
  }

  /** Every letter casing of "true", with white space around it, reads as true. */
  lemma ParseBoolReadsTrue(pre: string, w: string, post: string)
    requires AllSpace(pre) && AllSpace(post) && ToLower(w) == "true"
    ensures ParseBool(pre + w + post)
  {
    assert LowerChar(w[0]) == 't' && LowerChar(w[3]) == 'e';
    TrimPadded(pre, w, post);
  }

  /** `OverrideOptionsWithProperties`: the `IsPublicKey` property, when present, decides `isPublic`. */
  function OverrideOptionsWithProperties(o: RoomOptions): (r: RoomOptions)
    ensures IsPublicKey !in o.properties ==> r == o
    ensures IsPublicKey in o.properties ==> r == o.(isPublic := ParseBool(o.properties[IsPublicKey]))
  {
    if IsPublicKey in o.properties then o.(isPublic := ParseBool(o.properties[IsPublicKey])) else o
  }

  /** The constructor: nothing pending, unconfirmed or in use. */
  function NewRoom(id: int, owner: PeerId, options: RoomOptions): (r: Room)
    ensures r.roomId == id && r.owner == owner && r.options == OverrideOptionsWithProperties(options)
    ensures r.inUse == map[] && r.requestsInProgress == {} && r.unconfirmed == [] && r.players == {}
  {
    Room(id, owner, OverrideOptionsWithProperties(options), map[], {}, [], {})
  }

  /** `OnlineCount`: the accesses in use. */
  function OnlineCount(room: Room): nat
  {
    |room.inUse|
  }

  // ----- the unconfirmed accesses -----

  /** Whether `peer` holds one of the accesses. */
  predicate HoldsAccess(s: seq<RoomAccess>, peer: PeerId)
  {
    exists i :: 0 <= i < |s| && s[i].peer == peer
  }

  /** The first access held by `peer` (`FirstOrDefault(v => v.Peer == peer)`). */
  function IndexOfPeer(s: seq<RoomAccess>, peer: PeerId): (r: Option<nat>)
    ensures r.None? <==> !HoldsAccess(s, peer)
    ensures r.Some? ==> r.value < |s| && s[r.value].peer == peer
    ensures r.Some? ==> forall j :: 0 <= j < r.value ==> s[j].peer != peer
  {
    if |s| == 0 then Option.None
    else if s[0].peer == peer then Some(0)
    else
      match IndexOfPeer(s[1..], peer)
      case None => Option.None
      case Some(i) => Some(i + 1)
  }

  /** The access stored under `token`. */
  function IndexOfToken(s: seq<RoomAccess>, token: string): (r: Option<nat>)
    ensures r.None? <==> forall j :: 0 <= j < |s| ==> s[j].token != token
    ensures r.Some? ==> r.value < |s| && s[r.value].token == token
    ensures r.Some? ==> forall j :: 0 <= j < r.value ==> s[j].token != token
  {
    if |s| == 0 then Option.None
    else if s[0].token == token then Some(0)
    else
      match IndexOfToken(s[1..], token)
      case None => Option.None
      case Some(i) => Some(i + 1)
  }

  /** The accesses without the one at `i`. */
  function RemoveAt(s: seq<RoomAccess>, i: nat): (r: seq<RoomAccess>)
    requires i < |s|
    ensures |r| == |s| - 1
    ensures forall j :: 0 <= j < i ==> r[j] == s[j]
    ensures forall j :: i <= j < |r| ==> r[j] == s[j + 1]
  {
    s[..i] + s[i + 1..]
  }

  /** `unconfirmed[token] = access`: replace the entry with the same token in place, or append. */
  function Put(s: seq<RoomAccess>, a: RoomAccess): (r: seq<RoomAccess>)
    ensures IndexOfToken(s, a.token).Some? ==> r == s[IndexOfToken(s, a.token).value := a]
    ensures IndexOfToken(s, a.token).None? ==> r == s + [a]
    ensures a in r
  {
    match IndexOfToken(s, a.token)
    case Some(i) => assert s[i := a][i] == a; s[i := a]
    case None => s + [a]
  }

  /** The accesses whose deadline has not passed, in their order. */
  function Unexpired(s: seq<RoomAccess>, now: int): (r: seq<RoomAccess>)
    ensures forall a :: a in r <==> a in s && !(a.timeout < now)
    ensures |r| <= |s|
  {
    if |s| == 0 then []
    else if s[0].timeout < now then Unexpired(s[1..], now)
    else [s[0]] + Unexpired(s[1..], now)
  }

  // ----- the consistency of the access bookkeeping -----

  /** No two accesses share a token. */
  predicate DistinctTokens(s: seq<RoomAccess>)
  {
    forall i, j :: 0 <= i < j < |s| ==> s[i].token != s[j].token
  }

  /** No peer holds two accesses. */
  predicate DistinctPeers(s: seq<RoomAccess>)
  {
    forall i, j :: 0 <= i < j < |s| ==> s[i].peer != s[j].peer
  }

  /**
   * Tokens are unique, each peer holds at most one unconfirmed access, and
   * a peer is at most one of pending, holding an unconfirmed access, or in
   * use.
   */
  ghost predicate Consistent(room: Room)
  {
    var s := room.unconfirmed;
    && DistinctTokens(s) && DistinctPeers(s)
    && (forall i :: 0 <= i < |s| ==> s[i].peer !in room.inUse && s[i].peer !in room.requestsInProgress)
    && (forall p :: p in room.requestsInProgress ==> p !in room.inUse)
  }

  lemma NewRoomIsConsistent(id: int, owner: PeerId, options: RoomOptions)
    ensures Consistent(NewRoom(id, owner, options))
  {
  }

  // ----- requesting an access -----

  /**
   * What a request for an access gets right away: a refusal, the access the
   * peer already holds, or `Asked` when the room's owner has been asked and
   * the answer comes later.
   */
  datatype AccessAnswer = Refused(error: string) | Granted(token: string) | Asked

  /**
   * The body of `GetAccess` with its "already in this room" test as a
   * parameter: refusals for a pending request or a player in the room, the
   * held access again with a fresh deadline, the player limit, and
   * otherwise the request goes out and is pending.
   */
  function GetAccessWith(room: Room, peer: PeerId, now: int, inRoom: bool): (r: (Room, AccessAnswer))
  {
    if peer in room.requestsInProgress then (room, Refused("You've already requested an access to this room"))
    else if inRoom then (room, Refused("You are already in this room"))
    else match IndexOfPeer(room.unconfirmed, peer)
      case Some(i) =>
        var a := room.unconfirmed[i];
        (room.(unconfirmed := room.unconfirmed[i := a.(timeout := now + room.options.accessTimeoutPeriod)]), Granted(a.token))
      case None =>
        if room.options.maxPlayers != 0
           && |room.requestsInProgress| + |room.inUse| + |room.unconfirmed| >= room.options.maxPlayers
        then (room, Refused("Room is already full"))
        else (room.(requestsInProgress := room.requestsInProgress + {peer}), Asked)
  }

  /** `GetAccess` as written: "already in this room" consults `players`, which stays empty. */
  function GetAccessAsWritten(room: Room, peer: PeerId, now: int): (r: (Room, AccessAnswer))
    ensures r == GetAccessWith(room, peer, now, peer in room.players)
    ensures room.players == {} ==> r.1 != Refused("You are already in this room")
  {
    GetAccessWith(room, peer, now, peer in room.players)
  }

  /**
   * `GetAccess`, with the "already in this room" guard consulting the
   * accesses in use, which is where a player in the room is recorded.
   */
  function GetAccess(room: Room, peer: PeerId, now: int): (r: (Room, AccessAnswer))
    ensures peer in room.requestsInProgress ==> r == (room, Refused("You've already requested an access to this room"))
    ensures peer !in room.requestsInProgress && peer in room.inUse ==> r == (room, Refused("You are already in this room"))
    ensures peer !in room.requestsInProgress && peer !in room.inUse && HoldsAccess(room.unconfirmed, peer) ==>
      var i := IndexOfPeer(room.unconfirmed, peer).value;
      && r.1 == Granted(room.unconfirmed[i].token)
      && r.0 == room.(unconfirmed := room.unconfirmed[i := room.unconfirmed[i].(timeout := now + room.options.accessTimeoutPeriod)])
    ensures r.1 == Refused("Room is already full") <==>
      && peer !in room.requestsInProgress && peer !in room.inUse && !HoldsAccess(room.unconfirmed, peer)
      && room.options.maxPlayers != 0
      && |room.requestsInProgress| + |room.inUse| + |room.unconfirmed| >= room.options.maxPlayers
    ensures r.1 == Asked ==> r.0 == room.(requestsInProgress := room.requestsInProgress + {peer})
    ensures r.1.Refused? ==> r.0 == room
  {
    GetAccessWith(room, peer, now, peer in room.inUse)
  }

  /** What the room's owner answers to an access check: a token, or an error status with an optional message. */
  datatype OwnerAnswer = OwnerGranted(token: string) | OwnerRefused(status: ResponseStatus, message: Option<string>)

  /**
   * The callback of the access check: the request is no longer pending; a
   * refusal is passed on ("Unknown Error" without a message); a token is
   * stored as unconfirmed with a fresh deadline, replacing any access under
   * the same token.
   */
  function OnAccessAnswer(room: Room, peer: PeerId, answer: OwnerAnswer, now: int): (r: (Room, AccessAnswer))
    ensures peer !in r.0.requestsInProgress && r.0.requestsInProgress == room.requestsInProgress - {peer}
    ensures answer.OwnerRefused? ==> r == (room.(requestsInProgress := room.requestsInProgress - {peer}), Refused(answer.message.GetOr("Unknown Error")))
    ensures answer.OwnerGranted? ==>
      && r.1 == Granted(answer.token)
      && RoomAccess(answer.token, peer, now + room.options.accessTimeoutPeriod) in r.0.unconfirmed
      && r.0.inUse == room.inUse
  {
    var room1 := room.(requestsInProgress := room.requestsInProgress - {peer});
    match answer
    case OwnerRefused(_, message) => (room1, Refused(message.GetOr("Unknown Error")))
    case OwnerGranted(token) =>
      var a := RoomAccess(token, peer, now + room.options.accessTimeoutPeriod);
      (room1.(unconfirmed := Put(room1.unconfirmed, a)), Granted(token))
  }

  // ----- validating an access -----

  /**
   * The outcome of `ValidateAccess`: the player it admits, a refusal, or the
   * exception `Dictionary.Add` raises when the holder is already in use.
   */
  datatype Validation =
    | Validated(room: Room, player: PeerId)
    | NotValidated(room: Room)
    | Threw(room: Room)

  /**
   * `ValidateAccess`: an unknown token is refused; a known one is consumed
   * whatever happens next; its holder must still be connected, and then
   * moves into the accesses in use.
   */
  function ValidateAccess(room: Room, token: string, connected: set<PeerId>): (v: Validation)
    ensures IndexOfToken(room.unconfirmed, token).None? ==> v == NotValidated(room)
    ensures IndexOfToken(room.unconfirmed, token).Some? ==>
      v.room.unconfirmed == RemoveAt(room.unconfirmed, IndexOfToken(room.unconfirmed, token).value)
    ensures v.Validated? <==>
      && IndexOfToken(room.unconfirmed, token).Some?
      && var a := room.unconfirmed[IndexOfToken(room.unconfirmed, token).value];
         a.peer in connected && a.peer !in room.inUse
    ensures v.Validated? ==>
      && v.room.inUse == room.inUse[v.player := token]
      && OnlineCount(v.room) == OnlineCount(room) + 1
  {
    match IndexOfToken(room.unconfirmed, token)
    case None => NotValidated(room)
    case Some(i) =>
      var a := room.unconfirmed[i];
      var room1 := room.(unconfirmed := RemoveAt(room.unconfirmed, i));
      if a.peer !in connected then NotValidated(room1)
      else if a.peer in room.inUse then Threw(room1)
      else Validated(room1.(inUse := room.inUse[a.peer := token]), a.peer)
  }

  /** `ClearTimedOutAccesses`: drop exactly the unconfirmed accesses whose deadline is before `now`. */
  function ClearTimedOutAccesses(room: Room, now: int): (r: Room)
    ensures r == room.(unconfirmed := r.unconfirmed)
    ensures forall a :: a in r.unconfirmed <==> a in room.unconfirmed && now <= a.timeout
  {
    room.(unconfirmed := Unexpired(room.unconfirmed, now))
  }

  /** `OnPlayerLeft`: the player's access is no longer in use. */
  function OnPlayerLeft(room: Room, peer: PeerId): (r: Room)
    ensures peer !in r.inUse && r.inUse == room.inUse - {peer}
    ensures r == room.(inUse := r.inUse)
    ensures peer in room.inUse ==> OnlineCount(r) == OnlineCount(room) - 1
  {
    room.(inUse := room.inUse - {peer})
  }

  /** `Destroy`: the unconfirmed accesses are dropped. */
  function DestroyRoom(room: Room): (r: Room)
    ensures r == room.(unconfirmed := [])
    ensures forall token :: ValidateAccess(r, token, {}) == NotValidated(r)
  {
    room.(unconfirmed := [])
  }

  // ----- every operation keeps the bookkeeping consistent -----

  lemma GetAccessKeepsConsistent(room: Room, peer: PeerId, now: int)
    requires Consistent(room)
    ensures Consistent(GetAccess(room, peer, now).0)
  {
  }

  lemma {:induction false} PutKeepsDistinct(s: seq<RoomAccess>, a: RoomAccess)
    requires DistinctTokens(s) && DistinctPeers(s)
    requires !HoldsAccess(s, a.peer)
    ensures var r := Put(s, a);
            && DistinctTokens(r) && DistinctPeers(r)
            && (forall i :: 0 <= i < |r| ==> r[i] == a || r[i] in s)
  {
    var r := Put(s, a);
    match IndexOfToken(s, a.token)
    case Some(k) =>
      forall i, j | 0 <= i < j < |r|
        ensures r[i].token != r[j].token && r[i].peer != r[j].peer
      {
        if i == k {
          assert s[j].peer != a.peer;
        } else if j == k {
          assert s[i].peer != a.peer;
        }
      }
    case None =>
      forall i, j | 0 <= i < j < |r|
        ensures r[i].token != r[j].token && r[i].peer != r[j].peer
      {
        if j == |s| {
          assert s[i].peer != a.peer;
        }
      }
  }

  lemma OnAccessAnswerKeepsConsistent(room: Room, peer: PeerId, answer: OwnerAnswer, now: int)
    requires Consistent(room) && peer in room.requestsInProgress
    ensures Consistent(OnAccessAnswer(room, peer, answer, now).0)
  {
    if answer.OwnerGranted? {
      var a := RoomAccess(answer.token, peer, now + room.options.accessTimeoutPeriod);
      PutKeepsDistinct(room.unconfirmed, a);
    }
  }

  lemma ValidateAccessKeepsConsistent(room: Room, token: string, connected: set<PeerId>)
    requires Consistent(room)
    ensures Consistent(ValidateAccess(room, token, connected).room)
  {
    match IndexOfToken(room.unconfirmed, token)
    case None =>
    case Some(i) =>
      var s := room.unconfirmed;
      var r := RemoveAt(s, i);
      assert forall k :: 0 <= k < |r| ==> r[k] == s[if k < i then k else k + 1];
      assert forall k :: 0 <= k < |r| ==> r[k].peer != s[i].peer;
  }

  lemma {:induction false} UnexpiredKeepsDistinct(s: seq<RoomAccess>, now: int)
    requires DistinctTokens(s) && DistinctPeers(s)
    ensures DistinctTokens(Unexpired(s, now)) && DistinctPeers(Unexpired(s, now))
  {
    if |s| > 0 {
      UnexpiredKeepsDistinct(s[1..], now);
      var rest := Unexpired(s[1..], now);
      if !(s[0].timeout < now) {
        var r := [s[0]] + rest;
        forall j | 0 < j < |r|
          ensures r[0].token != r[j].token && r[0].peer != r[j].peer
        {
          assert r[j] in s[1..];
          var k :| 0 <= k < |s[1..]| && s[1..][k] == r[j];
          assert s[k + 1] == r[j];
        }
        forall i, j | 0 < i < j < |r|
          ensures r[i].token != r[j].token && r[i].peer != r[j].peer
        {
          assert r[i] == rest[i - 1] && r[j] == rest[j - 1];
        }
      }
    }
  }

  lemma ClearTimedOutKeepsConsistent(room: Room, now: int)
    requires Consistent(room)
    ensures Consistent(ClearTimedOutAccesses(room, now))
  {
    UnexpiredKeepsDistinct(room.unconfirmed, now);
    var r := ClearTimedOutAccesses(room, now);
    forall i | 0 <= i < |r.unconfirmed|
      ensures r.unconfirmed[i].peer !in room.inUse && r.unconfirmed[i].peer !in room.requestsInProgress
    {
      assert r.unconfirmed[i] in room.unconfirmed;
    }
  }

  /** In a consistent room, validating an access never raises: the holder of an unconfirmed access is never in use. */
  lemma ValidateNeverThrows(room: Room, token: string, connected: set<PeerId>)
    requires Consistent(room)
    ensures !ValidateAccess(room, token, connected).Threw?
  {
  }

  /**
   * With the guard as written, a player can obtain and validate a second
   * access while its first is in use, and the second validation raises.
   */
  lemma SecondAccessThrowsAsWritten()
    ensures var opts := RoomOptions(true, 0, "r", "", "127.0.0.1", 1, true, 10, map[]);
            var r0 := NewRoom(0, 100, opts);
            var (r1, a1) := GetAccessAsWritten(r0, 7, 0);
            var (r2, a2) := OnAccessAnswer(r1, 7, OwnerGranted("first"), 0);
            var v1 := ValidateAccess(r2, "first", {7});
            var (r4, a4) := GetAccessAsWritten(v1.room, 7, 1);
            var (r5, a5) := OnAccessAnswer(r4, 7, OwnerGranted("second"), 1);
            && a1 == Asked && v1.Validated? && a4 == Asked
            && ValidateAccess(r5, "second", {7}).Threw?
  {
    var opts := RoomOptions(true, 0, "r", "", "127.0.0.1", 1, true, 10, map[]);
    var r0 := NewRoom(0, 100, opts);
    assert IndexOfPeer(r0.unconfirmed, 7).None?;
    var (r1, a1) := GetAccessAsWritten(r0, 7, 0);
    var (r2, a2) := OnAccessAnswer(r1, 7, OwnerGranted("first"), 0);
    assert r2.unconfirmed == [RoomAccess("first", 7, 10)];
    assert IndexOfToken(r2.unconfirmed, "first") == Some(0);
    var v1 := ValidateAccess(r2, "first", {7});
    assert v1.room.unconfirmed == [] && v1.room.players == {};
    assert IndexOfPeer(v1.room.unconfirmed, 7).None?;
    var (r4, a4) := GetAccessAsWritten(v1.room, 7, 1);
    var (r5, a5) := OnAccessAnswer(r4, 7, OwnerGranted("second"), 1);
    assert r5.unconfirmed == [RoomAccess("second", 7, 11)];
    assert IndexOfToken(r5.unconfirmed, "second") == Some(0);
  }

  /** With the corrected guard, a player already in the room is refused a second access. */
  lemma SecondAccessRefused(room: Room, peer: PeerId, now: int)
    requires peer in room.inUse
    ensures GetAccess(room, peer, now).1.Refused?
  {
  }
}

=== FILE: rooms_plugin.dfy ===
/**
 * `RoomsPlugin`: the registry of rooms registered by game servers, kept both
 * globally and per owning peer, and the request handlers, most of which
 * only the room's owner may use.
 */
module RoomRegistry {
  import opened Wrappers
  import opened Messaging
  import opened Strings
  import opened Rooms

  /**
   * The plugin's state. `peerRooms` is the per-peer dictionary kept as a
   * peer property; a peer is a key once it has registered a room.
   */
  datatype RoomsPlugin = RoomsPlugin(
    rooms: map<int, Room>,
    peerRooms: map<PeerId, set<int>>,
    nextRoomId: int,
    registerRoomPermissionLevel: int)

  const Initial: RoomsPlugin := RoomsPlugin(map[], map[], 0, 0)

  /** Rooms sit under their own ids, below the counter, and the global and per-peer maps agree. */
  ghost predicate Valid(p: RoomsPlugin)
  {
    && (forall k :: k in p.rooms ==> p.rooms[k].roomId == k && k < p.nextRoomId)
    && (forall k :: k in p.rooms ==> p.rooms[k].owner in p.peerRooms && k in p.peerRooms[p.rooms[k].owner])
    && (forall peer, k :: peer in p.peerRooms && k in p.peerRooms[peer] ==> k in p.rooms && p.rooms[k].owner == peer)
  }

  lemma InitialIsValid()
    ensures Valid(Initial)
  {
  }

  /**
   * `RegisterRoom`: a room under a freshly generated id, added to the owner's
   * rooms and to all rooms.
   */
  function RegisterRoom(p: RoomsPlugin, peer: PeerId, options: RoomOptions): (r: (RoomsPlugin, int))
    ensures r.1 == p.nextRoomId && r.0.nextRoomId == p.nextRoomId + 1
    ensures r.0.rooms == p.rooms[r.1 := NewRoom(r.1, peer, options)]
    ensures peer in r.0.peerRooms && r.0.peerRooms[peer] == (if peer in p.peerRooms then p.peerRooms[peer] else {}) + {r.1}
    ensures forall q :: q in p.peerRooms && q != peer ==> q in r.0.peerRooms && r.0.peerRooms[q] == p.peerRooms[q]
    ensures Valid(p) ==> Valid(r.0) && r.1 !in p.rooms
  {
    var id := p.nextRoomId;
    var mine := if peer in p.peerRooms then p.peerRooms[peer] else {};
    assert Valid(p) ==> id !in p.rooms && forall k :: k in mine ==> k in p.rooms && p.rooms[k].owner == peer;
    (p.(rooms := p.rooms[id := NewRoom(id, peer, options)],
        peerRooms := p.peerRooms[peer := mine + {id}],
        nextRoomId := id + 1), id)
  }

  /** `DestroyRoom`: the room leaves its owner's rooms and all rooms. */
  function DestroyRoom(p: RoomsPlugin, id: int): (r: RoomsPlugin)
    requires id in p.rooms
    ensures r.rooms == p.rooms - {id}
    ensures var owner := p.rooms[id].owner;
            && (owner in p.peerRooms ==> owner in r.peerRooms && r.peerRooms[owner] == p.peerRooms[owner] - {id})
            && (forall q :: q in p.peerRooms && q != owner ==> q in r.peerRooms && r.peerRooms[q] == p.peerRooms[q])
    ensures r.peerRooms.Keys == p.peerRooms.Keys && r.nextRoomId == p.nextRoomId
    ensures Valid(p) ==> Valid(r)
  {
    var owner := p.rooms[id].owner;
    var pr := if owner in p.peerRooms then p.peerRooms[owner := p.peerRooms[owner] - {id}] else p.peerRooms;
    p.(rooms := p.rooms - {id}, peerRooms := pr)
  }

  /**
   * `OnRegisteredPeerDisconnect`: every room the peer registered is
   * destroyed, one by one; the other peers' rooms stay.
   */
  method OnRegisteredPeerDisconnect(p: RoomsPlugin, peer: PeerId) returns (r: RoomsPlugin)
    requires Valid(p)
    ensures Valid(r)
    ensures forall k :: k in r.rooms ==> r.rooms[k].owner != peer
    ensures forall k :: k in p.rooms && p.rooms[k].owner != peer ==> k in r.rooms && r.rooms[k] == p.rooms[k]
    ensures forall k :: k in r.rooms ==> k in p.rooms && r.rooms[k] == p.rooms[k]
  {
    r := p;
    if peer !in p.peerRooms {
      return;
    }
    var todo := p.peerRooms[peer];
    while todo != {}
      invariant Valid(r)
      invariant forall k :: k in r.rooms ==> k in p.rooms && r.rooms[k] == p.rooms[k]
      invariant peer in r.peerRooms && r.peerRooms[peer] == todo
      invariant forall k :: k in p.rooms && p.rooms[k].owner != peer ==> k in r.rooms && r.rooms[k] == p.rooms[k]
      decreases todo
    {
      assert (forall k :: k !in todo) ==> todo == {};
      var k :| k in todo;
      r := DestroyRoom(r, k);
      todo := todo - {k};
    }
  }

  /** The guards of the owner-only handlers: the room must exist and the caller must own it. */
  function OwnerRefusal(p: RoomsPlugin, caller: PeerId, id: int): (e: Option<Reply>)
    ensures e == Some(Refuse(Failed, "Room does not exist")) <==> id !in p.rooms
    ensures e == Some(Refuse(Unauthorized, "You're not the creator of the room")) <==> id in p.rooms && p.rooms[id].owner != caller
    ensures e.None? <==> id in p.rooms && p.rooms[id].owner == caller
  {
    if id !in p.rooms then Some(Refuse(Failed, "Room does not exist"))
    else if p.rooms[id].owner != caller then Some(Refuse(Unauthorized, "You're not the creator of the room"))
    else Option.None
  }

  /** `HandleRegisterRoom`: permission first, then the room's id. */
  function HandleRegisterRoom(p: RoomsPlugin, caller: PeerId, level: int, options: RoomOptions): (r: (Reply, RoomsPlugin))
    ensures level < p.registerRoomPermissionLevel ==> r == (Refuse(Unauthorized, "Insufficient permissions"), p)
    ensures level >= p.registerRoomPermissionLevel ==>
      r.0 == Reply(Success, Number(p.nextRoomId)) && p.nextRoomId in r.1.rooms && r.1.rooms[p.nextRoomId].owner == caller
  {
    if level < p.registerRoomPermissionLevel then (Refuse(Unauthorized, "Insufficient permissions"), p)
    else
      var (p', id) := RegisterRoom(p, caller, options);
      (Reply(Success, Number(id)), p')
  }

  /** `HandleDestroyRoom`. */
  function HandleDestroyRoom(p: RoomsPlugin, caller: PeerId, id: int): (r: (Reply, RoomsPlugin))
    ensures OwnerRefusal(p, caller, id).Some? ==> r == (OwnerRefusal(p, caller, id).value, p)
    ensures OwnerRefusal(p, caller, id).None? ==> r == (Reply(Success, Empty), DestroyRoom(p, id))
    ensures r.0.status == Success <==> id in p.rooms && p.rooms[id].owner == caller
  {
    match OwnerRefusal(p, caller, id)
    case Some(e) => (e, p)
    case None => (Reply(Success, Empty), DestroyRoom(p, id))
  }

  /**
   * `HandleValidateRoomAccess`: the owner confirms a token; the reply names
   * the admitted player. When the validation raises, no reply is sent.
   */
  function HandleValidateRoomAccess(p: RoomsPlugin, caller: PeerId, id: int, token: string, connected: set<PeerId>): (r: (Option<Reply>, RoomsPlugin))
    ensures OwnerRefusal(p, caller, id).Some? ==> r == (OwnerRefusal(p, caller, id), p)
    ensures OwnerRefusal(p, caller, id).None? ==>
      var v := ValidateAccess(p.rooms[id], token, connected);
      && r.1 == p.(rooms := p.rooms[id := v.room])
      && (v.NotValidated? ==> r.0 == Some(Refuse(Unauthorized, "Failed to confirm the access")))
      && (v.Validated? ==> r.0 == Some(Reply(Success, Number(v.player))))
      && (v.Threw? ==> r.0.None?)
  {
    match OwnerRefusal(p, caller, id)
    case Some(e) => (Some(e), p)
    case None =>
      var v := ValidateAccess(p.rooms[id], token, connected);
      var p' := p.(rooms := p.rooms[id := v.room]);
      match v
      case Validated(_, player) => (Some(Reply(Success, Number(player))), p')
      case NotValidated(_) => (Some(Refuse(Unauthorized, "Failed to confirm the access")), p')
      case Threw(_) => (Option.None, p')
  }

  /** `HandleSaveRoomOptions`: the owner replaces the options as given. */
  function HandleSaveRoomOptions(p: RoomsPlugin, caller: PeerId, id: int, options: RoomOptions): (r: (Reply, RoomsPlugin))
    ensures OwnerRefusal(p, caller, id).Some? ==> r == (OwnerRefusal(p, caller, id).value, p)
    ensures OwnerRefusal(p, caller, id).None? ==>
      r.0 == Reply(Success, Empty) && r.1 == p.(rooms := p.rooms[id := p.rooms[id].(options := options)])
  {
    match OwnerRefusal(p, caller, id)
    case Some(e) => (e, p)
    case None => (Reply(Success, Empty), p.(rooms := p.rooms[id := p.rooms[id].(options := options)]))
  }

  /** `HandlePlayerLeftRoom`: the owner reports a player gone. */
  function HandlePlayerLeftRoom(p: RoomsPlugin, caller: PeerId, id: int, player: PeerId): (r: (Reply, RoomsPlugin))
    ensures OwnerRefusal(p, caller, id).Some? ==> r == (OwnerRefusal(p, caller, id).value, p)
    ensures OwnerRefusal(p, caller, id).None? ==>
      r.0 == Reply(Success, Empty) && r.1 == p.(rooms := p.rooms[id := OnPlayerLeft(p.rooms[id], player)])
  {
    match OwnerRefusal(p, caller, id)
    case Some(e) => (e, p)
    case None => (Reply(Success, Empty), p.(rooms := p.rooms[id := OnPlayerLeft(p.rooms[id], player)]))
  }

  /** Whether a room's password lets a request through: an empty password admits any. */
  predicate PasswordAccepted(room: Room, password: string)
  {
    room.options.password == "" || room.options.password == password
  }

  /**
   * `HandleGetRoomAccess`: the room must exist and the password match when
   * one is set; then the room's `GetAccess` decides. A held access is
   * answered at once; a forwarded request gets its answer later
   * (`HandleAccessAnswer`).
   */
  function HandleGetRoomAccess(p: RoomsPlugin, caller: PeerId, id: int, password: string, now: int): (r: (Option<Reply>, RoomsPlugin))
    ensures id !in p.rooms ==> r == (Some(Refuse(Failed, "Room does not exist")), p)
    ensures r.0 == Some(Refuse(Unauthorized, "Invalid password")) <==> id in p.rooms && !PasswordAccepted(p.rooms[id], password)
    ensures id in p.rooms && PasswordAccepted(p.rooms[id], password) ==>
      var (room', answer) := GetAccess(p.rooms[id], caller, now);
      && r.1 == p.(rooms := p.rooms[id := room'])
      && (answer.Refused? ==> r.0 == Some(Refuse(Unauthorized, answer.error)))
      && (answer.Granted? ==> r.0 == Some(Reply(Success, Text(answer.token))))
      && (answer.Asked? ==> r.0.None?)
  {
    if id !in p.rooms then (Some(Refuse(Failed, "Room does not exist")), p)
    else if !PasswordAccepted(p.rooms[id], password) then (Some(Refuse(Unauthorized, "Invalid password")), p)
    else
      var (room', answer) := GetAccess(p.rooms[id], caller, now);
      var p' := p.(rooms := p.rooms[id := room']);
      match answer
      case Refused(e) =>
        // The room's own refusals never read "Invalid password": that text is the password check's.
        assert e != "Invalid password";
        (Some(Refuse(Unauthorized, e)), p')
      case Granted(token) => (Some(Reply(Success, Text(token))), p')
      case Asked => (Option.None, p')
  }

  /** The reply the requester gets for an owner's answer. */
  function AnswerReply(answer: OwnerAnswer): Reply
  {
    match answer
    case OwnerGranted(token) => Reply(Success, Text(token))
    case OwnerRefused(_, message) => Refuse(Unauthorized, message.GetOr("Unknown Error"))
  }

  /**
   * The owner's answer to a forwarded access request, passed on to the
   * requester. The answer's callback holds the room and the request, so a
   * room destroyed in the meantime still answers; only the registry is
   * left as it is.
   */
  function HandleAccessAnswer(p: RoomsPlugin, id: int, requester: PeerId, answer: OwnerAnswer, now: int): (r: (Option<Reply>, RoomsPlugin))
    ensures answer.OwnerGranted? ==> r.0 == Some(Reply(Success, Text(answer.token)))
    ensures answer.OwnerRefused? ==> r.0 == Some(Refuse(Unauthorized, answer.message.GetOr("Unknown Error")))
    ensures id !in p.rooms ==> r.1 == p
    ensures id in p.rooms ==> r.1 == p.(rooms := p.rooms[id := OnAccessAnswer(p.rooms[id], requester, answer, now).0])
  {
    if id !in p.rooms then (Some(AnswerReply(answer)), p)
    else
      var (room', a) := OnAccessAnswer(p.rooms[id], requester, answer, now);
      var reply := if a.Granted? then Reply(Success, Text(a.token)) else Refuse(Unauthorized, a.error);
      (Some(reply), p.(rooms := p.rooms[id := room']))
  }

  /** The public listing of one room. */
  function GameInfoOf(room: Room): (g: GameInfo)
    ensures g.id == room.roomId && g.kind == RoomGame
    ensures g.isPasswordProtected <==> room.options.password != ""
    ensures g.onlinePlayers == OnlineCount(room) && g.maxPlayers == room.options.maxPlayers
    ensures g.address == room.options.roomIp + ":" + IntToString(room.options.roomPort)
  {
    GameInfo(room.options.roomIp + ":" + IntToString(room.options.roomPort), room.roomId,
             room.options.password != "", room.options.maxPlayers, room.options.name,
             OnlineCount(room), room.options.properties, RoomGame)
  }

  /** `GetPublicGames`: the public rooms only, keyed by room id. */
  function GetPublicGames(p: RoomsPlugin): (games: map<int, GameInfo>)
    ensures forall k :: k in games <==> k in p.rooms && p.rooms[k].options.isPublic
    ensures forall k :: k in games ==> games[k] == GameInfoOf(p.rooms[k])
  {
    map k | k in p.rooms && p.rooms[k].options.isPublic :: GameInfoOf(p.rooms[k])
  }

  /**
   * A room registered with its public-key property set is listed exactly
   * when the property reads as true; any letter casing of "true", with
   * white space around it, lists it.
   */
  lemma PublicPropertyDecidesListing(p: RoomsPlugin, peer: PeerId, options: RoomOptions, pre: string, w: string, post: string)
    requires IsPublicKey in options.properties
    ensures var (p', id) := RegisterRoom(p, peer, options);
            id in GetPublicGames(p') <==> ParseBool(options.properties[IsPublicKey])
    ensures AllSpace(pre) && AllSpace(post) && ToLower(w) == "true" && options.properties[IsPublicKey] == pre + w + post ==>
      var (p', id) := RegisterRoom(p, peer, options);
      id in GetPublicGames(p')
  {
    var (p', id) := RegisterRoom(p, peer, options);
    assert p'.rooms[id].options == OverrideOptionsWithProperties(options);
    if AllSpace(pre) && AllSpace(post) && ToLower(w) == "true" && options.properties[IsPublicKey] == pre + w + post {
      ParseBoolReadsTrue(pre, w, post);
    }
  }

  /**
   * The listing's password flag tells the truth: an unprotected room never
   * answers "Invalid password", and a protected one refuses every other
   * password.
   */
  lemma ListingMatchesPasswordCheck(p: RoomsPlugin, id: int, caller: PeerId, password: string, now: int)
    requires id in GetPublicGames(p)
    ensures !GetPublicGames(p)[id].isPasswordProtected ==>
      HandleGetRoomAccess(p, caller, id, password, now).0 != Some(Refuse(Unauthorized, "Invalid password"))
    ensures GetPublicGames(p)[id].isPasswordProtected && password != p.rooms[id].options.password ==>
      HandleGetRoomAccess(p, caller, id, password, now).0 == Some(Refuse(Unauthorized, "Invalid password"))
  {
  }

  /** A disconnecting owner's rooms disappear from the listing; everyone else's stay as they were. */
  method DisconnectClearsListing(p: RoomsPlugin, peer: PeerId) returns (games: map<int, GameInfo>)
    requires Valid(p)
    ensures forall k :: k in games ==> k in GetPublicGames(p) && p.rooms[k].owner != peer && games[k] == GetPublicGames(p)[k]
    ensures forall k :: k in GetPublicGames(p) && p.rooms[k].owner != peer ==> k in games
  {
    var r := OnRegisteredPeerDisconnect(p, peer);
    games := GetPublicGames(r);
  }
}

=== FILE: rule_validator.dfy ===
/**
 * `RuleBasedValidator`: an ordered list of rules checked against an
 * object. A boolean rule fails with its message; a complex rule passes
 * unless it throws, and then its own exception is what `Validate` throws.
 * The exception `Validate` raises is its result here (`Some(message)`);
 * `None` means it returned normally.
 */
module Validation {
  import opened Wrappers

  /** The message of a boolean rule added without one. */
  const DefaultMessage := "Validation failed."

  datatype Rule<-T> =
    | BooleanRule(message: string, test: T -> bool)
      /** A complex rule: `Some(m)` when it throws a validation exception with message `m`. */
    | ComplexRule(check: T -> Option<string>)

  datatype Validator<-T> = Validator(rules: seq<Rule<T>>)

  function NewValidator<T>(): (v: Validator<T>)
    ensures v.rules == []
  {
    Validator([])
  }

  /** `AddRule(rule)`: a boolean rule with the default message. */
  function AddBooleanRule<T>(v: Validator<T>, test: T -> bool): (r: Validator<T>)
    ensures r.rules == v.rules + [BooleanRule(DefaultMessage, test)]
  {
    AddNamedRule(v, test, DefaultMessage)
  }

  /** `AddRule(rule, message)`: appended, so it is checked after every earlier rule. */
  function AddNamedRule<T>(v: Validator<T>, test: T -> bool, message: string): (r: Validator<T>)
    ensures |r.rules| == |v.rules| + 1 && r.rules[..|v.rules|] == v.rules
    ensures r.rules[|v.rules|] == BooleanRule(message, test)
  {
    Validator(v.rules + [BooleanRule(message, test)])
  }

  /** `AddRule(complexRule)`. */
  function AddComplexRule<T>(v: Validator<T>, check: T -> Option<string>): (r: Validator<T>)
    ensures |r.rules| == |v.rules| + 1 && r.rules[..|v.rules|] == v.rules
    ensures r.rules[|v.rules|] == ComplexRule(check)
  {
    Validator(v.rules + [ComplexRule(check)])
  }

  /** What one rule throws on `obj`, if anything. */
  function Outcome<T>(rule: Rule<T>, obj: T): Option<string>
  {
    match rule
    case BooleanRule(message, test) => if test(obj) then Option.None else Some(message)
    case ComplexRule(check) => check(obj)
  }

  /** `Validate`: the rules in insertion order; the first one that fails decides the exception. */
  function Check<T>(rules: seq<Rule<T>>, obj: T): (r: Option<string>)
    ensures r.None? <==> forall i :: 0 <= i < |rules| ==> Outcome(rules[i], obj).None?
    ensures r.Some? ==> exists i :: 0 <= i < |rules| && r == Outcome(rules[i], obj)
                          && forall j :: 0 <= j < i ==> Outcome(rules[j], obj).None?
    decreases |rules|
  {
    if |rules| == 0 then Option.None
    else if Outcome(rules[0], obj).Some? then Outcome(rules[0], obj)
    else
      var r := Check(rules[1..], obj);
      assert forall i :: 1 <= i < |rules| ==> rules[i] == rules[1..][i - 1];
      r
  }

  function Validate<T>(v: Validator<T>, obj: T): (r: Option<string>)
    ensures v.rules == [] ==> r.None?
  {
    Check(v.rules, obj)
  }

  /** Validating against more rules: the earlier rules' exception, if any, else the later ones'. */
  lemma {:induction false} CheckAppend<T>(a: seq<Rule<T>>, b: seq<Rule<T>>, obj: T)
    ensures Check(a + b, obj) == (if Check(a, obj).Some? then Check(a, obj) else Check(b, obj))
    decreases |a|
  {
    if |a| == 0 {
      assert a + b == b;
    } else {
      assert (a + b)[0] == a[0];
      assert (a + b)[1..] == a[1..] + b;
      CheckAppend(a[1..], b, obj);
    }
  }

  /** An unnamed boolean rule that fails is reported as "Validation failed.", once every earlier rule passes. */
  lemma UnnamedRuleMessage<T>(v: Validator<T>, test: T -> bool, obj: T)
    requires Validate(v, obj).None? && !test(obj)
    ensures Validate(AddBooleanRule(v, test), obj) == Some(DefaultMessage)
  {
    CheckAppend(v.rules, [BooleanRule(DefaultMessage, test)], obj);
  }

  /** A complex rule that does not throw never fails validation. */
  lemma ComplexRulePasses<T>(v: Validator<T>, check: T -> Option<string>, obj: T)
    requires check(obj).None?
    ensures Validate(AddComplexRule(v, check), obj) == Validate(v, obj)
  {
    CheckAppend(v.rules, [ComplexRule(check)], obj);
  }
}

=== FILE: spawn_task.dfy ===
/**
 * A spawn request and the life cycle of its status, from the request to a
 * finalized game server or an abort. Status listeners and "when done"
 * callbacks are not invoked here: an update returns the statuses it
 * announced and the callbacks it fired, in order.
 */
module SpawnTasks {
  import opened Wrappers
  import opened Messaging

  /**
   * The statuses of a spawn task. The order matters: everything below `None`
   * means the task was aborted or its process killed, everything from
   * `WaitingForProcess` up means the process has started.
   */
  datatype SpawnStatus =
    | Killed | Aborted | Aborting | None
    | InQueue | StartingProcess | WaitingForProcess | ProcessRegistered | Finalized

  /** The numeric value of each status, as the enumeration declares it. */
  function Rank(s: SpawnStatus): int
  {
    match s
    case Killed => -3
    case Aborted => -2
    case Aborting => -1
    case None => 0
    case InQueue => 1
    case StartingProcess => 2
    case WaitingForProcess => 3
    case ProcessRegistered => 4
    case Finalized => 5
  }

  /** A "when done" callback, known only by its identity. */
  type CallbackId = nat

  datatype SpawnTask = SpawnTask(
    spawnId: int,
    spawnerId: int,
    properties: map<string, string>,
    customArgs: string,
    uniqueCode: string,
    status: SpawnStatus,
    registeredPeer: Option<PeerId>,
    requester: Option<PeerId>,
    finalization: Option<map<string, string>>,
    whenDone: seq<CallbackId>)

  /**
   * The effect of one operation: the new task, the statuses announced to the
   * status listeners, the callbacks fired, and whether a kill request went to
   * the spawner.
   */
  datatype Update = Update(task: SpawnTask, announced: seq<SpawnStatus>, fired: seq<CallbackId>, killRequested: bool)

  /**
   * A fresh task. The unique code is six random characters in the server;
   * here it is a parameter.
   */
  function NewSpawnTask(spawnId: int, spawnerId: int, properties: map<string, string>, customArgs: string, uniqueCode: string): (t: SpawnTask)
    ensures t.status == SpawnStatus.None && t.whenDone == []
    ensures t.registeredPeer.None? && t.requester.None? && t.finalization.None?
  {
    SpawnTask(spawnId, spawnerId, properties, customArgs, uniqueCode, SpawnStatus.None, Option.None, Option.None, Option.None, [])
  }

  predicate IsAborted(t: SpawnTask) { Rank(t.status) < Rank(SpawnStatus.None) }

  predicate IsProcessStarted(t: SpawnTask) { Rank(t.status) >= Rank(WaitingForProcess) }

  predicate IsDoneStartingProcess(t: SpawnTask) { IsAborted(t) || IsProcessStarted(t) }

  /** Statuses that release the "when done" callbacks. */
  predicate IsDoneStatus(s: SpawnStatus) { Rank(s) >= Rank(Finalized) || Rank(s) < Rank(SpawnStatus.None) }

  /** A task is aborted exactly when its status is one of the three below `None`. */
  lemma AbortedStatuses(t: SpawnTask)
    ensures IsAborted(t) <==> t.status in {Killed, Aborted, Aborting}
  {
  }

  /** The statuses at which a task no longer waits for its process to start. */
  lemma DoneStartingStatuses(t: SpawnTask)
    ensures IsDoneStartingProcess(t) <==>
      t.status in {Killed, Aborted, Aborting, WaitingForProcess, ProcessRegistered, Finalized}
  {
  }

  function Unchanged(t: SpawnTask): Update
  {
    Update(t, [], [], false)
  }

  /**
   * The `Status` setter: stores the status, announces it, and on a done
   * status fires every pending callback once and forgets them.
   */
  function SetStatus(t: SpawnTask, s: SpawnStatus): (u: Update)
    ensures u.task.status == s && u.announced == [s] && !u.killRequested
    ensures u.fired + u.task.whenDone == t.whenDone
    ensures IsDoneStatus(s) ==> u.task.whenDone == []
    ensures !IsDoneStatus(s) ==> u.fired == []
  {
    if IsDoneStatus(s) then Update(t.(status := s, whenDone := []), [s], t.whenDone, false)
    else Update(t.(status := s), [s], [], false)
  }

  /** The spawner reports the process started: move up to `WaitingForProcess`. */
  function OnProcessStarted(t: SpawnTask): (u: Update)
    ensures Rank(u.task.status) >= Rank(t.status)
    ensures IsAborted(t) ==> u == Unchanged(t)
    ensures !IsAborted(t) ==> IsProcessStarted(u.task)
  {
    if !IsAborted(t) && Rank(t.status) < Rank(WaitingForProcess) then SetStatus(t, WaitingForProcess)
    else Unchanged(t)
  }

  /** The spawner reports the process died. */
  function OnProcessKilled(t: SpawnTask): (u: Update)
    ensures u.task.status == Killed && IsAborted(u.task)
  {
    SetStatus(t, Killed)
  }

  /** The spawned process registered itself from `peer`. */
  function OnRegistered(t: SpawnTask, peer: PeerId): (u: Update)
    ensures u.task.registeredPeer == Some(peer)
    ensures Rank(u.task.status) >= Rank(t.status)
    ensures IsAborted(t) ==> u.task.status == t.status && u.announced == []
    ensures !IsAborted(t) ==> Rank(u.task.status) >= Rank(ProcessRegistered)
  {
    var t' := t.(registeredPeer := Some(peer));
    if !IsAborted(t') && Rank(t'.status) < Rank(ProcessRegistered) then SetStatus(t', ProcessRegistered)
    else Unchanged(t')
  }

  /** The spawned process reported its completion data. */
  function OnFinalized(t: SpawnTask, data: map<string, string>): (u: Update)
    ensures u.task.finalization == Some(data)
    ensures Rank(u.task.status) >= Rank(t.status)
    ensures IsAborted(t) ==> u.task.status == t.status && u.announced == []
    ensures !IsAborted(t) ==> u.task.status == Finalized
  {
    var t' := t.(finalization := Some(data));
    if !IsAborted(t') && Rank(t'.status) < Rank(Finalized) then SetStatus(t', Finalized)
    else Unchanged(t')
  }

  /** `WhenDone`: queue a callback for the next done status. */
  function WhenDone(t: SpawnTask, cb: CallbackId): (u: Update)
    ensures u.task.whenDone == t.whenDone + [cb] && u.task.status == t.status
  {
    Update(t.(whenDone := t.whenDone + [cb]), [], [], false)
  }

  /**
   * `Abort`: a finalized task is left alone; any other task becomes
   * `Aborting` and a kill request goes to its spawner.
   */
  function Abort(t: SpawnTask): (u: Update)
    ensures Rank(t.status) >= Rank(Finalized) ==> u == Unchanged(t)
    ensures Rank(t.status) < Rank(Finalized) ==>
      u.task.status == Aborting && u.killRequested && u.task.whenDone == []
  {
    if Rank(t.status) >= Rank(Finalized) then Unchanged(t)
    else SetStatus(t, Aborting).(killRequested := true)
  }

  /** The spawner answered a kill request: the task is aborted, killed or not. */
  function OnKillAnswered(t: SpawnTask, killed: bool): (u: Update)
    ensures u.task.status == Aborted
  {
    SetStatus(t, Aborted)
  }

  /** Everything that can happen to a task, for reasoning about runs. */
  datatype TaskEvent =
    | ProcessStarted
    | ProcessKilled
    | Registered(peer: PeerId)
    | FinalizationReceived(data: map<string, string>)
    | AbortRequested
    | KillAnswered(killed: bool)
    | AddWhenDone(cb: CallbackId)

  function Apply(t: SpawnTask, e: TaskEvent): Update
  {
    match e
    case ProcessStarted => OnProcessStarted(t)
    case ProcessKilled => OnProcessKilled(t)
    case Registered(p) => OnRegistered(t, p)
    case FinalizationReceived(d) => OnFinalized(t, d)
    case AbortRequested => Abort(t)
    case KillAnswered(k) => OnKillAnswered(t, k)
    case AddWhenDone(cb) => WhenDone(t, cb)
  }

  /** Every callback fired and still pending at the end of a run, in order. */
  function Run(t: SpawnTask, events: seq<TaskEvent>): (r: (SpawnTask, seq<CallbackId>))
    decreases |events|
  {
    if |events| == 0 then (t, [])
    else
      var u := Apply(t, events[0]);
      var rest := Run(u.task, events[1..]);
      (rest.0, u.fired + rest.1)
  }

  /** The callbacks a run of events registers, in order. */
  function Registrations(events: seq<TaskEvent>): seq<CallbackId>
  {
    if |events| == 0 then []
    else (if events[0].AddWhenDone? then [events[0].cb] else []) + Registrations(events[1..])
  }

  /** One event neither loses nor duplicates a callback. */
  lemma ApplyConservesCallbacks(t: SpawnTask, e: TaskEvent)
    ensures Apply(t, e).fired + Apply(t, e).task.whenDone ==
      t.whenDone + (if e.AddWhenDone? then [e.cb] else [])
  {
  }

  /**
   * Over any run, the callbacks fired followed by those still pending are
   * exactly the callbacks pending at the start followed by those registered:
   * each callback is fired at most once, in registration order.
   */
  lemma {:induction false} RunConservesCallbacks(t: SpawnTask, events: seq<TaskEvent>)
    ensures Run(t, events).1 + Run(t, events).0.whenDone == t.whenDone + Registrations(events)
    decreases |events|
  {
    if |events| > 0 {
      var u := Apply(t, events[0]);
      var rest := Run(u.task, events[1..]);
      var reg := if events[0].AddWhenDone? then [events[0].cb] else [];
      assert Run(t, events) == (rest.0, u.fired + rest.1);
      assert Registrations(events) == reg + Registrations(events[1..]);
      ApplyConservesCallbacks(t, events[0]);
      assert u.fired + u.task.whenDone == t.whenDone + reg;
      RunConservesCallbacks(u.task, events[1..]);
      assert rest.1 + rest.0.whenDone == u.task.whenDone + Registrations(events[1..]);
      SeqRegroup(u.fired, rest.1, rest.0.whenDone, u.task.whenDone, Registrations(events[1..]), t.whenDone, reg);
    }
  }

  /** Regrouping the two conservation equations of a step into one. */
  lemma SeqRegroup<T>(f: seq<T>, r: seq<T>, w: seq<T>, m: seq<T>, g: seq<T>, t: seq<T>, e: seq<T>)
    requires r + w == m + g && f + m == t + e
    ensures (f + r) + w == t + (e + g)
  {
    calc {
      (f + r) + w;
      f + (r + w);
      f + (m + g);
      (f + m) + g;
      (t + e) + g;
      t + (e + g);
    }
  }

  /**
   * Once finalized, only a killed process or the answer to an earlier kill
   * request moves a task away from `Finalized`.
   */
  lemma FinalizedIsKept(t: SpawnTask, e: TaskEvent)
    requires t.status == Finalized && !e.ProcessKilled? && !e.KillAnswered?
    ensures Apply(t, e).task.status == Finalized
  {
  }
}

=== FILE: spawner_plugin.dfy ===
/**
 * The spawner registry of the master server: spawners registered by peers,
 * the spawn tasks handed to them, and the request handlers that guard both.
 */
module Spawners {
  import opened Wrappers
  import opened Messaging
  import opened SpawnTasks

  /**
   * A registered spawner as the plugin sees it. Its free-slot count and
   * whether it can take another process are computed by the spawner itself,
   * whose code is not part of this model; they are taken as given here.
   */
  datatype RegisteredSpawner = RegisteredSpawner(
    spawnerId: int,
    peer: PeerId,
    region: string,
    freeSlots: int,
    canSpawnAnother: bool,
    queue: seq<int>)

  /**
   * The plugin's state. `peerSpawners` is the per-peer dictionary kept as a
   * peer property (a peer is a key once it has registered a spawner), and
   * `clientRequests` the per-peer "client spawn request" property, by task id.
   */
  datatype SpawnerPlugin = SpawnerPlugin(
    spawners: map<int, RegisteredSpawner>,
    peerSpawners: map<PeerId, set<int>>,
    tasks: map<int, SpawnTask>,
    nextSpawnerId: int,
    nextTaskId: int,
    clientRequests: map<PeerId, int>)

  const Initial: SpawnerPlugin := SpawnerPlugin(map[], map[], map[], 0, 0, map[])

  /** The bookkeeping every operation keeps consistent. */
  predicate Valid(p: SpawnerPlugin)
  {
    && 0 <= p.nextSpawnerId && 0 <= p.nextTaskId
    && (forall k :: k in p.spawners ==> p.spawners[k].spawnerId == k && k < p.nextSpawnerId)
    && (forall k :: k in p.tasks ==> p.tasks[k].spawnId == k && k < p.nextTaskId)
    && (forall k :: k in p.spawners ==>
          p.spawners[k].peer in p.peerSpawners && k in p.peerSpawners[p.spawners[k].peer])
    && (forall peer, k :: peer in p.peerSpawners && k in p.peerSpawners[peer] ==>
          k in p.spawners && p.spawners[k].peer == peer)
    && (forall peer :: peer in p.clientRequests ==> p.clientRequests[peer] in p.tasks)
  }

  lemma EmptyIsValid()
    ensures Valid(Initial)
  {
  }

  /** A spawner passes the region filter of `GetSpawners`: an empty (or null) region accepts all. */
  predicate InRegion(s: RegisteredSpawner, region: string)
  {
    region == "" || s.region == region
  }

  /** `GetSpawners(region)`, as the set of ids of the spawners it lists. */
  function GetSpawners(p: SpawnerPlugin, region: string): (ids: set<int>)
    ensures region == "" ==> ids == p.spawners.Keys
    ensures region != "" ==> forall k :: k in ids <==> k in p.spawners && p.spawners[k].region == region
  {
    set k | k in p.spawners && InRegion(p.spawners[k], region)
  }

  /** A spawner the selection may pick. */
  predicate Eligible(p: SpawnerPlugin, k: int, region: string)
  {
    k in p.spawners && InRegion(p.spawners[k], region) && p.spawners[k].canSpawnAnother
  }

  /**
   * The order of the selection: more free slots first; among equals, the
   * earlier-registered (smaller id) spawner, which is the dictionary's
   * enumeration order as long as no spawner was removed.
   */
  predicate Before(p: SpawnerPlugin, a: int, b: int)
    requires a in p.spawners && b in p.spawners
  {
    p.spawners[a].freeSlots > p.spawners[b].freeSlots
    || (p.spawners[a].freeSlots == p.spawners[b].freeSlots && a < b)
  }

  /**
   * The selection in `Spawn`: the spawners of the region ordered by free
   * slots, then the first that can spawn another process.
   */
  method PickSpawner(p: SpawnerPlugin, region: string) returns (r: Option<int>)
    ensures r.None? <==> forall k :: k in p.spawners ==> !Eligible(p, k, region)
    ensures r.Some? ==> Eligible(p, r.value, region)
    ensures r.Some? ==> forall k :: Eligible(p, k, region) && k != r.value ==> Before(p, r.value, k)
  {
    var remaining := p.spawners.Keys;
    r := Option.None;
    while remaining != {}
      invariant remaining <= p.spawners.Keys
      invariant r.Some? ==> Eligible(p, r.value, region) && r.value !in remaining
      invariant forall k :: k in p.spawners && k !in remaining && Eligible(p, k, region) ==>
        r.Some? && (k == r.value || Before(p, r.value, k))
      decreases remaining
    {
      HasElement(remaining);
      var k :| k in remaining;
      remaining := remaining - {k};
      if Eligible(p, k, region) && (r.None? || Before(p, k, r.value)) {
        r := Some(k);
      }
    }
  }

  /** `GenerateSpawnerId` / `GenerateSpawnTaskId`: post-increment counters. */
  function CreateSpawner(p: SpawnerPlugin, peer: PeerId, region: string, freeSlots: int, canSpawnAnother: bool): (r: (SpawnerPlugin, int))
    ensures Valid(p) ==> Valid(r.0) && r.1 !in p.spawners && r.1 in r.0.spawners
    ensures Valid(p) ==> forall k :: k in p.spawners ==> k < r.1
    ensures peer in r.0.peerSpawners && r.1 in r.0.peerSpawners[peer]
    ensures r.0.spawners == p.spawners[r.1 := RegisteredSpawner(r.1, peer, region, freeSlots, canSpawnAnother, [])]
    ensures r.0.nextSpawnerId > r.1 && r.0.tasks == p.tasks
  {
    var id := p.nextSpawnerId;
    var s := RegisteredSpawner(id, peer, region, freeSlots, canSpawnAnother, []);
    var mine := if peer in p.peerSpawners then p.peerSpawners[peer] else {};
    var q := p.(spawners := p.spawners[id := s],
                peerSpawners := p.peerSpawners[peer := mine + {id}],
                nextSpawnerId := id + 1);
    if Valid(p) then
      assert forall pr, k :: pr in q.peerSpawners && k in q.peerSpawners[pr] ==>
               k in q.spawners && q.spawners[k].peer == pr by {
        forall pr, k | pr in q.peerSpawners && k in q.peerSpawners[pr]
          ensures k in q.spawners && q.spawners[k].peer == pr
        {
          if k != id || pr != peer {
            assert q.peerSpawners[pr] == p.peerSpawners[pr] || (pr == peer && k in mine);
            assert pr in p.peerSpawners && k in p.peerSpawners[pr];
            assert k in p.spawners && p.spawners[k].peer == pr;
          }
        }
      }
      (q, id)
    else
      (q, id)
  }

  /** `DestroySpawner`: forget the spawner in the peer's dictionary and in the global one. */
  function DestroySpawner(p: SpawnerPlugin, id: int): (r: SpawnerPlugin)
    requires id in p.spawners
    ensures id !in r.spawners && r.spawners == p.spawners - {id}
    ensures forall peer :: peer in r.peerSpawners ==> id !in r.peerSpawners[peer] || peer != p.spawners[id].peer
    ensures Valid(p) ==> Valid(r) && forall peer :: peer in r.peerSpawners ==> id !in r.peerSpawners[peer]
    ensures r.tasks == p.tasks
  {
    var peer := p.spawners[id].peer;
    var ps := if peer in p.peerSpawners then p.peerSpawners[peer := p.peerSpawners[peer] - {id}] else p.peerSpawners;
    p.(spawners := p.spawners - {id}, peerSpawners := ps)
  }

  /** A disconnecting peer takes every spawner it registered with it. */
  method OnRegisteredPeerDisconnect(p: SpawnerPlugin, peer: PeerId) returns (r: SpawnerPlugin)
    ensures Valid(p) ==> Valid(r)
    ensures Valid(p) ==> forall k :: k in r.spawners ==> r.spawners[k].peer != peer
    ensures forall k :: k in p.spawners && (peer !in p.peerSpawners || k !in p.peerSpawners[peer]) ==>
      k in r.spawners && r.spawners[k] == p.spawners[k]
    ensures r.spawners.Keys <= p.spawners.Keys && r.tasks == p.tasks
  {
    r := p;
    if peer !in p.peerSpawners {
      return;
    }
    var remaining := p.peerSpawners[peer];
    while remaining != {}
      invariant Valid(p) ==> Valid(r)
      invariant r.tasks == p.tasks && r.spawners.Keys <= p.spawners.Keys
      invariant forall k :: k in p.spawners && k !in p.peerSpawners[peer] ==> k in r.spawners && r.spawners[k] == p.spawners[k]
      invariant Valid(p) ==> forall k :: k in r.spawners && r.spawners[k].peer == peer ==> k in remaining
      decreases remaining
    {
      HasElement(remaining);
      var k :| k in remaining;
      remaining := remaining - {k};
      if k in r.spawners {
        r := DestroySpawner(r, k);
      }
    }
  }

  lemma HasElement(s: set<int>)
    requires s != {}
    ensures exists k :: k in s
  {
    assert (forall k :: k !in s) ==> s == {};
  }

  /**
   * `Spawn(properties, region, customArgs)`: pick a spawner and hand it a new
   * task, or answer `None` when no spawner of the region can take one. The
   * task's unique code is random in the server and a parameter here.
   */
  method Spawn(p: SpawnerPlugin, properties: map<string, string>, region: string, customArgs: string, code: string)
    returns (r: SpawnerPlugin, task: Option<int>)
    ensures task.None? <==> forall k :: k in p.spawners ==> !Eligible(p, k, region)
    ensures task.None? ==> r == p
    ensures task.Some? ==> task.value == p.nextTaskId && task.value in r.tasks
    ensures task.Some? ==> Valid(p) ==> task.value !in p.tasks && forall k :: k in p.tasks ==> k < task.value
    ensures task.Some? ==> r.tasks[task.value].status == SpawnStatus.None
    ensures task.Some? ==> r.tasks[task.value].properties == properties && r.tasks[task.value].customArgs == customArgs
    ensures task.Some? ==> r.tasks == p.tasks[task.value := r.tasks[task.value]]
    ensures task.Some? ==> Eligible(p, r.tasks[task.value].spawnerId, region)
    ensures task.Some? ==> forall k :: Eligible(p, k, region) ==> p.spawners[k].freeSlots <= p.spawners[r.tasks[task.value].spawnerId].freeSlots
    ensures Valid(p) ==> Valid(r)
  {
    var chosen := PickSpawner(p, region);
    if chosen.None? {
      return p, Option.None;
    }
    var sid := chosen.value;
    var id := p.nextTaskId;
    var t := NewSpawnTask(id, sid, properties, customArgs, code);
    var s := p.spawners[sid];
    r := p.(tasks := p.tasks[id := t],
            spawners := p.spawners[sid := s.(queue := s.queue + [id])],
            nextTaskId := id + 1);
    task := Some(id);
  }

  /** The outcome of a request handler: the new state and the reply, if any is sent. */
  datatype Handled = Handled(plugin: SpawnerPlugin, reply: Option<Reply>)

  /** `HandleRegisterSpawner`: a spawner may be registered only with enough permission. */
  function HandleRegisterSpawner(p: SpawnerPlugin, peer: PeerId, permissionLevel: int, requiredLevel: int,
                                 region: string, freeSlots: int, canSpawnAnother: bool): (h: Handled)
    ensures permissionLevel < requiredLevel ==>
      h == Handled(p, Some(Refuse(Unauthorized, "Insufficient permissions")))
    ensures permissionLevel >= requiredLevel ==>
      h.reply == Some(Reply(Success, Number(p.nextSpawnerId))) && p.nextSpawnerId in h.plugin.spawners
    ensures Valid(p) ==> Valid(h.plugin)
  {
    if permissionLevel < requiredLevel then Handled(p, Some(Refuse(Unauthorized, "Insufficient permissions")))
    else
      var (p', id) := CreateSpawner(p, peer, region, freeSlots, canSpawnAnother);
      Handled(p', Some(Reply(Success, Number(id))))
  }

  /** The task a peer asked for earlier, if any. */
  function PreviousRequest(p: SpawnerPlugin, peer: PeerId): Option<SpawnTask>
  {
    if peer in p.clientRequests && p.clientRequests[peer] in p.tasks then Some(p.tasks[p.clientRequests[peer]])
    else Option.None
  }

  /** The peer's previous request has not finished starting its process. */
  predicate HasActiveRequest(p: SpawnerPlugin, peer: PeerId)
  {
    PreviousRequest(p, peer).Some? && !IsDoneStartingProcess(PreviousRequest(p, peer).value)
  }

  /**
   * `HandleClientsSpawnRequest`: refuse when client spawning is disabled or the
   * peer's previous request has not finished starting its process; otherwise
   * spawn, remember the task as the peer's request, and answer its id.
   */
  method HandleClientsSpawnRequest(p: SpawnerPlugin, peer: PeerId, enableClientSpawnRequests: bool,
                                   options: map<string, string>, region: string, code: string)
    returns (h: Handled)
    ensures !enableClientSpawnRequests ==> h == Handled(p, Some(Refuse(Unauthorized, "Unauthorized")))
    ensures enableClientSpawnRequests && PreviousRequest(p, peer).Some? && !IsDoneStartingProcess(PreviousRequest(p, peer).value) ==>
      h == Handled(p, Some(Refuse(Failed, "You already have an active request")))
    ensures h.reply.Some? && h.reply.value.status == Success ==>
      enableClientSpawnRequests && peer in h.plugin.clientRequests
      && h.reply.value == Reply(Success, Number(h.plugin.clientRequests[peer]))
      && h.plugin.clientRequests[peer] in h.plugin.tasks
      && h.plugin.tasks[h.plugin.clientRequests[peer]].requester == Some(peer)
    ensures h.reply.Some? && h.reply.value.status == Failed && h.reply.value.payload == Text("All the servers are busy. Try again later") ==>
      forall k :: k in p.spawners ==> !Eligible(p, k, region)
    ensures h.reply.Some?
    ensures enableClientSpawnRequests && !HasActiveRequest(p, peer) ==>
      (h.reply.value.status == Success <==> exists k :: k in p.spawners && Eligible(p, k, region))
    ensures enableClientSpawnRequests && !HasActiveRequest(p, peer) && (forall k :: k in p.spawners ==> !Eligible(p, k, region)) ==>
      h == Handled(p, Some(Refuse(Failed, "All the servers are busy. Try again later")))
    ensures Valid(p) ==> Valid(h.plugin)
  {
    if !enableClientSpawnRequests {
      return Handled(p, Some(Refuse(Unauthorized, "Unauthorized")));
    }
    var prev := PreviousRequest(p, peer);
    if prev.Some? && !IsDoneStartingProcess(prev.value) {
      return Handled(p, Some(Refuse(Failed, "You already have an active request")));
    }
    var p', task := Spawn(p, options, region, "", code);
    if task.None? {
      return Handled(p, Some(Refuse(Failed, "All the servers are busy. Try again later")));
    }
    var id := task.value;
    var t := p'.tasks[id].(requester := Some(peer));
    h := Handled(p'.(tasks := p'.tasks[id := t], clientRequests := p'.clientRequests[peer := id]),
                 Some(Reply(Success, Number(id))));
  }

  /**
   * `HandleAbortSpawnRequest`. A successful abort sends no reply at all; the
   * client learns of it through the status updates.
   */
  function HandleAbortSpawnRequest(p: SpawnerPlugin, peer: PeerId): (h: Handled)
    ensures PreviousRequest(p, peer).None? ==> h == Handled(p, Some(Refuse(Failed, "There's nothing to abort")))
    ensures PreviousRequest(p, peer).Some? && Rank(PreviousRequest(p, peer).value.status) >= Rank(Finalized) ==>
      h == Handled(p, Some(Refuse(Failed, "You can't abort a completed request")))
    ensures PreviousRequest(p, peer).Some? && Rank(PreviousRequest(p, peer).value.status) <= Rank(SpawnStatus.None) ==>
      h == Handled(p, Some(Refuse(Success, "Already aborting")))
    ensures PreviousRequest(p, peer).Some? && Rank(SpawnStatus.None) < Rank(PreviousRequest(p, peer).value.status) < Rank(Finalized) ==>
      h.reply.None? && p.clientRequests[peer] in h.plugin.tasks && h.plugin.tasks[p.clientRequests[peer]].status == Aborting
    ensures Valid(p) ==> Valid(h.plugin)
  {
    var prev := PreviousRequest(p, peer);
    if prev.None? then Handled(p, Some(Refuse(Failed, "There's nothing to abort")))
    else if Rank(prev.value.status) >= Rank(Finalized) then Handled(p, Some(Refuse(Failed, "You can't abort a completed request")))
    else if Rank(prev.value.status) <= Rank(SpawnStatus.None) then Handled(p, Some(Refuse(Success, "Already aborting")))
    else
      var id := p.clientRequests[peer];
      Handled(p.(tasks := p.tasks[id := Abort(prev.value).task]), Option.None)
  }

  /** `HandleGetCompletionData`: only the requester may read a finalized task's data. */
  function HandleGetCompletionData(p: SpawnerPlugin, peer: PeerId, spawnId: int): (h: Handled)
    ensures h.plugin == p
    ensures spawnId !in p.tasks ==> h.reply == Some(Refuse(Failed, "Invalid request"))
    ensures spawnId in p.tasks && p.tasks[spawnId].requester != Some(peer) ==>
      h.reply == Some(Refuse(Unauthorized, "You're not the requester"))
    ensures h.reply.Some? && h.reply.value.status == Success <==>
      spawnId in p.tasks && p.tasks[spawnId].requester == Some(peer) && p.tasks[spawnId].finalization.Some?
    ensures h.reply.Some? && h.reply.value.status == Success ==>
      h.reply.value.payload == Table(p.tasks[spawnId].finalization.value)
  {
    if spawnId !in p.tasks then Handled(p, Some(Refuse(Failed, "Invalid request")))
    else
      var t := p.tasks[spawnId];
      if t.requester != Some(peer) then Handled(p, Some(Refuse(Unauthorized, "You're not the requester")))
      else if t.finalization.None? then Handled(p, Some(Refuse(Failed, "Task has no completion data")))
      else Handled(p, Some(Reply(Success, Table(t.finalization.value))))
  }

  /**
   * `HandleRegisterSpawnedProcess`: a started process registers with its
   * task's id and unique code, and gets the task's properties back.
   */
  function HandleRegisterSpawnedProcess(p: SpawnerPlugin, peer: PeerId, spawnId: int, code: string): (h: Handled)
    ensures spawnId !in p.tasks ==> h == Handled(p, Some(Refuse(Failed, "Invalid spawn task")))
    ensures spawnId in p.tasks && p.tasks[spawnId].uniqueCode != code ==>
      h == Handled(p, Some(Refuse(Unauthorized, "Unauthorized")))
    ensures spawnId in p.tasks && p.tasks[spawnId].uniqueCode == code ==>
      && h.reply == Some(Reply(Success, Table(p.tasks[spawnId].properties)))
      && spawnId in h.plugin.tasks && h.plugin.tasks[spawnId].registeredPeer == Some(peer)
    ensures Valid(p) ==> Valid(h.plugin)
  {
    if spawnId !in p.tasks then Handled(p, Some(Refuse(Failed, "Invalid spawn task")))
    else
      var t := p.tasks[spawnId];
      if t.uniqueCode != code then Handled(p, Some(Refuse(Unauthorized, "Unauthorized")))
      else Handled(p.(tasks := p.tasks[spawnId := OnRegistered(t, peer).task]), Some(Reply(Success, Table(t.properties))))
  }

  /** `HandleCompleteSpawnProcess`: only the peer that registered the process may finalize it. */
  function HandleCompleteSpawnProcess(p: SpawnerPlugin, peer: PeerId, spawnId: int, data: map<string, string>): (h: Handled)
    ensures spawnId !in p.tasks ==> h == Handled(p, Some(Refuse(Failed, "Invalid spawn task")))
    ensures h.plugin != p ==> spawnId in p.tasks && p.tasks[spawnId].registeredPeer == Some(peer)
    ensures spawnId in p.tasks && p.tasks[spawnId].registeredPeer != Some(peer) ==>
      h == Handled(p, Some(Refuse(Unauthorized, "Unauthorized")))
    ensures spawnId in p.tasks && p.tasks[spawnId].registeredPeer == Some(peer) ==>
      h.reply == Some(Reply(Success, Empty)) && spawnId in h.plugin.tasks && h.plugin.tasks[spawnId].finalization == Some(data)
    ensures Valid(p) ==> Valid(h.plugin)
  {
    if spawnId !in p.tasks then Handled(p, Some(Refuse(Failed, "Invalid spawn task")))
    else
      var t := p.tasks[spawnId];
      if t.registeredPeer != Some(peer) then Handled(p, Some(Refuse(Unauthorized, "Unauthorized")))
      else Handled(p.(tasks := p.tasks[spawnId := OnFinalized(t, data).task]), Some(Reply(Success, Empty)))
  }

  /**
   * `HandleProcessKilled` / `HandleProcessStarted`: the spawner's report about
   * a task's process; unknown ids are ignored. The spawner's own reaction is
   * not part of this model.
   */
  function HandleProcessKilled(p: SpawnerPlugin, spawnId: int): (r: SpawnerPlugin)
    ensures spawnId !in p.tasks ==> r == p
    ensures spawnId in p.tasks ==> spawnId in r.tasks && r.tasks == p.tasks[spawnId := r.tasks[spawnId]] && r.tasks[spawnId].status == Killed
    ensures Valid(p) ==> Valid(r)
  {
    if spawnId !in p.tasks then p
    else p.(tasks := p.tasks[spawnId := OnProcessKilled(p.tasks[spawnId]).task])
  }

  function HandleProcessStarted(p: SpawnerPlugin, spawnId: int): (r: SpawnerPlugin)
    ensures spawnId !in p.tasks ==> r == p
    ensures spawnId in p.tasks ==> r.tasks.Keys == p.tasks.Keys
    ensures spawnId in p.tasks && !IsAborted(p.tasks[spawnId]) ==> spawnId in r.tasks && IsProcessStarted(r.tasks[spawnId])
    ensures Valid(p) ==> Valid(r)
  {
    if spawnId !in p.tasks then p
    else p.(tasks := p.tasks[spawnId := OnProcessStarted(p.tasks[spawnId]).task])
  }

  /** The spawner answered the kill request of an abort. */
  function OnKillRequestAnswered(p: SpawnerPlugin, spawnId: int, killed: bool): (r: SpawnerPlugin)
    ensures spawnId in p.tasks ==> spawnId in r.tasks && r.tasks[spawnId].status == Aborted
    ensures Valid(p) ==> Valid(r)
  {
    if spawnId !in p.tasks then p
    else p.(tasks := p.tasks[spawnId := OnKillAnswered(p.tasks[spawnId], killed).task])
  }
}

=== FILE: strings.dfy ===
/**
 * The .NET string operations the server relies on, written out: decimal
 * rendering and `Convert.ToInt32` parsing of 32-bit integers, ASCII
 * lower-casing, and `String.Replace` / `String.Contains`.
 */
module Strings {
  import opened Wrappers

  const Int32Min: int := -0x8000_0000
  const Int32Max: int := 0x7FFF_FFFF

  predicate IsDigit(c: char) { '0' <= c <= '9' }

  predicate AllDigits(s: string) { forall i :: 0 <= i < |s| ==> IsDigit(s[i]) }

  function DigitChar(d: nat): (c: char)
    requires d < 10
    ensures IsDigit(c)
  {
    "0123456789"[d]
  }

  /** The value of a string of decimal digits, most significant first. */
  function DigitsValue(s: string): nat
    requires AllDigits(s)
  {
    if |s| == 0 then 0
    else DigitsValue(s[..|s| - 1]) * 10 + ((s[|s| - 1] as int) - ('0' as int))
  }

  /** Decimal rendering of a natural number, without leading zeros. */
  function NatToString(n: nat): (r: string)
    ensures |r| > 0 && AllDigits(r)
    ensures r[0] == '0' ==> n == 0
  {
    if n < 10 then [DigitChar(n)]
    else NatToString(n / 10) + [DigitChar(n % 10)]
  }

  /** Decimal rendering of an integer, as `Int32.ToString()` prints it. */
  function IntToString(n: int): (r: string)
    ensures |r| > 0
  {
    if n < 0 then "-" + NatToString(-n) else NatToString(n)
  }

  lemma {:induction false} DigitsOfNatToString(n: nat)
    ensures DigitsValue(NatToString(n)) == n
  {
    var s := NatToString(n);
    if n >= 10 {
      DigitsOfNatToString(n / 10);
      assert s[..|s| - 1] == NatToString(n / 10);
    }
  }

  /** Distinct numbers render to distinct strings. */
  lemma NatToStringInjective(a: nat, b: nat)
    requires a != b
    ensures NatToString(a) != NatToString(b)
  {
    DigitsOfNatToString(a);
    DigitsOfNatToString(b);
  }

  /** The white space `Int32.Parse` skips around the number. */
  predicate IsSpace(c: char) { c == ' ' || '\t' <= c <= '\r' }

  function TrimStart(s: string): (r: string)
    ensures |r| <= |s| && r == s[|s| - |r|..]
    ensures |r| > 0 ==> !IsSpace(r[0])
  {
    if |s| > 0 && IsSpace(s[0]) then TrimStart(s[1..]) else s
  }

  function TrimEnd(s: string): (r: string)
    ensures |r| <= |s| && r == s[..|r|]
    ensures |r| > 0 ==> !IsSpace(r[|r| - 1])
  {
    if |s| > 0 && IsSpace(s[|s| - 1]) then TrimEnd(s[..|s| - 1]) else s
  }

  function Trim(s: string): string
  {
    TrimEnd(TrimStart(s))
  }

  predicate AllSpace(s: string)
  {
    forall i :: 0 <= i < |s| ==> IsSpace(s[i])
  }

  lemma {:induction false} TrimStartPadded(pre: string, x: string)
    requires AllSpace(pre) && (|x| == 0 || !IsSpace(x[0]))
    ensures TrimStart(pre + x) == x
    decreases |pre|
  {
    if |pre| > 0 {
      assert (pre + x)[0] == pre[0];
      assert (pre + x)[1..] == pre[1..] + x;
      TrimStartPadded(pre[1..], x);
    } else {
      assert pre + x == x;
    }
  }

  lemma {:induction false} TrimEndPadded(x: string, post: string)
    requires AllSpace(post) && (|x| == 0 || !IsSpace(x[|x| - 1]))
    ensures TrimEnd(x + post) == x
    decreases |post|
  {
    var s := x + post;
    if |post| > 0 {
      assert s[|s| - 1] == post[|post| - 1];
      assert s[..|s| - 1] == x + post[..|post| - 1];
      TrimEndPadded(x, post[..|post| - 1]);
    } else {
      assert s == x;
    }
  }

  /** White space around a word that neither starts nor ends with white space is trimmed away. */
  lemma TrimPadded(pre: string, w: string, post: string)
    requires AllSpace(pre) && AllSpace(post)
    requires |w| > 0 && !IsSpace(w[0]) && !IsSpace(w[|w| - 1])
    ensures Trim(pre + w + post) == w
  {
    assert pre + w + post == pre + (w + post);
    assert (w + post)[0] == w[0];
    TrimStartPadded(pre, w + post);
    TrimEndPadded(w, post);
  }

  /** The text after an optional leading sign. */
  function Unsigned(t: string): string
  {
    if |t| > 0 && (t[0] == '-' || t[0] == '+') then t[1..] else t
  }

  /** An optional sign followed by one or more decimal digits. */
  predicate IntegerText(t: string)
  {
    |Unsigned(t)| > 0 && AllDigits(Unsigned(t))
  }

  /** The value an integer text denotes, without a bound. */
  function SignedValue(t: string): int
    requires IntegerText(t)
  {
    if t[0] == '-' then 0 - DigitsValue(Unsigned(t)) else DigitsValue(Unsigned(t))
  }

  /** The two exceptions `Convert.ToInt32(string)` can raise. */
  datatype ParseError = FormatException | OverflowException

  /**
   * `Convert.ToInt32(string)`: optional surrounding white space, an optional
   * sign, then one or more decimal digits; a value outside the 32-bit range
   * overflows.
   */
  function ParseInt32(s: string): (r: Result<int, ParseError>)
    ensures r.Ok? ==> Int32Min <= r.value <= Int32Max
    ensures r != Err(FormatException) <==> IntegerText(Trim(s))
    ensures r.Ok? ==> r.value == SignedValue(Trim(s)) && (r.value < 0 ==> Trim(s)[0] == '-')
    ensures r == Err(OverflowException) <==> IntegerText(Trim(s)) && !(Int32Min <= SignedValue(Trim(s)) <= Int32Max)
  {
    var t := Trim(s);
    var negative := |t| > 0 && t[0] == '-';
    var digits := if |t| > 0 && (t[0] == '-' || t[0] == '+') then t[1..] else t;
    if |digits| == 0 || !AllDigits(digits) then Err(FormatException)
    else
      var v: int := if negative then 0 - DigitsValue(digits) as int else DigitsValue(digits);
      if v < Int32Min || v > Int32Max then Err(OverflowException) else Ok(v)
  }

  /** Printing a 32-bit integer and parsing it back gives the same integer. */
  lemma ParseIntToString(n: int)
    requires Int32Min <= n <= Int32Max
    ensures ParseInt32(IntToString(n)) == Ok(n)
  {
    var s := IntToString(n);
    var m: nat := if n < 0 then -n else n;
    var d := NatToString(m);
    DigitsOfNatToString(m);
    assert !IsSpace(s[0]);
    assert TrimStart(s) == s;
    assert s[|s| - 1] == d[|d| - 1];
    assert !IsSpace(s[|s| - 1]);
    assert Trim(s) == s;
    if n < 0 {
      assert s[1..] == d;
    } else {
      assert s == d;
    }
  }

  function LowerChar(c: char): (r: char)
  {
    if 'A' <= c <= 'Z' then (c as int - 'A' as int + 'a' as int) as char else c
  }

  /** `String.ToLower`, restricted to the ASCII letters. */
  function ToLower(s: string): (r: string)
    ensures |r| == |s|
    ensures forall i :: 0 <= i < |s| ==> r[i] == LowerChar(s[i])
  {
    seq(|s|, i requires 0 <= i < |s| => LowerChar(s[i]))
  }

  /** Lower-casing twice is lower-casing once. */
  lemma ToLowerIdempotent(s: string)
    ensures ToLower(ToLower(s)) == ToLower(s)
  {
  }

  /** Whether `sub` occurs in `s` starting at index `i`. */
  predicate OccursAt(s: string, sub: string, i: nat)
  {
    i + |sub| <= |s| && s[i..i + |sub|] == sub
  }

  /** `String.Contains`: some occurrence of `sub` in `s`. */
  predicate Contains(s: string, sub: string)
  {
    exists i: nat :: i + |sub| <= |s| && OccursAt(s, sub, i)
  }

  /** A one-character substring occurs exactly when that character does. */
  lemma ContainsChar(s: string, c: char)
    ensures Contains(s, [c]) <==> c in s
  {
    if c in s {
      var i :| 0 <= i < |s| && s[i] == c;
      assert OccursAt(s, [c], i);
    }
    if Contains(s, [c]) {
      var i: nat :| i + 1 <= |s| && OccursAt(s, [c], i);
      assert s[i] == s[i..i + 1][0];
    }
  }

  /**
   * `String.Replace(pat, rep)`: scans left to right and replaces each
   * non-overlapping occurrence of `pat`. `pat` must be non-empty (.NET throws
   * otherwise).
   */
  function Replace(s: string, pat: string, rep: string): string
    requires |pat| > 0
    decreases |s|
  {
    if |s| < |pat| then s
    else if s[..|pat|] == pat then rep + Replace(s[|pat|..], pat, rep)
    else [s[0]] + Replace(s[1..], pat, rep)
  }

  /** A prefix free of `pat`'s first character passes through `Replace` untouched. */
  lemma {:induction false} ReplaceSkips(u: string, rest: string, pat: string, rep: string)
    requires |pat| > 0 && pat[0] !in u
    ensures Replace(u + rest, pat, rep) == u + Replace(rest, pat, rep)
    decreases |u|
  {
    if |u| > 0 {
      var s := u + rest;
      assert s[0] == u[0];
      if |s| >= |pat| {
        assert s[..|pat|] != pat by { assert s[..|pat|][0] == u[0]; }
      }
      assert s[1..] == u[1..] + rest;
      ReplaceSkips(u[1..], rest, pat, rep);
      assert [u[0]] + u[1..] == u;
    } else {
      assert u + rest == rest;
    }
  }

  /** Without any occurrence of `pat`'s first character, `Replace` changes nothing. */
  lemma ReplaceAbsent(s: string, pat: string, rep: string)
    requires |pat| > 0 && pat[0] !in s
    ensures Replace(s, pat, rep) == s
  {
    ReplaceSkips(s, [], pat, rep);
    assert s + [] == s;
  }

  /**
   * Deleting a single character with `Replace` leaves the string unchanged
   * exactly when the character does not occur in it.
   */
  lemma {:induction false} DeleteCharUnchanged(s: string, c: char)
    ensures Replace(s, [c], []) == s <==> c !in s
    decreases |s|
  {
    if c in s {
      DeleteCharShortens(s, c);
    } else {
      ReplaceAbsent(s, [c], []);
    }
  }

  lemma {:induction false} DeleteCharShortens(s: string, c: char)
    requires c in s
    ensures |Replace(s, [c], [])| < |s|
    decreases |s|
  {
    if s[0] == c {
      assert s[..1] == [c];
      ReplaceNoLonger(s[1..], c);
    } else {
      assert s[..1] != [c];
      assert c in s[1..] by {
        var i :| 0 <= i < |s| && s[i] == c;
        assert s[1..][i - 1] == c;
      }
      DeleteCharShortens(s[1..], c);
    }
  }

  lemma {:induction false} ReplaceNoLonger(s: string, c: char)
    ensures |Replace(s, [c], [])| <= |s|
    decreases |s|
  {
    if |s| >= 1 {
      ReplaceNoLonger(s[1..], c);
    }
  }
}

=== FILE: wrappers.dfy ===
/** Option and Result: the stand-ins for C#'s `null` and for thrown exceptions. */
module Wrappers {

  /** A value that may be absent, the model of a nullable reference. */
  datatype Option<+T> = None | Some(value: T) {

    /** The value, or `default` when absent (C#'s `??`). */
    function GetOr(default: T): (r: T)
      ensures Some? ==> r == value
      ensures None? ==> r == default
    {
      match this
      case Some(v) => v
      case None => default
    }
  }

  /** The outcome of an operation that can fail: the value, or the error it raised. */
  datatype Result<+R, +E> = Ok(value: R) | Err(error: E)

  /** Looks a key up in a map, answering `None` for a missing key. */
  function Lookup<K, V>(m: map<K, V>, k: K): (r: Option<V>)
    ensures r.Some? <==> k in m
    ensures r.Some? ==> r.value == m[k]
  {
    if k in m then Some(m[k]) else None
  }
}

=== FILE: xml_parser.dfy ===
/**
 * `XmlParser`: a small pull tokenizer for configuration XML. Each `Read`
 * yields the text before the next tag, then the tag's name and its
 * attributes; a self-closing tag `<a/>` is followed by a synthetic `/a`.
 * The character stream is a `Cursor`; reading past its end disposes it,
 * after which every `Read` answers false.
 *
 * The loops of the source are recursive functions whose measure is the
 * unread input. As written, an attribute scan that meets the end of the
 * stream never returns; `ReadWith(p, false)` models that as `None`, and the
 * model proper uses the corrected scan, which ends the tag there.
 */
module Xml {
  import opened Wrappers
  import opened Strings

  // ----- entities -----

  /**
   * `FromEntity`: five passes of `String.Replace`, `&amp;` last, so that
   * an escaped ampersand is not decoded twice.
   */
  function FromEntity(s: string): string
  {
    Replace(Replace(Replace(Replace(Replace(s, "&lt;", "<"), "&gt;", ">"), "&quot;", "\""), "&nbsp;", " "), "&amp;", "&")
  }

  predicate IsEntity(e: string)
  {
    e == "&lt;" || e == "&gt;" || e == "&quot;" || e == "&nbsp;" || e == "&amp;"
  }

  /** The character an entity stands for; a plain character stands for itself. */
  function DecodeUnit(u: string): (r: string)
    requires IsEntity(u) || (|u| == 1 && u[0] != '&')
    ensures |r| == 1
  {
    if u == "&lt;" then "<"
    else if u == "&gt;" then ">"
    else if u == "&quot;" then "\""
    else if u == "&nbsp;" then " "
    else if u == "&amp;" then "&"
    else u
  }

  /** Every entity starts with its only ampersand. */
  lemma EntityShape(e: string)
    requires IsEntity(e)
    ensures |e| >= 4 && e[0] == '&' && '&' !in e[1..]
  {
  }

  /** Two different entities already differ in their second character. */
  lemma EntitiesDiffer(u: string, pat: string)
    requires IsEntity(u) && IsEntity(pat) && u != pat
    ensures |u| >= 2 && |pat| >= 2 && u[1] != pat[1]
  {
  }

  /** A leading entity other than the pattern passes through one `Replace` pass whole. */
  lemma ReplaceSkipsEntity(u: string, x: string, pat: string, rep: string)
    requires |u| >= 2 && |pat| >= 2 && u[0] == pat[0] && u[1] != pat[1] && pat[0] !in u[1..]
    ensures Replace(u + x, pat, rep) == u + Replace(x, pat, rep)
  {
    var s := u + x;
    if |s| < |pat| {
      assert Replace(s, pat, rep) == s;
      assert Replace(x, pat, rep) == x;
    } else {
      assert s[..|pat|] != pat by {
        assert s[..|pat|][1] == u[1];
      }
      assert Replace(s, pat, rep) == [s[0]] + Replace(s[1..], pat, rep);
      assert s[1..] == u[1..] + x;
      ReplaceSkips(u[1..], x, pat, rep);
      assert [s[0]] + u[1..] == u;
    }
  }

  /**
   * One `Replace` pass over a leading unit: an entity or a plain character
   * goes through whole, and is replaced exactly when it is the pattern.
   */
  lemma ReplaceUnit(u: string, x: string, pat: string, rep: string)
    requires IsEntity(pat)
    requires IsEntity(u) || (|u| == 1 && u[0] != '&')
    ensures Replace(u + x, pat, rep) == (if u == pat then rep else u) + Replace(x, pat, rep)
  {
    EntityShape(pat);
    if u == pat {
      var s := u + x;
      assert s[..|pat|] == pat && s[|pat|..] == x;
    } else if u[0] != '&' {
      ReplaceSkips(u, x, pat, rep);
    } else {
      EntityShape(u);
      EntitiesDiffer(u, pat);
      ReplaceSkipsEntity(u, x, pat, rep);
    }
  }

  /** `FromEntity` decodes a leading unit and carries on with the rest. */
  lemma FromEntityUnit(u: string, x: string)
    requires IsEntity(u) || (|u| == 1 && u[0] != '&')
    ensures FromEntity(u + x) == DecodeUnit(u) + FromEntity(x)
  {
    ReplaceUnit(u, x, "&lt;", "<");
    var u1 := if u == "&lt;" then "<" else u;
    var x1 := Replace(x, "&lt;", "<");
    ReplaceUnit(u1, x1, "&gt;", ">");
    var u2 := if u1 == "&gt;" then ">" else u1;
    var x2 := Replace(x1, "&gt;", ">");
    ReplaceUnit(u2, x2, "&quot;", "\"");
    var u3 := if u2 == "&quot;" then "\"" else u2;
    var x3 := Replace(x2, "&quot;", "\"");
    ReplaceUnit(u3, x3, "&nbsp;", " ");
    var u4 := if u3 == "&nbsp;" then " " else u3;
    var x4 := Replace(x3, "&nbsp;", " ");
    ReplaceUnit(u4, x4, "&amp;", "&");
  }

  /** Text without an ampersand is left as it is. */
  lemma {:induction false} FromEntityPlain(s: string)
    requires '&' !in s
    ensures FromEntity(s) == s
    decreases |s|
  {
    if |s| > 0 {
      FromEntityUnit([s[0]], s[1..]);
      assert [s[0]] + s[1..] == s;
      FromEntityPlain(s[1..]);
    }
  }

  /** The escaping an XML writer applies to text: `&`, `<`, `>` and `"` become entities. */
  function Escape(s: string): (r: string)
    ensures '<' !in r && '>' !in r
  {
    if |s| == 0 then ""
    else EscapeChar(s[0]) + Escape(s[1..])
  }

  function EscapeChar(c: char): (r: string)
    ensures IsEntity(r) || (|r| == 1 && r[0] != '&')
    ensures DecodeUnit(r) == [c]
    ensures '<' !in r && '>' !in r
  {
    if c == '&' then "&amp;"
    else if c == '<' then "&lt;"
    else if c == '>' then "&gt;"
    else if c == '"' then "&quot;"
    else [c]
  }

  /** `FromEntity` undoes escaping, whatever the text: in particular `&amp;lt;` decodes to `&lt;`, not `<`. */
  lemma {:induction false} FromEntityUnescapes(s: string)
    ensures FromEntity(Escape(s)) == s
    decreases |s|
  {
    if |s| > 0 {
      FromEntityUnit(EscapeChar(s[0]), Escape(s[1..]));
      FromEntityUnescapes(s[1..]);
      assert [s[0]] + s[1..] == s;
    }
  }

  lemma EscapedAmpersandDecodesOnce()
    ensures FromEntity("&amp;lt;") == "&lt;"
  {
    assert Escape("&lt;") == "&amp;lt;";
    FromEntityUnescapes("&lt;");
  }

  // ----- the character stream -----

  /** A character read from the stream, or -1 at its end. */
  datatype Ch = Eof | Chr(c: char)

  /** The unread input, and whether the stream is still open. */
  datatype Cursor = Cursor(rest: string, open: bool)

  function Size(c: Cursor): nat
  {
    if c.open then |c.rest| + 1 else 0
  }

  /** `ReadChar`: the next character; at the end, -1, and the stream is disposed. */
  function ReadChar(c: Cursor): (r: (Ch, Cursor))
    ensures r.0.Chr? <==> c.open && |c.rest| > 0
    ensures r.0.Chr? ==> r.0.c == c.rest[0] && r.1 == Cursor(c.rest[1..], true)
    ensures r.0.Eof? ==> !r.1.open
    ensures c.open ==> Size(r.1) < Size(c)
    ensures Size(r.1) <= Size(c)
  {
    if !c.open then (Eof, c)
    else if |c.rest| == 0 then (Eof, Cursor([], false))
    else (Chr(c.rest[0]), Cursor(c.rest[1..], true))
  }

  /** `ReadText`: the characters before the next `<`, and whether a `<` was met. */
  function ReadText(c: Cursor): (r: (string, bool, Cursor))
    ensures Size(r.2) <= Size(c) && (c.open ==> Size(r.2) < Size(c))
    ensures !r.1 ==> !r.2.open
    ensures '<' !in r.0
    decreases Size(c)
  {
    var (ch, c1) := ReadChar(c);
    match ch
    case Eof => ([], false, c1)
    case Chr(x) =>
      if x == '<' then ([], true, c1)
      else
        var (t, lt, c2) := ReadText(c1);
        ([x] + t, lt, c2)
  }

  /** The tag-name loop of `ReadTag`: the name, and the character that ended it. */
  function TagLoop(c: Cursor, tag: string): (r: (string, Ch, Cursor))
    ensures Size(r.2) <= Size(c)
    ensures r.1.Chr? ==> Size(r.2) < Size(c)
    decreases Size(c)
  {
    var (ch, c1) := ReadChar(c);
    match ch
    case Eof => (tag, Eof, c1)
    case Chr(x) =>
      if x == '>' || (x == '/' && |tag| > 0) then (tag, ch, c1)
      else if x > ' ' then
        var t := tag + [x];
        if |t| == 3 && t == "!--" then (t, ch, c1) else TagLoop(c1, t)
      else if |tag| > 0 then (tag, ch, c1)
      else TagLoop(c1, tag)
  }

  /** `ReadComment`: everything up to `-->`, without the two dashes. */
  function CommentLoop(c: Cursor, comment: string, dashes: nat): (r: (string, Cursor))
    requires dashes <= |comment|
    ensures Size(r.1) <= Size(c)
    decreases Size(c)
  {
    var (ch, c1) := ReadChar(c);
    match ch
    case Eof => (comment, c1)
    case Chr(x) =>
      if x == '>' && dashes >= 2 then (comment[..|comment| - 2], c1)
      else CommentLoop(c1, comment + [x], if x == '-' then dashes + 1 else 0)
  }

  /**
   * `ReadValue`: a word, or a quoted string, and the character that ended
   * it (`>`, `=`, `/`, the closing quote, a blank after the word, or -1).
   */
  function ReadValue(c: Cursor): (r: (string, Ch, Cursor))
  {
    ValueLoop(c, "")
  }

  function ValueLoop(c: Cursor, value: string): (r: (string, Ch, Cursor))
    ensures Size(r.2) <= Size(c)
    ensures r.1.Chr? ==> Size(r.2) < Size(c)
    decreases Size(c)
  {
    var (ch, c1) := ReadChar(c);
    match ch
    case Eof => (value, Eof, c1)
    case Chr(x) =>
      if x == '>' || x == '=' || x == '/' then (value, ch, c1)
      else if x == '"' then Quoted(c1, value)
      else if x > ' ' then ValueLoop(c1, value + [x])
      else if |value| > 0 then (value, ch, c1)
      else ValueLoop(c1, value)
  }

  function Quoted(c: Cursor, value: string): (r: (string, Ch, Cursor))
    ensures Size(r.2) <= Size(c)
    ensures r.1.Chr? ==> Size(r.2) < Size(c) && r.1.c == '"'
    decreases Size(c)
  {
    var (ch, c1) := ReadChar(c);
    match ch
    case Eof => (value, Eof, c1)
    case Chr(x) => if x == '"' then (value, ch, c1) else Quoted(c1, value + [x])
  }

  /**
   * The `do … while (_current != '=')` loop of `ReadAttribute`: the last
   * non-empty word before `=` is the name; `>` ends the tag; `/` marks it
   * self-closing. At the end of the stream the source loops for ever
   * (`None`) unless `stopAtEof`, which ends the tag.
   */
  function NameLoop(c: Cursor, tag: string, reserved: Option<string>, name: Option<string>, stopAtEof: bool)
    : (r: Option<(bool, Option<string>, Option<string>, Cursor)>)
    ensures stopAtEof ==> r.Some?
    ensures r.Some? ==> Size(r.value.3) <= Size(c)
    ensures r.Some? && !r.value.0 ==> Size(r.value.3) < Size(c)
    decreases Size(c)
  {
    var (n, cur, c1) := ReadValue(c);
    if cur == Chr('>') then Some((true, reserved, name, c1))
    else
      var reserved' := if cur == Chr('/') then Some("/" + tag) else reserved;
      var name' := if n != "" then Some(n) else name;
      if cur == Chr('=') then Some((false, reserved', name', c1))
      else if cur.Eof? then (if stopAtEof then Some((true, reserved', name', c1)) else Option.None)
      else NameLoop(c1, tag, reserved', name', stopAtEof)
  }

  /**
   * `ReadAttribute`: one `name=value` pair into the values; the answer says
   * whether another attribute may follow.
   */
  function ReadAttribute(c: Cursor, tag: string, reserved: Option<string>, values: map<string, string>, stopAtEof: bool)
    : (r: Option<(bool, Option<string>, map<string, string>, Cursor)>)
    ensures stopAtEof ==> r.Some?
    ensures r.Some? ==> Size(r.value.3) <= Size(c)
    ensures r.Some? && r.value.0 ==> Size(r.value.3) < Size(c)
  {
    match NameLoop(c, tag, reserved, Option.None, stopAtEof)
    case None => Option.None
    case Some((ended, reserved', name, c1)) =>
      if ended then Some((false, reserved', values, c1))
      else
        var (v, cur, c2) := ReadValue(c1);
        var values' := if name.Some? then values[name.value := v] else values;
        Some((cur != Chr('>') && !(stopAtEof && cur.Eof?), reserved', values', c2))
  }

  /** `while (ReadAttribute());` */
  function Attributes(c: Cursor, tag: string, reserved: Option<string>, values: map<string, string>, stopAtEof: bool)
    : (r: Option<(Option<string>, map<string, string>, Cursor)>)
    ensures stopAtEof ==> r.Some?
    ensures r.Some? ==> Size(r.value.2) <= Size(c)
    decreases Size(c)
  {
    match ReadAttribute(c, tag, reserved, values, stopAtEof)
    case None => Option.None
    case Some((more, reserved', values', c1)) =>
      if more then Attributes(c1, tag, reserved', values', stopAtEof) else Some((reserved', values', c1))
  }

  /**
   * `ReadTag`, after the `<`: the name, the synthetic closing tag a `/`
   * leaves behind, and the attributes (or the comment, for `<!--`).
   */
  function ReadTag(c: Cursor, stopAtEof: bool): (r: Option<(string, Option<string>, map<string, string>, Cursor)>)
    ensures stopAtEof ==> r.Some?
    ensures r.Some? ==> Size(r.value.3) <= Size(c)
  {
    var (tag, ch, c1) := TagLoop(c, "");
    var (reserved, ch2, c2) :=
      if ch == Chr('/') then (Some("/" + tag), ReadChar(c1).0, ReadChar(c1).1) else (Option.None, ch, c1);
    if ch2 == Chr('>') then Some((tag, reserved, map[], c2))
    else if tag == "!--" then
      var (comment, c3) := CommentLoop(c2, "", 0);
      Some((tag, reserved, map["comment" := comment], c3))
    else
      match Attributes(c2, tag, reserved, map[], stopAtEof)
      case None => Option.None
      case Some((reserved', values, c3)) => Some((tag, reserved', values, c3))
  }

  // ----- the parser -----

  /** The parser's state: the stream, a pending synthetic closing tag, and what the last `Read` found. */
  datatype Parser = Parser(
    cursor: Cursor,
    reserved: Option<string>,
    text: Option<string>,
    tag: Option<string>,
    values: map<string, string>)

  function Open(source: string): (p: Parser)
    ensures p.cursor.open && p.reserved.None?
  {
    Parser(Cursor(source, true), Option.None, Option.None, Option.None, map[])
  }

  /** `Dispose`: the stream is dropped; no further `Read` succeeds. */
  function Dispose(p: Parser): (r: Parser)
    ensures !r.cursor.open && !Read(r).0
  {
    p.(cursor := Cursor([], false))
  }

  /** The indexer: an attribute of the last tag read, or `null`. */
  function Attribute(p: Parser, key: string): (r: Option<string>)
    ensures r.Some? <==> key in p.values
    ensures r.Some? ==> r.value == p.values[key]
  {
    if key in p.values then Some(p.values[key]) else Option.None
  }

  /** Input left to read, counting a pending closing tag. */
  function Rank(p: Parser): nat
  {
    2 * Size(p.cursor) + (if p.reserved.Some? then 1 else 0)
  }

  /**
   * `Read`, with the end-of-stream behaviour of the attribute scan chosen
   * by `stopAtEof`. `None` means the call never returns.
   */
  function ReadWith(p: Parser, stopAtEof: bool): (r: Option<(bool, Parser)>)
    ensures stopAtEof ==> r.Some?
    ensures !p.cursor.open ==> r == Some((false, p.(text := Option.None, tag := Option.None, values := map[])))
    ensures r.Some? ==> (r.value.0 <==> p.cursor.open)
    ensures r.Some? && r.value.0 ==> Rank(r.value.1) < Rank(p)
    ensures p.cursor.open && p.reserved.Some? ==>
      r == Some((true, p.(reserved := Option.None, text := Option.None, tag := p.reserved, values := map[])))
  {
    var cleared := p.(text := Option.None, tag := Option.None, values := map[]);
    if !p.cursor.open then Some((false, cleared))
    else if p.reserved.Some? then Some((true, cleared.(tag := p.reserved, reserved := Option.None)))
    else
      var (raw, lt, c1) := ReadText(p.cursor);
      var text := Some(FromEntity(raw));
      if !lt then Some((true, cleared.(cursor := c1, text := text)))
      else
        match ReadTag(c1, stopAtEof)
        case None => Option.None
        case Some((tag, reserved, values, c2)) => Some((true, Parser(c2, reserved, text, Some(tag), values)))
  }

  /** The source's `Read`, which can hang. */
  function ReadAsWritten(p: Parser): (r: Option<(bool, Parser)>)
    ensures r.Some? ==> (r.value.0 <==> p.cursor.open)
  {
    ReadWith(p, false)
  }

  /** `Read` with the attribute scan ending at the end of the stream: it always returns. */
  function Read(p: Parser): (r: (bool, Parser))
    ensures r.0 <==> p.cursor.open
    ensures r.0 ==> Rank(r.1) < Rank(p)
  {
    ReadWith(p, true).value
  }

  /** A tag cut off by the end of the input: the source never returns from `Read`; the corrected scan yields the tag and then ends. */
  lemma UnterminatedTagHangsAsWritten()
    ensures ReadAsWritten(Open("<a")).None?
    ensures Read(Open("<a")) == (true, Parser(Cursor([], false), Option.None, Some(""), Some("a"), map[]))
    ensures !Read(Read(Open("<a")).1).0
  {
    var c := Cursor("a", true);
    assert "<a"[1..] == "a";
    assert "a"[1..] == [];
    assert ReadChar(c) == (Chr('a'), Cursor([], true));
    assert "" + ['a'] == "a";
    assert TagLoop(Cursor([], true), "a") == ("a", Eof, Cursor([], false));
    assert TagLoop(c, "") == ("a", Eof, Cursor([], false));
    assert ReadValue(Cursor([], false)) == ("", Eof, Cursor([], false));
  }

  // ----- reading well-formed input -----

  /** A tag name: printable, no `>` or `/`, not opening a comment. */
  predicate TagName(n: string)
  {
    && |n| > 0
    && (forall i :: 0 <= i < |n| ==> n[i] > ' ' && n[i] != '>' && n[i] != '/')
    && (|n| >= 3 ==> n[..3] != "!--")
  }

  /** An attribute key: printable, none of `>`, `=`, `/`, `"`. */
  predicate Key(k: string)
  {
    && |k| > 0
    && (forall i :: 0 <= i < |k| ==> k[i] > ' ' && k[i] != '>' && k[i] != '=' && k[i] != '/' && k[i] != '"')
  }

  lemma {:induction false} TagLoopReadsName(acc: string, m: string, stop: char, rest: string)
    requires TagName(acc + m)
    requires stop == '>' || stop == '/' || stop <= ' '
    ensures TagLoop(Cursor(m + [stop] + rest, true), acc) == (acc + m, Chr(stop), Cursor(rest, true))
    decreases |m|
  {
    var c := Cursor(m + [stop] + rest, true);
    if |m| == 0 {
      assert acc + m == acc;
      assert c.rest[0] == stop && c.rest[1..] == rest;
    } else {
      assert c.rest[0] == m[0] && c.rest[1..] == m[1..] + [stop] + rest;
      var n := acc + m;
      assert (acc + [m[0]]) + m[1..] == n;
      assert m[0] == n[|acc|];
      if |acc + [m[0]]| == 3 {
        assert acc + [m[0]] == n[..3];
      }
      TagLoopReadsName(acc + [m[0]], m[1..], stop, rest);
    }
  }

  lemma {:induction false} ValueLoopReadsKey(acc: string, k: string, rest: string)
    requires Key(acc + k)
    ensures ValueLoop(Cursor(k + "=" + rest, true), acc) == (acc + k, Chr('='), Cursor(rest, true))
    decreases |k|
  {
    var c := Cursor(k + "=" + rest, true);
    if |k| == 0 {
      assert acc + k == acc;
      assert c.rest[0] == '=' && c.rest[1..] == rest;
    } else {
      assert c.rest[0] == k[0] && c.rest[1..] == k[1..] + "=" + rest;
      assert (acc + [k[0]]) + k[1..] == acc + k;
      assert k[0] == (acc + k)[|acc|];
      ValueLoopReadsKey(acc + [k[0]], k[1..], rest);
    }
  }

  lemma {:induction false} QuotedReadsValue(acc: string, v: string, rest: string)
    requires '"' !in v
    ensures Quoted(Cursor(v + "\"" + rest, true), acc) == (acc + v, Chr('"'), Cursor(rest, true))
    decreases |v|
  {
    var c := Cursor(v + "\"" + rest, true);
    if |v| == 0 {
      assert acc + v == acc;
      assert c.rest[0] == '"' && c.rest[1..] == rest;
    } else {
      assert c.rest[0] == v[0] && c.rest[1..] == v[1..] + "\"" + rest;
      assert (acc + [v[0]]) + v[1..] == acc + v;
      QuotedReadsValue(acc + [v[0]], v[1..], rest);
    }
  }

  lemma {:induction false} CommentLoopReadsBody(acc: string, dashes: nat, body: string, rest: string)
    requires dashes <= |acc| && '>' !in body
    ensures CommentLoop(Cursor(body + "-->" + rest, true), acc, dashes) == (acc + body, Cursor(rest, true))
    decreases |body|
  {
    var c := Cursor(body + "-->" + rest, true);
    if |body| == 0 {
      assert acc + body == acc;
      assert c.rest == "-->" + rest;
      var c1 := Cursor("->" + rest, true);
      var c2 := Cursor(">" + rest, true);
      assert c.rest[0] == '-' && c1.rest[0] == '-' && c2.rest[0] == '>';
      assert c.rest[1..] == c1.rest && c1.rest[1..] == c2.rest && c2.rest[1..] == rest;
      assert (acc + ['-'] + ['-'])[..|acc| + 2 - 2] == acc;
      assert CommentLoop(c2, acc + ['-'] + ['-'], dashes + 2) == (acc, Cursor(rest, true));
      assert CommentLoop(c1, acc + ['-'], dashes + 1) == (acc, Cursor(rest, true));
    } else {
      assert c.rest[0] == body[0] && c.rest[1..] == body[1..] + "-->" + rest;
      assert (acc + [body[0]]) + body[1..] == acc + body;
      CommentLoopReadsBody(acc + [body[0]], if body[0] == '-' then dashes + 1 else 0, body[1..], rest);
    }
  }

  lemma ReadTextUpToTag(lead: string, rest: string)
    requires '<' !in lead
    ensures ReadText(Cursor(lead + "<" + rest, true)) == (lead, true, Cursor(rest, true))
  {
    ReadTextUpTo(lead, "<" + rest);
    assert lead + ("<" + rest) == lead + "<" + rest;
    assert ("<" + rest)[1..] == rest;
  }

  lemma {:induction false} ReadTextUpTo(lead: string, tail: string)
    requires '<' !in lead
    requires |tail| > 0 && tail[0] == '<'
    ensures ReadText(Cursor(lead + tail, true)) == (lead, true, Cursor(tail[1..], true))
    decreases |lead|
  {
    var c := Cursor(lead + tail, true);
    if |lead| == 0 {
      assert c.rest == tail;
    } else {
      assert c.rest[0] == lead[0] && c.rest[1..] == lead[1..] + tail;
      ReadTextUpTo(lead[1..], tail);
      assert [lead[0]] + lead[1..] == lead;
    }
  }

  /** Text with no tag after it: one `Read` returns it, decoded, and the next finds the stream closed. */
  lemma {:induction false} ReadTrailingText(lead: string)
    requires '<' !in lead
    ensures Read(Open(lead)) == (true, Parser(Cursor([], false), Option.None, Some(FromEntity(lead)), Option.None, map[]))
    ensures !Read(Read(Open(lead)).1).0
  {
    ReadTextToEnd(lead);
  }

  lemma {:induction false} ReadTextToEnd(lead: string)
    requires '<' !in lead
    ensures ReadText(Cursor(lead, true)) == (lead, false, Cursor([], false))
    decreases |lead|
  {
    if |lead| > 0 {
      ReadTextToEnd(lead[1..]);
      assert [lead[0]] + lead[1..] == lead;
    }
  }

  /** Text, then a tag: one `Read` yields the decoded text together with what `ReadTag` found. */
  lemma ReadTextThenTag(lead: string, afterLt: string)
    requires '<' !in lead
    ensures ReadTag(Cursor(afterLt, true), true).Some?
    ensures var (tag, reserved, values, c) := ReadTag(Cursor(afterLt, true), true).value;
            Read(Open(lead + "<" + afterLt)) == (true, Parser(c, reserved, Some(FromEntity(lead)), Some(tag), values))
  {
    ReadTextUpToTag(lead, afterLt);
  }

  /** `k=`: the name scan stops at the `=` with `k` as the attribute's name. */
  lemma NameLoopReadsKey(n: string, k: string, afterEq: string)
    requires Key(k)
    ensures NameLoop(Cursor(k + "=" + afterEq, true), n, Option.None, Option.None, true)
            == Some((false, Option.None, Some(k), Cursor(afterEq, true)))
  {
    ValueLoopReadsKey("", k, afterEq);
    assert "" + k == k;
  }

  /** `"v"`: a value in quotes is read up to the closing quote. */
  lemma ReadValueQuoted(v: string, after: string)
    requires '"' !in v
    ensures ReadValue(Cursor("\"" + v + "\"" + after, true)) == (v, Chr('"'), Cursor(after, true))
  {
    var afterEq := "\"" + v + "\"" + after;
    assert afterEq[0] == '"' && afterEq[1..] == v + "\"" + after;
    QuotedReadsValue("", v, after);
    assert "" + v == v;
  }

  /** `k="v"`: one attribute read, and another may follow. */
  lemma OneAttribute(n: string, k: string, v: string, after: string)
    requires Key(k) && '"' !in v
    ensures ReadAttribute(Cursor(k + "=\"" + v + "\"" + after, true), n, Option.None, map[], true)
            == Some((true, Option.None, map[k := v], Cursor(after, true)))
  {
    var afterEq := "\"" + v + "\"" + after;
    assert k + "=\"" + v + "\"" + after == k + "=" + afterEq;
    NameLoopReadsKey(n, k, afterEq);
    ReadValueQuoted(v, after);
  }

  /** `>` or `/>` ends the attributes; a `/` leaves `/n` pending. */
  lemma TagClose(n: string, values: map<string, string>, selfClosing: bool, rest: string)
    ensures Attributes(Cursor((if selfClosing then "/>" else ">") + rest, true), n, Option.None, values, true)
            == Some((if selfClosing then Some("/" + n) else Option.None, values, Cursor(rest, true)))
  {
    var close := if selfClosing then "/>" else ">";
    assert (">" + rest)[0] == '>' && (">" + rest)[1..] == rest;
    assert ReadValue(Cursor(">" + rest, true)) == ("", Chr('>'), Cursor(rest, true));
    if selfClosing {
      assert close + rest == "/" + (">" + rest);
      assert (close + rest)[0] == '/' && (close + rest)[1..] == ">" + rest;
      assert ReadValue(Cursor(close + rest, true)) == ("", Chr('/'), Cursor(">" + rest, true));
      assert NameLoop(Cursor(">" + rest, true), n, Some("/" + n), Option.None, true)
        == Some((true, Some("/" + n), Option.None, Cursor(rest, true)));
    }
  }

  /** `k="v"` followed by `>` or `/>`: the attribute is stored, and a `/` leaves `/n` pending. */
  lemma AttributeScan(n: string, k: string, v: string, selfClosing: bool, rest: string)
    requires Key(k) && '"' !in v
    ensures var close := if selfClosing then "/>" else ">";
            Attributes(Cursor(k + "=\"" + v + "\"" + close + rest, true), n, Option.None, map[], true)
            == Some((if selfClosing then Some("/" + n) else Option.None, map[k := v], Cursor(rest, true)))
  {
    var close := if selfClosing then "/>" else ">";
    assert k + "=\"" + v + "\"" + close + rest == k + "=\"" + v + "\"" + (close + rest);
    OneAttribute(n, k, v, close + rest);
    TagClose(n, map[k := v], selfClosing, rest);
  }

  /** The tag `n k="v"` followed by `>` or `/>`: `ReadTag` yields `n`, the attribute, and `/n` when self-closing. */
  lemma ReadTagAttribute(n: string, k: string, v: string, selfClosing: bool, rest: string)
    requires TagName(n) && Key(k) && '"' !in v
    ensures var close := if selfClosing then "/>" else ">";
            ReadTag(Cursor(n + " " + k + "=\"" + v + "\"" + close + rest, true), true)
            == Some((n, if selfClosing then Some("/" + n) else Option.None, map[k := v], Cursor(rest, true)))
  {
    var close := if selfClosing then "/>" else ">";
    var afterName := k + "=\"" + v + "\"" + close + rest;
    assert n + " " + k + "=\"" + v + "\"" + close + rest == n + [' '] + afterName;
    TagLoopReadsName("", n, ' ', afterName);
    assert "" + n == n;
    AttributeScan(n, k, v, selfClosing, rest);
  }

  /**
   * `<n k="v">` (or `<n k="v"/>`): one `Read` yields the text before it,
   * the tag `n` and the attribute; a self-closing tag is followed by `/n`.
   */
  lemma ReadTagWithAttribute(lead: string, n: string, k: string, v: string, selfClosing: bool, rest: string)
    requires '<' !in lead && TagName(n) && Key(k) && '"' !in v
    ensures var src := lead + "<" + n + " " + k + "=\"" + v + "\"" + (if selfClosing then "/>" else ">") + rest;
            var p := Read(Open(src)).1;
            && Read(Open(src)).0
            && p.text == Some(FromEntity(lead)) && p.tag == Some(n)
            && Attribute(p, k) == Some(v) && p.values.Keys == {k}
            && p.reserved == (if selfClosing then Some("/" + n) else Option.None)
            && p.cursor == Cursor(rest, true)
            && (selfClosing ==> Read(p).1.tag == Some("/" + n))
  {
    var close := if selfClosing then "/>" else ">";
    var afterLt := n + " " + k + "=\"" + v + "\"" + close + rest;
    assert lead + "<" + n + " " + k + "=\"" + v + "\"" + close + rest == lead + "<" + afterLt;
    ReadTextThenTag(lead, afterLt);
    ReadTagAttribute(n, k, v, selfClosing, rest);
  }

  /** `n/>`: `ReadTag` yields `n` with no attributes and leaves `/n` pending. */
  lemma ReadTagSelfClosing(n: string, rest: string)
    requires TagName(n)
    ensures ReadTag(Cursor(n + "/>" + rest, true), true) == Some((n, Some("/" + n), map[], Cursor(rest, true)))
  {
    assert n + "/>" + rest == n + ['/'] + (">" + rest);
    TagLoopReadsName("", n, '/', ">" + rest);
    assert "" + n == n;
    assert (">" + rest)[0] == '>' && (">" + rest)[1..] == rest;
  }

  /** `<n/>`: the tag `n` with no attributes, then `/n`. */
  lemma ReadSelfClosingTag(lead: string, n: string, rest: string)
    requires '<' !in lead && TagName(n)
    ensures var p := Read(Open(lead + "<" + n + "/>" + rest)).1;
            && p.tag == Some(n) && p.values == map[] && p.reserved == Some("/" + n)
            && Read(p).0 && Read(p).1.tag == Some("/" + n) && Read(p).1.cursor == Cursor(rest, true)
  {
    var afterLt := n + "/>" + rest;
    assert lead + "<" + n + "/>" + rest == lead + "<" + afterLt;
    ReadTextThenTag(lead, afterLt);
    ReadTagSelfClosing(n, rest);
  }

  /** The name `!--` is complete after three characters, whatever follows. */
  lemma CommentTagName(tail: string)
    ensures TagLoop(Cursor("!--" + tail, true), "") == ("!--", Chr('-'), Cursor(tail, true))
  {
    var afterLt := "!--" + tail;
    assert afterLt[0] == '!' && afterLt[1..] == "--" + tail;
    assert ("--" + tail)[0] == '-' && ("--" + tail)[1..] == "-" + tail;
    assert ("-" + tail)[0] == '-' && ("-" + tail)[1..] == tail;
    assert "" + ['!'] == "!" && "!" + ['-'] == "!-" && "!-" + ['-'] == "!--";
    assert TagLoop(Cursor("-" + tail, true), "!-") == ("!--", Chr('-'), Cursor(tail, true));
    assert TagLoop(Cursor("--" + tail, true), "!") == ("!--", Chr('-'), Cursor(tail, true));
  }

  /** `!--body-->`: `ReadTag` yields `!--` with the body under `comment`. */
  lemma ReadTagComment(body: string, rest: string)
    requires '>' !in body
    ensures ReadTag(Cursor("!--" + body + "-->" + rest, true), true)
            == Some(("!--", Option.None, map["comment" := body], Cursor(rest, true)))
  {
    var tail := body + "-->" + rest;
    assert "!--" + body + "-->" + rest == "!--" + tail;
    CommentTagName(tail);
    CommentLoopReadsBody("", 0, body, rest);
    assert "" + body == body;
  }

  /** `<!--body-->`: the tag `!--`, with the body under the key `comment`. */
  lemma ReadCommentTag(lead: string, body: string, rest: string)
    requires '<' !in lead && '>' !in body
    ensures var p := Read(Open(lead + "<!--" + body + "-->" + rest)).1;
            && p.tag == Some("!--") && p.values == map["comment" := body] && p.cursor == Cursor(rest, true)
  {
    var afterLt := "!--" + body + "-->" + rest;
    assert lead + "<!--" + body + "-->" + rest == lead + "<" + afterLt;
    ReadTextThenTag(lead, afterLt);
    ReadTagComment(body, rest);
  }

  // ----- searching -----

  /** The states after each successful `Read`, until the stream is closed. */
  function Tokens(p: Parser): (ts: seq<Parser>)
    decreases Rank(p)
  {
    var (more, p1) := Read(p);
    if !more then [] else [p1] + Tokens(p1)
  }

  /**
   * `Search(tag, f, a)`: reads until a tag named `tag` for which `f` holds
   * and answers the state in which the action runs, if any; the action
   * runs at most once.
   */
  function SearchWhere(p: Parser, tag: string, f: Parser -> bool): (r: (Option<Parser>, Parser))
    ensures r.0.Some? ==> r.0.value.tag == Some(tag) && f(r.0.value) && r.1 == r.0.value
    ensures r.0.None? ==> !r.1.cursor.open
    decreases Rank(p)
  {
    var (more, p1) := Read(p);
    if !more then (Option.None, p1)
    else if p1.tag == Some(tag) && f(p1) then (Some(p1), p1)
    else SearchWhere(p1, tag, f)
  }

  /** `Search(tag, a)`: the same, with no extra condition. */
  function Search(p: Parser, tag: string): (r: (Option<Parser>, Parser))
    ensures r.0.Some? ==> r.0.value.tag == Some(tag)
  {
    SearchWhere(p, tag, _ => true)
  }

  predicate Matches(q: Parser, tag: string, f: Parser -> bool)
  {
    q.tag == Some(tag) && f(q)
  }

  /** `Search` acts on the first matching token of the stream, and on none when no token matches. */
  lemma {:induction false} SearchFindsFirst(p: Parser, tag: string, f: Parser -> bool)
    ensures var (found, _) := SearchWhere(p, tag, f);
            var ts := Tokens(p);
            && (found.Some? ==> exists i :: 0 <= i < |ts| && ts[i] == found.value && forall j :: 0 <= j < i ==> !Matches(ts[j], tag, f))
            && (found.None? ==> forall i :: 0 <= i < |ts| ==> !Matches(ts[i], tag, f))
    decreases Rank(p)
  {
    var (more, p1) := Read(p);
    if more && !Matches(p1, tag, f) {
      SearchFindsFirst(p1, tag, f);
      var ts := Tokens(p);
      var rest := Tokens(p1);
      assert ts == [p1] + rest;
      var (found, _) := SearchWhere(p, tag, f);
      if found.Some? {
        var i :| 0 <= i < |rest| && rest[i] == found.value && forall j :: 0 <= j < i ==> !Matches(rest[j], tag, f);
        assert ts[i + 1] == found.value;
        forall j | 0 <= j < i + 1 ensures !Matches(ts[j], tag, f) {
          if j > 0 { assert ts[j] == rest[j - 1]; }
        }
      } else {
        forall i | 0 <= i < |ts| ensures !Matches(ts[i], tag, f) {
          if i > 0 { assert ts[i] == rest[i - 1]; }
        }
      }
    } else if more {
      assert Tokens(p)[0] == p1;
    }
  }

  /**
   * `SearchEach(tag, f, a)`: reads up to the closing tag of the element
   * the parser is on (`"/" + Tag`) and answers the states in which the
   * action runs, in order.
   */
  function SearchEach(p: Parser, tag: string, f: Parser -> bool): (r: (seq<Parser>, Parser))
    ensures forall q :: q in r.0 ==> Matches(q, tag, f)
    ensures r.1.tag == Some("/" + p.tag.GetOr("")) || !r.1.cursor.open
  {
    SearchEachLoop(p, "/" + p.tag.GetOr(""), tag, f)
  }

  function SearchEachLoop(p: Parser, end: string, tag: string, f: Parser -> bool): (r: (seq<Parser>, Parser))
    ensures forall q :: q in r.0 ==> Matches(q, tag, f)
    ensures r.1.tag == Some(end) || !r.1.cursor.open
    decreases Rank(p)
  {
    var (more, p1) := Read(p);
    if !more then ([], p1)
    else if p1.tag == Some(end) then ([], p1)
    else
      var (found, q) := SearchEachLoop(p1, end, tag, f);
      ((if Matches(p1, tag, f) then [p1] else []) + found, q)
  }

  /** The tokens before the first one tagged `end`. */
  function Until(ts: seq<Parser>, end: string): (r: seq<Parser>)
    ensures |r| <= |ts| && r == ts[..|r|]
    ensures forall q :: q in r ==> q.tag != Some(end)
    ensures |r| < |ts| ==> ts[|r|].tag == Some(end)
  {
    if |ts| == 0 || ts[0].tag == Some(end) then [] else [ts[0]] + Until(ts[1..], end)
  }

  function Filter(ts: seq<Parser>, tag: string, f: Parser -> bool): (r: seq<Parser>)
  {
    if |ts| == 0 then [] else (if Matches(ts[0], tag, f) then [ts[0]] else []) + Filter(ts[1..], tag, f)
  }

  /** `SearchEach` acts on exactly the matching tokens before the closing tag, in stream order. */
  lemma {:induction false} SearchEachMatchesTokens(p: Parser, end: string, tag: string, f: Parser -> bool)
    ensures SearchEachLoop(p, end, tag, f).0 == Filter(Until(Tokens(p), end), tag, f)
    decreases Rank(p)
  {
    var (more, p1) := Read(p);
    if more && p1.tag != Some(end) {
      SearchEachMatchesTokens(p1, end, tag, f);
      var ts := Tokens(p);
      assert ts == [p1] + Tokens(p1);
      assert ts[1..] == Tokens(p1);
      assert Until(ts, end) == [p1] + Until(Tokens(p1), end);
      assert Until(ts, end)[1..] == Until(Tokens(p1), end);
    } else if more {
      assert Tokens(p)[0] == p1;
    }
  }
}
